=== FILE: README.md ===
# pomo, modelled in Dafny

pomo is a Tkinter Pomodoro application. This project models its core as pure
Dafny functions and proves properties about them. The core covers:

- the countdown engine (`timer.py`);
- the timer page, which turns runs of the countdown into session records
  with a tag, a note and the active time (`ui_timer.py`);
- the weekly and monthly per-tag statistics (`stats.py`);
- the dashboard's period paging, goals panel and goals dialog
  (`ui_dashboard.py`);
- the milestones page with its "days left" and "days since" tables
  (`ui_milestones.py`);
- the older single-window prototype (`app.py`).

Modules, one per file:

| file | module | models |
|---|---|---|
| `common.dfy` | `Common` | `Option`, `Result`, `Clamp` |
| `text.dfy` | `Text` | `str.strip`, digit strings, `f"{n:02d}"`, `float()` on a decimal entry, `int()` truncation, code-point string order |
| `sorted_tags.dfy` | `SortedTags` | sorted distinct tag lists: `sorted(set(...))` and `np.unique` |
| `calendar.dfy` | `Calendar` | proleptic Gregorian day numbers (`date.toordinal`), `isoweekday`, `isocalendar`, `strptime("%Y-%m-%d")`, month bounds |
| `timer.dfy` | `Countdown` | the `Timer` class |
| `presets.dfy` | `Presets` | the minutes/seconds spinbox clamp |
| `timer_tab.dfy` | `TimerTab` | the timer page: tags, session capture, finalising, auto-mode phases |
| `prototype.dfy` | `Prototype` | `app.py` |
| `stats.dfy` | `Stats` | row parsing, week and month windows, per-tag totals, labels |
| `dashboard.dfy` | `Dashboard` | period paging, goals panel rows, goals dialog save |
| `milestones.dfy` | `Milestones` | the two milestone tables, the editor, saving and recounting |

Modelling conventions:

- Time is an integer instant. Every `time.time()` read inside one handler is
  the same `now`, a parameter.
- The local date of a finalised session is a `date` parameter.
- "Today" on the milestones page is a day-number parameter.
- Tk callbacks that a timer step fires (`on_tick`, `on_finish`) are returned
  as a list of notices. The page delivers them in order.
- A Python exception becomes an `Err` value. So does a `date` outside
  years 1..9999.

Quirks of the code that the model keeps and proves:

- `_normalize_tag` cuts after stripping, so it is not idempotent. A
  30-character cut can end in spaces, and the next call strips them
  (`TimerTab.NormalizeTagNotIdempotent`).
- `_finalize_session` writes `start_ts or end_ts`, which treats a session
  started at instant 0 as having no start. The record then starts at its
  own end (`TimerTab.EpochStartQuirk`).
- `_advance_pomodoro_cycle` increments the cycle count before taking it
  modulo `long_every`. A `long_every` of 0 raises after the increment. The
  model returns that half-updated page as the error value.
- Switching auto mode on resets the timer through `_set_phase` without
  closing the run segment, so a running session keeps counting the stopped
  time as active until it is paused or finished
  (`TimerTab.AutoToggleCountsStoppedTime`). Records stay sound.
- The weekly label uses a hyphen between the two days when nothing is in
  the window, and an en dash otherwise (`Stats.WeeklyTotals`).
- `strptime` accepts one-digit months and days, and a space before a
  one-digit day (`Calendar.ParseYmdLenient`).

## Model

| member | source | states |
|---|---|---|
| Common.Clamp | ui_timer.py:162 | the result lies in `[lo, hi]`; it is `x` inside the range and the nearer end outside it |
| Countdown.Init | timer.py:11-21 | a new timer is stopped and valid with 25 minutes left |
| Countdown.Remaining | timer.py:29-32 | the reported remainder is never negative and equals the stored one when that is not negative |
| Countdown.SetSeconds | timer.py:42-46 | a running timer is untouched; a stopped one gets `max(0, seconds)` and keeps its end instant |
| Countdown.Tick | timer.py:91-111 | a stopped timer does nothing; a running one recomputes the remainder from its end instant, stops exactly when nothing is left, and fires one tick notice plus one finish notice on stopping |
| Countdown.Start | timer.py:48-89 | a running timer is untouched; a stopped one runs with end instant `now + remaining` and ticks at once |
| Countdown.Pause | timer.py:58-67 | the result is always stopped; a running timer keeps `max(0, end - now)` and forgets its end instant |
| Countdown.Reset | timer.py:69-78 | pauses, sets `max(0, seconds)` when given, and reports the remainder once |
| Countdown.MinutesSeconds | timer.py:34-39 | `divmod` by 60: `mm * 60 + ss` is the input and `0 <= ss < 60` |
| Countdown.FormatMmss | timer.py:34-39 | the clock text has at least five characters, a colon third from the end, and ends in the two digits of the seconds within the minute |
| Countdown.FormatMmssReadsBack | timer.py:34-39 | the clock text `MM:SS` of any non-negative count reads back as that count of seconds |
| Countdown.FormatInt02Digits | timer.py:39 | `f"{n:02d}"` of a natural number is at least two digits and reads back as `n` |
| Countdown.StepsKeepValid | timer.py:42-111 | every operation keeps the timer's invariant: a running timer has an end instant and no remainder is negative |
| Countdown.StartThenPause | timer.py:48-67 | starting then pausing at the same instant gives back the remainder |
| Countdown.TickAtEndFinishes | timer.py:103-111 | a tick at or after the end instant reports 0, stops the timer and fires the finish callback |
| Countdown.TickBeforeEnd | timer.py:103-104 | a tick before the end instant reports the time left and keeps running |
| Countdown.StartAtZeroFinishes | timer.py:48-111 | starting with nothing left finishes at once |
| Countdown.StartWithTimeLeft | timer.py:48-56 | starting with time left runs and reports that time |
| Countdown.RunTicks | timer.py:81-89 | the scheduled tick chain keeps the end instant and the invariant and does nothing when stopped |
| Countdown.RunTicksFinishOnce | timer.py:81-111 | over any tick instants the finish callback fires once if some instant reaches the end and never otherwise; before the end the timer still runs with `end - last` left |
| Presets.PresetSeconds | ui_timer.py:157-163 | the preset is between 1 and `180*60+59`; an unreadable minutes field falls back to 25 and an unreadable seconds field to 0; minutes are clamped to 0..180 and seconds to 0..59 before `m*60+s`, and a total of 0 gives 1 |
| Presets.PresetReadsBack | ui_timer.py:157-163 | an in-range non-zero preset split back into minutes and seconds gives the spinbox entries |
| Presets.PresetOfClampedFields | ui_timer.py:157-163 | the preset of any entries is the preset of the clamped entries, which lie in range |
| Text.Strip | ui_timer.py:166 | the result has no surrounding whitespace, is a contiguous slice of the input, and is empty exactly when the input is all whitespace |
| Text.StripOfStripped | ui_milestones.py:144-145 | stripping an already stripped string changes nothing |
| Text.PadDigits | timer.py:39 | zero padding to a width gives that many digits that read back as the number |
| Text.Decimal | timer.py:39 | `str(n)` is digits with no leading zero that read back as `n` |
| Text.Truncate | ui_dashboard.py:227 | `int(x)` truncates toward zero: it is within one of `x` on the side of zero |
| Text.ParseUnsignedDecimal | ui_dashboard.py:227 | a parsed unsigned decimal is never negative |
| Text.ParseDecimal | ui_dashboard.py:227 | `float()` of an entry with a leading '-' is never positive and of any other entry never negative |
| Text.SignedDecimal | ui_dashboard.py:227 | a leading '+' changes nothing and a leading '-' negates the value of the unsigned text after it |
| Text.DecimalReadsBack | ui_dashboard.py:216-227 | `float(str(n))` and `float("-" + str(n))` give back `n` and `-n` |
| Text.DigitsDotDigits | ui_dashboard.py:227 | `float("d.p")` for digit runs `d` and `p` is `d` plus `p` over ten to the length of `p` |
| Text.UnsignedIsDecimal | ui_dashboard.py:227 | an unsigned entry starting with a digit has the same value as a decimal, and the negated value after '-' |
| Text.FractionReadsBack | ui_dashboard.py:227 | an entry `w.f` with `k` fraction digits reads as `w + f / 10^k`, and as its negation after '-' |
| Text.LessTransitive | ui_milestones.py:120 | code-point string order is transitive |
| Text.LessTotal | ui_milestones.py:120 | code-point string order is total |
| Text.LessIrreflexive | ui_milestones.py:120 | code-point string order is strict |
| SortedTags.Insert | stats.py:64 | inserting into a strictly sorted list keeps it strictly sorted and adds exactly the new tag |
| SortedTags.SortedUnique | stats.py:64 | `sorted(set(xs))`: strictly sorted with exactly the elements of `xs` |
| SortedTags.StrictlySortedUnique | stats.py:64 | two strictly sorted lists with the same elements are equal, so the sorted distinct tags are unique |
| Calendar.DaysInMonth | stats.py:73-79 | every month has 28 to 31 days |
| Calendar.IsoWeekday | stats.py:35 | `isoweekday` is 1 (Monday) to 7 (Sunday) |
| Calendar.MonthLength | stats.py:75-78 | the first of the next month is `DaysInMonth` days after the first of this one |
| Calendar.YearOfOrdinal | stats.py:74 | the year recovered from a valid date's day number is its year |
| Calendar.MondayOf | stats.py:35-36 | the Monday of a day's week is a Monday at most six days before it |
| Calendar.WeekBounds | stats.py:31-38 | `(monday, sunday)` exists exactly when the Sunday is in range; the two are six days apart and enclose the day |
| Calendar.SameWeek | stats.py:54-55 | a day lies in another day's Monday-to-Sunday window exactly when both have the same Monday |
| Calendar.NextWeekIsAdjacent | ui_dashboard.py:179-181 | the week seven days on starts the day after this week's Sunday |
| Calendar.Week1MondayIsIsoWeekOne | stats.py:69 | ISO week 1 starts on the Monday of the week that holds 4 January |
| Calendar.IsoYearLength | stats.py:69 | an ISO year has 52 or 53 whole weeks |
| Calendar.IsoCalendarSpec | stats.py:69 | `isocalendar()` places a day in its ISO year, between that year's week-1 Monday and the next, with week 1..53 and the day's ISO weekday |
| Calendar.WeekBoundsIsIsoWeek | stats.py:69 | the Monday of `week_bounds` is the first day of the ISO week the label names |
| Calendar.MonthBounds | stats.py:73-79 | `(first, last)` exists exactly for a valid month whose next month is representable; they are the 1st and the last day, and the day after `last` is the next month's 1st |
| Calendar.ParseYmd | stats.py:7-9 | every accepted string denotes a valid calendar date |
| Calendar.ParseYmdLenient | stats.py:9 | one-digit months and days, and a space before a one-digit day, are accepted; 30 February, month 13 and trailing text are rejected |
| Calendar.ParseDay | ui_milestones.py:11-12 | `_parse_date` succeeds exactly when `strptime("%Y-%m-%d")` does, giving a representable day number |
| Calendar.ParseDayOfFormatted | ui_milestones.py:11-12 | a date written as `%Y-%m-%d` reads back as that date's day number |
| Calendar.ParseFormatYmd | stats.py:7-9 | a date written as `%Y-%m-%d` parses back to the same date |
| Calendar.FormatParseYmd | stats.py:7-9 | a canonical `YYYY-MM-DD` string that parses is written back unchanged |
| Calendar.DayRange | stats.py:7-9 | the day number of a valid date lies in the representable range |
| TimerTab.NormalizeTag | ui_timer.py:165-166 | the tag is 1 to 30 characters; an all-whitespace input gives "Other", any other input the first 30 characters of its stripped text |
| TimerTab.NormalizeTagKeeps | ui_timer.py:165-166 | a stripped tag of 1 to 30 characters is kept as it is |
| TimerTab.NormalizeTagNotIdempotent | ui_timer.py:165-166 | normalising twice can differ from normalising once |
| TimerTab.AddTag | ui_timer.py:173-180 | the field shows the normalised tag; it is appended only when absent; the list stays duplicate-free and nothing else changes |
| TimerTab.AddTagOnPage | ui_timer.py:173-180 | adding a tag on the page updates the field and list as `AddTag` does and saves the list to the config only when the tag was appended; nothing else changes |
| TimerTab.Without | ui_timer.py:187 | the filter keeps exactly the other tags and no duplicates, and a list whose first entry survives keeps it first |
| TimerTab.WithoutConcat | ui_timer.py:187 | filtering a concatenation filters each part and keeps them in order, so the survivors keep their relative order |
| TimerTab.WithoutSingle | ui_timer.py:187 | a one-entry list keeps its entry exactly when it is not the deleted tag |
| TimerTab.WithoutOnlyT | ui_timer.py:187 | a list made only of the deleted tag filters to nothing |
| TimerTab.DeleteTag | ui_timer.py:182-192 | the active session's tag is refused; otherwise the tag is gone, every other tag stays, in its order, an emptied list becomes exactly ["Other"] (even when it held the deleted tag several times), the field shows the first surviving tag and the new list is saved to the config |
| TimerTab.DeleteShowsFirstSurvivor | ui_timer.py:182-192 | after a deletion the field shows the first tag in the list that differs from the deleted one |
| TimerTab.WithoutAppended | ui_timer.py:177-187 | filtering out a tag just appended to a list without it gives back the list |
| TimerTab.AddThenDeleteTag | ui_timer.py:173-192 | adding a new tag and then deleting it gives back the tag list, saves that list, and shows its first entry |
| TimerTab.CloseSegment | ui_timer.py:261-267 | an open run segment is added to the active time and closed; with none open nothing changes |
| TimerTab.Finalize | ui_timer.py:301-336 | an active session yields one record and the page becomes idle; the record ends now, has `max(0, active)` seconds, the capture's tag or "Other" when that is missing or empty, the capture's start or the end when that is missing or 0, the note, the date and "auto" exactly when auto; an idle page yields nothing |
| TimerTab.FinalizeTwice | ui_timer.py:301-336 | finalising again right after yields no second record |
| TimerTab.ResetTimer | ui_timer.py:283-285 | the timer is stopped at `max(0, seconds)`, the clock shows that, and nothing else changes |
| TimerTab.TimerFinished | ui_timer.py:199-211 | the finish callback records exactly the active session, marked "auto", with every field taken from the capture once the last segment is counted, resets the timer to the preset and changes nothing else |
| TimerTab.Deliver | ui_timer.py:195-211 | tick notices alone never touch the session or emit records; without a finish notice the timer and session are untouched; the phase, cycle count and auto mode never change |
| TimerTab.OnStart | ui_timer.py:241-259 | a running timer ignores start; a start never changes the phase, cycle count or auto mode |
| TimerTab.OpenSession | ui_timer.py:243-257 | a first start opens a session with the normalised tag added to the list, the stripped note, and session and segment starting now, and saves the list only when the tag was new; a resume only opens a missing segment; nothing else changes |
| TimerTab.FirstStart | ui_timer.py:241-259 | a first start with time left opens the session, runs the timer to end at `now + remaining`, shows it, and records nothing |
| TimerTab.StartRuns | ui_timer.py:241-259 | any start with time left is the session opening followed by a running timer, with no record |
| TimerTab.FirstStartAtZero | ui_timer.py:241-259 | a first start with nothing left records a zero-length automatic session and returns to the preset |
| TimerTab.OnPause | ui_timer.py:261-268 | pausing a running timer pauses it and closes the open segment; otherwise nothing changes |
| TimerTab.OnFinish | ui_timer.py:270-281 | finishing an active session records it as "manual" with every field taken from the capture, closing a running segment first; it clears the session, resets the timer to the preset and changes nothing else; without a session nothing happens |
| TimerTab.OnReset | ui_timer.py:283-293 | reset discards the session without a record and stops the timer at the preset |
| TimerTab.ResetEmitsNothing | ui_timer.py:283-293 | reset never emits a record and always leaves the page idle |
| TimerTab.OnPresetChanged | ui_timer.py:232-235 | a running timer ignores spinbox edits; a stopped one takes the preset |
| TimerTab.OnPresetChangedIdempotent | ui_timer.py:232-235 | applying the preset twice is the same as once |
| TimerTab.SetPhase | ui_timer.py:133-147 | the phase is recorded; in auto mode the timer is stopped at the phase length (25/5/15 minutes by default), otherwise it is untouched |
| TimerTab.SetPhaseClockText | ui_timer.py:142-146 | in auto mode the clock then reads the phase's minutes, two digits wide, followed by ":00" |
| TimerTab.NextPhase | ui_timer.py:214-226 | after a break comes work; after work the count goes up and a long break follows exactly when the new count is a multiple of `long_every`; a zero `long_every` is an error |
| TimerTab.AdvancePomodoro | ui_timer.py:214-229 | the cycle fails exactly for work with `long_every` 0, leaving the incremented count; otherwise the page takes the next phase and count, and is the start of that phase |
| TimerTab.AdvanceAlternates | ui_timer.py:214-229 | work is followed by a break with the count one higher, a long break exactly when the new count is a multiple of `long_every`; a break is followed by work with the count kept |
| TimerTab.OnAutoToggled | ui_timer.py:118-147 | the mode flips and the phase becomes work; switching on sets the spinboxes to the work length and 0 and stops the timer there; switching off leaves everything else; the session, count and config are kept |
| TimerTab.AutoToggleCountsStoppedTime | ui_timer.py:118-147 | switching auto mode on while a session runs stops the timer without closing its segment, so the stopped time until the finish is counted as active |
| TimerTab.StartThenAutoToggle | ui_timer.py:118-147 | starting a session and then switching auto mode on emits nothing and stops the timer, with the session's run segment still open |
| TimerTab.RestartAndFinish | ui_timer.py:232-293 | starting again and finishing a session whose segment never closed counts the whole time since the segment opened as active |
| TimerTab.InitialTags | ui_timer.py:57-58 | the tag list is never empty; it is the configured list when that is non-empty, `["Reading", "Other"]` when none is configured, and `["Other"]` for an empty one |
| TimerTab.InitTab | ui_timer.py:57-58 | the page starts idle with a stopped 25:00 timer and the first tag selected, satisfying the page invariant |
| TimerTab.Step | ui_timer.py:232-293 | only start, finish, the timer's own tick and the start/pause toggle can emit records |
| TimerTab.ToggleIsStartOrPause | ui_timer.py:237-239 | the space-bar toggle pauses a running timer and starts a stopped one |
| TimerTab.StepKeeps | ui_timer.py:232-336 | every event keeps the page invariant and clock facts and emits at most one record, and every record is sound: its start is no later than its end and its active time fits between them |
| TimerTab.OnStartKeeps | ui_timer.py:241-259 | starting keeps the invariant and emits only sound records |
| TimerTab.DeliverKeeps | ui_timer.py:195-211 | delivering a timer step's notices keeps the invariant and emits at most one sound record |
| TimerTab.FinalizeSound | ui_timer.py:301-315 | a finalised record of a timely capture is sound |
| TimerTab.RunRecordsSound | ui_timer.py:232-336 | over any chronological run of events the invariant holds and every record is sound |
| TimerTab.PausedTimeNotCounted | ui_timer.py:241-281 | start at 100, pause at 110, resume at 210, finish at 215 records 15 active seconds from 100 to 215 |
| TimerTab.EpochStartQuirk | ui_timer.py:306 | a session started at instant 0 is recorded as starting at its end, giving a record that is not sound |
| Prototype.Init | app.py:64-68 | the prototype starts stopped at 25:00 with 25:00 shown |
| Prototype.OnFinish | app.py:105-113 | on finish the timer is reset to the preset and the clock shows it |
| Prototype.Step | app.py:115-137 | spinbox edits reach a stopped timer only; reset stops at the preset and shows it; pause defers to the timer |
| Prototype.StepKeepsValid | app.py:115-137 | every prototype event keeps the timer's invariant |
| Prototype.AgreesWithTimerPage | app.py:100-137 | from the same timer and spinbox entries, start, tick and reset leave the prototype and the timer page with the same timer and clock |
| Stats.FirstBadDate | stats.py:25 | the first row whose date is missing or does not parse, if any |
| Stats.FirstBadDuration | stats.py:26 | the first row whose duration `int()` refuses, if any; a missing duration counts as 0 |
| Stats.ToEntry | stats.py:25-27 | a readable session becomes an entry on a representable day; a missing duration counts 0 seconds and a missing tag is "Other" |
| Stats.StoredSessionReadsBack | stats.py:7-9 | a session whose date was written as `%Y-%m-%d` is read back on that same day with its seconds and tag |
| Stats.ParseRows | stats.py:15-28 | parsing succeeds exactly when every row has a valid date and duration, giving one entry per row; otherwise it reports the first bad date, or with all dates good the first bad duration |
| Stats.Window | stats.py:55-61 | the mask keeps exactly the entries dated inside the window, and is empty exactly when none is |
| Stats.Totals | stats.py:60-66 | totals are keyed by the strictly sorted distinct tags seen in the window, each with the sum of that tag's seconds there |
| Stats.TotalOfIsSum | stats.py:64-66 | the total looked up for any tag is that tag's sum over the window, zero when absent |
| Stats.TotalsAddUp | stats.py:64-66 | the totals add up to all seconds in the window |
| Stats.AppendMovesOneTotal | stats.py:15-66 | one more session changes only its own tag's total, by its seconds, and only when it falls in the window |
| Stats.EmptyWindowNoTotals | stats.py:56-58 | an empty window gives no totals |
| Stats.NonEmptyWindowTotals | stats.py:60-66 | a non-empty window gives at least one total |
| Stats.WeeklyTotals | stats.py:40-70 | it fails exactly on a bad row or a week past the last date; otherwise the totals are those of the Monday-to-Sunday window holding the reference day, the label names its ISO year and week, and the en dash appears exactly when there are totals |
| Stats.MonthlyTotals | stats.py:81-104 | it fails exactly on a bad row, or an invalid month when there are rows; otherwise the totals are those of the month's window and the label is `YYYY-MM` |
| Stats.BadRowFailsBoth | stats.py:15-28 | a bad row makes both weekly and monthly totals fail with the same error, at or before that row |
| Stats.NothingInPeriod | stats.py:93-94 | with no session in the month the totals are empty and the label is still given |
| Stats.MonthLabelReadsBack | stats.py:89-104 | the month label reads back as its year and month |
| Dashboard.Init | ui_dashboard.py:28-30 | the dashboard opens on today's week, with the year and month of today |
| Dashboard.NextPeriod | ui_dashboard.py:179-187 | in week mode the reference day moves exactly 7 days forward, to the next week, when that is in range; in month mode the month moves to the next, rolling over December |
| Dashboard.PrevPeriod | ui_dashboard.py:169-177 | in week mode the reference day moves exactly 7 days back, to the previous week, when in range; in month mode to the previous month, rolling back January |
| Dashboard.PagingRoundTrip | ui_dashboard.py:169-187 | next then previous, and previous then next, give back the view |
| Dashboard.PagingKeepsValid | ui_dashboard.py:169-187 | paging keeps the view valid |
| Dashboard.NextPeriodIsAdjacent | ui_dashboard.py:179-187 | the next week or month starts the day after the current one ends |
| Dashboard.WeekTotals | ui_dashboard.py:83-86 | in week mode the totals are the weekly totals of the reference day's week, failing as those do |
| Dashboard.MonthTotals | ui_dashboard.py:83-87 | in month mode the totals are the monthly totals of the selected month, failing as those do |
| Dashboard.CurrentWeekTotals | ui_dashboard.py:83-86 | in week mode a successful result is the per-tag totals of the Monday-to-Sunday window holding the reference day |
| Dashboard.CurrentMonthTotals | ui_dashboard.py:83-87 | in month mode a successful result over some sessions is the per-tag totals of the selected month's window |
| Dashboard.CurrentTotalsFailOnBadRow | ui_dashboard.py:83-87 | an unreadable session row makes the period totals fail in either mode |
| Dashboard.ShownTags | ui_dashboard.py:145-151 | a goal is shown exactly when its target reads as a positive number |
| Dashboard.GoalPanel | ui_dashboard.py:145-164 | one row per shown goal in tag order; each has its target, the minutes done for its tag, and a bar value of `min(done, goal)` |
| Dashboard.UntrackedGoalIsEmpty | ui_dashboard.py:156 | a goal whose tag has no total shows zero done |
| Dashboard.DialogTags | ui_dashboard.py:209-210 | the dialog lists, sorted and without repeats, the configured tags and the tags with goals |
| Dashboard.GoalTarget | ui_dashboard.py:226-229 | `int(float(s))` truncates the entry's value toward zero, for negative values as well, and an unreadable entry counts as 0 |
| Dashboard.FractionalTarget | ui_dashboard.py:226-229 | the target of a fractional entry `w.f` is its whole part `w` |
| Dashboard.NegativeFractionalTarget | ui_dashboard.py:226-229 | the target of `-w.f` is `-w`: "-2.5" gives -2, truncated toward zero |
| Dashboard.FractionalGoal | ui_dashboard.py:222-231 | a fractional entry saves its whole part: "2.5" stores 2, and "0.5" saves nothing |
| Dashboard.SavesStripped | ui_dashboard.py:222-231 | an entry with nothing to strip saves exactly when it is not empty and its target is positive |
| Dashboard.SaveGoals | ui_dashboard.py:220-232 | only positive targets are stored, at most one per row |
| Dashboard.SaveGoalsSound | ui_dashboard.py:220-232 | every stored goal comes from a row with a non-blank entry and the truncated value of that entry |
| Dashboard.SaveGoalsComplete | ui_dashboard.py:220-232 | every row with a non-blank entry of positive value is stored |
| Dashboard.SaveGoalsDistinct | ui_dashboard.py:220-232 | distinct dialog rows give a goal map without repeated tags |
| Dashboard.SavedGoalsAreShown | ui_dashboard.py:220-232 | after saving, the panel shows exactly the saved tags, in sorted order |
| Dashboard.ResaveKeepsGoals | ui_dashboard.py:216-232 | reopening the dialog and saving without edits keeps the stored goals unchanged |
| Milestones.InsertBy | ui_milestones.py:120 | inserting into a list sorted by date keeps it sorted and adds the item |
| Milestones.SortBy | ui_milestones.py:120-148 | the sort by date is a sorted permutation of its input, ascending or descending |
| Milestones.SortBySorted | ui_milestones.py:120 | sorting an already sorted list changes nothing |
| Milestones.DaysOf | ui_milestones.py:127-136 | an unreadable date shows "?"; otherwise the count is `date - today` for countdown and `today - date` for since |
| Milestones.DaysMirror | ui_milestones.py:129-134 | the countdown count is minus the since count; it is zero on today and positive in the future |
| Milestones.FillTree | ui_milestones.py:116-137 | the table holds, in some order, exactly the displayable items' rows, each shown with its stripped title and date and its day count |
| Milestones.DisplayFrom | ui_milestones.py:122-137 | every shown row comes from a stored item with a title and a date |
| Milestones.DisplayShown | ui_milestones.py:122-137 | every shown row carries its stripped fields and the day count of its date |
| Milestones.FillTreeOrdered | ui_milestones.py:116-137 | rows appear by date, ascending for countdown and descending for since |
| Milestones.TreeToList | ui_milestones.py:139-149 | saving a table gives the rows with a title and a date, stripped and sorted by date |
| Milestones.KeepMembers | ui_milestones.py:142-147 | an item is saved exactly when some row has that stripped title and date, both non-empty |
| Milestones.SaveThenShow | ui_milestones.py:139-149 | a saved countdown table shows again with the same titles and dates in the same order |
| Milestones.Refresh | ui_milestones.py:111-114 | refreshing fills both tables from the data: each holds exactly the rows of a fresh display of its list, every row showing its day count |
| Milestones.SaveAll | ui_milestones.py:238-247 | saving stores both tables and refreshes; the countdown table then lists the stored items in order and the since table the same rows as a fresh display |
| Milestones.Recompute | ui_milestones.py:249-265 | recounting keeps every title and date and sets each day count from the stripped date |
| Milestones.RecomputeAgreesWithFill | ui_milestones.py:249-265 | recounting a freshly filled table changes nothing |
| Milestones.DeleteKeeps | ui_milestones.py:164-169 | every unselected row survives deletion |
| Milestones.DeleteOnly | ui_milestones.py:164-169 | every row left after deletion is an unselected one |
| Milestones.DeleteNothing | ui_milestones.py:164-167 | with nothing selected the table is unchanged |
| Milestones.DeleteRows | ui_milestones.py:164-169 | deleting never lengthens the table |
| Milestones.OnOk | ui_milestones.py:200-218 | a blank title or date is refused as required; an unreadable date is refused as invalid; otherwise the stripped pair is appended or replaces the edited row, and every row's day count is that of its stripped date |
| Milestones.AcceptedDateCounts | ui_milestones.py:206-218 | the row just added or edited shows the days to or since its date, never "?" |

## Left out

- Tk widgets, layout, button states, message boxes, the window title and the keyboard bindings: presentation only.
- The `after(1000, ...)` scheduler: a tick is an event at a given instant. `Countdown.RunTicks` covers a chain of them.
- Floating-point time and `round()`: instants are integers, so `int(round(end - now))` is `end - now`.
- `_to_minutes_one_decimal`: totals stay in integer seconds. The goals panel takes the minutes conversion as a parameter.
- `date.today()` and `datetime.fromtimestamp`: the local date and timezone are parameters.
- `strftime('%b %d')` in the weekly label: month abbreviations depend on the locale. The label keeps the ISO year, week, Monday, Sunday and separator.
- Storage and `app_state` (JSON files, observers, `save_goals`, `save_milestones`): I/O. `storage.py`, `app_state.py` and `main.py` are not part of this model.
- The matplotlib chart and the total labels of the dashboard: drawing only.
- The last-session preview text of the timer page: display only.
- The Tk variable traces that `_on_auto_mode_toggled` adds: a spinbox edit is an event of its own, so extra traces firing the same handler again change nothing (`TimerTab.OnPresetChangedIdempotent`).
- The window title that `_set_phase` updates: presentation only.
- TimerTab.SetPhase: with a negative configured length the clock text `f"{mins:02d}:00"` (for example "-5:00") is not modelled; the model shows the timer's remaining time instead. `TimerTab.SetPhaseClockText` states the clock text for lengths of 0 or more.
- `_advance_pomodoro_cycle` has no caller in the code; it is modelled as an operation of its own (`TimerTab.AdvancePomodoro`) and is not an event of `TimerTab.Step`.
- Unicode digits accepted by `int()` and `strptime`: only ASCII digits are modelled.
- Dashboard.GoalTarget: exponent, `inf`, `nan` and underscore forms of `float()` are not modelled, and neither is `int(inf)` raising `OverflowError`; the entry is read as an optional sign and a plain decimal.
- Decimal-to-binary rounding of `float()`: decimals are read as exact reals.
- NaN goal targets and non-string JSON values in the goal map: a stored target is a number or absent.
- Dashboard.CurrentTotals: carries no contract of its own; `Dashboard.CurrentWeekTotals`, `Dashboard.CurrentMonthTotals` and `Dashboard.CurrentTotalsFailOnBadRow` state its results, and in month mode with no sessions at all the result is not stated beyond what `Dashboard.MonthTotals` promises.
- Milestones.Display: its own contract only bounds the length; what the rows are is stated by `Milestones.DisplayFrom`, `Milestones.DisplayShown` and `Milestones.DisplayAll`.
- Milestones.SaveAll: the since table is shown to hold the same rows as a fresh display, not the same order; the order is stated separately by `Milestones.FillTreeOrdered`.
- Milestones.FillTree: the tie order of Python's stable sort among equal dates is modelled by `Milestones.InsertBy` only, not stated as a property.
- Milestones.DeleteRows: its own contract only bounds the length; what it keeps is stated through `Milestones.DeleteKeeps`, `Milestones.DeleteOnly` and `Milestones.DeleteNothing`; the kept rows' relative order is not stated.
- The `_edit_row` "select a row" message: without a selection nothing happens, which the model expresses by requiring an edit target to be a row.
- The duplicated `APP_TITLE` constant of `app.py`: only the window title uses it.


=== FILE: calendar.dfy ===
/**
 * The proleptic Gregorian calendar of Python's `datetime.date`, on day
 * numbers: a date is its `toordinal()` value (0001-01-01 is day 1, a Monday)
 * and the representable range is 0001-01-01 .. 9999-12-31. Also the ISO 8601
 * week date (`isocalendar()`) and the strict `YYYY-MM-DD` text form.
 */
module Calendar {
  import opened Common
  import opened Text

  /** A date as year, month and day; `ValidYmd` says it names a day of `date`'s range. */
  datatype Ymd = Ymd(year: int, month: int, day: int)

  /** A day number, Python's `date.toordinal()`. */
  type Day = int

  const MinYear: int := 1
  const MaxYear: int := 9999
  /** The day number of 9999-12-31, the last day `date` can hold. */
  const MaxDay: Day := 3652059

  predicate InRange(o: Day) {
    1 <= o <= MaxDay
  }

  predicate IsLeap(y: int) {
    y % 4 == 0 && (y % 100 != 0 || y % 400 == 0)
  }

  function DaysInMonth(y: int, m: int): (n: int)
    requires 1 <= m <= 12
    ensures 28 <= n <= 31
  {
    if m == 2 then (if IsLeap(y) then 29 else 28)
    else if m == 4 || m == 6 || m == 9 || m == 11 then 30
    else 31
  }

  /** Days of year `y` before the first of month `m`. */
  function DaysBeforeMonth(y: int, m: int): int
    requires 1 <= m <= 12
  {
    [0, 31, 59, 90, 120, 151, 181, 212, 243, 273, 304, 334][m - 1]
      + (if m > 2 && IsLeap(y) then 1 else 0)
  }

  /** Days before January 1 of year `y` (Python floors, as Dafny does for a positive divisor). */
  function DaysBeforeYear(y: int): int {
    var p := y - 1;
    365 * p + p / 4 - p / 100 + p / 400
  }

  predicate ValidYmd(d: Ymd) {
    && MinYear <= d.year <= MaxYear
    && 1 <= d.month <= 12
    && 1 <= d.day <= DaysInMonth(d.year, d.month)
  }

  /** `date(y, m, d).toordinal()` */
  function Ordinal(d: Ymd): Day
    requires 1 <= d.month <= 12
  {
    DaysBeforeYear(d.year) + DaysBeforeMonth(d.year, d.month) + d.day
  }

  /** `date.isoweekday()`: 1 for Monday .. 7 for Sunday. */
  function IsoWeekday(o: Day): (w: int)
    ensures 1 <= w <= 7
  {
    (o + 6) % 7 + 1
  }

  // ---------------------------------------------------------------------------
  // Year and month arithmetic
  // ---------------------------------------------------------------------------

  lemma YearLength(y: int)
    ensures DaysBeforeYear(y + 1) - DaysBeforeYear(y) == if IsLeap(y) then 366 else 365
  {
    FloorStep4(y);
    FloorStep100(y);
    FloorStep400(y);
  }

  lemma FloorStep4(y: int)
    ensures y / 4 - (y - 1) / 4 == if y % 4 == 0 then 1 else 0
  {
  }

  lemma FloorStep100(y: int)
    ensures y / 100 - (y - 1) / 100 == if y % 100 == 0 then 1 else 0
  {
  }

  lemma FloorStep400(y: int)
    ensures y / 400 - (y - 1) / 400 == if y % 400 == 0 then 1 else 0
  {
  }

  lemma {:induction false} DaysBeforeYearMonotone(a: int, b: int)
    requires a <= b
    ensures DaysBeforeYear(a) + 365 * (b - a) <= DaysBeforeYear(b)
    decreases b - a
  {
    if a < b {
      YearLength(a);
      DaysBeforeYearMonotone(a + 1, b);
    }
  }

  /** `(y, m)` followed by one month: December rolls over into January of `y + 1`. */
  function NextMonth(y: int, m: int): (r: (int, int))
    requires 1 <= m <= 12
    ensures 1 <= r.1 <= 12
  {
    if m == 12 then (y + 1, 1) else (y, m + 1)
  }

  /** The first of the month after `(y, m)` comes `DaysInMonth(y, m)` days after the first of `(y, m)`. */
  lemma MonthLength(y: int, m: int)
    requires 1 <= m <= 12
    ensures Ordinal(Ymd(y, m, 1)) + DaysInMonth(y, m) == Ordinal(Ymd(NextMonth(y, m).0, NextMonth(y, m).1, 1))
  {
    if m == 12 {
      YearLength(y);
    }
  }

  /** The calendar year a day number falls in: `date.fromordinal(o).year`. */
  function YearOf(o: Day): (y: int)
    requires o >= 1
    ensures y >= 1 && DaysBeforeYear(y) < o <= DaysBeforeYear(y + 1)
  {
    YearFrom(o, 1)
  }

  function YearFrom(o: Day, y: int): (r: int)
    requires y >= 1 && DaysBeforeYear(y) < o
    ensures r >= y && DaysBeforeYear(r) < o <= DaysBeforeYear(r + 1)
    decreases o - DaysBeforeYear(y)
  {
    YearLength(y);
    if o > DaysBeforeYear(y + 1) then YearFrom(o, y + 1) else y
  }

  /** The year `YearOf` finds is the year of the date: each day number lies in exactly one year. */
  lemma YearOfOrdinal(d: Ymd)
    requires ValidYmd(d)
    ensures YearOf(Ordinal(d)) == d.year
  {
    var o := Ordinal(d);
    var y := YearOf(o);
    YearLength(d.year);
    assert DaysBeforeYear(d.year) < o <= DaysBeforeYear(d.year + 1);
    if y < d.year {
      DaysBeforeYearMonotone(y + 1, d.year);
    } else if y > d.year {
      DaysBeforeYearMonotone(d.year + 1, y);
    }
  }

  // ---------------------------------------------------------------------------
  // Weeks (stats.week_bounds) and ISO week dates (date.isocalendar)
  // ---------------------------------------------------------------------------

  /** The Monday on or before `o`. */
  function MondayOf(o: Day): (mon: Day)
    ensures IsoWeekday(mon) == 1
    ensures mon <= o < mon + 7
  {
    o - (IsoWeekday(o) - 1)
  }

  /**
   * `stats.week_bounds`: the Monday and the Sunday of the week of `o`;
   * `None` where `monday + timedelta(days=6)` leaves `date`'s range
   * (the week of 9999-12-31), which Python reports as an OverflowError.
   */
  function WeekBounds(o: Day): (r: Option<(Day, Day)>)
    requires InRange(o)
    ensures r.Some? <==> MondayOf(o) + 6 <= MaxDay
    ensures r.Some? ==> r.value.0 == MondayOf(o) && r.value.1 == r.value.0 + 6
    ensures r.Some? ==> InRange(r.value.0) && InRange(r.value.1) && r.value.0 <= o <= r.value.1
  {
    var mon := o - (IsoWeekday(o) - 1);
    var sun := mon + 6;
    if sun <= MaxDay then Some((mon, sun)) else None
  }

  /** A day lies between the Monday and the Sunday of `o`'s week exactly when it has the same Monday. */
  lemma SameWeek(o: Day, d: Day)
    ensures MondayOf(o) <= d <= MondayOf(o) + 6 <==> MondayOf(d) == MondayOf(o)
  {
  }

  /** Paging a week forward by seven days lands on the Monday right after this week's Sunday. */
  lemma NextWeekIsAdjacent(o: Day)
    ensures MondayOf(o + 7) == MondayOf(o) + 6 + 1
  {
  }

  /** `_isoweek1monday(year)`: the Monday of ISO week 1, the week holding January 4. */
  function Week1Monday(year: int): Day {
    Week1MondayAfter(DaysBeforeYear(year) + 1)
  }

  /** The Monday of the week that holds the fourth day from `firstDay` on. */
  function Week1MondayAfter(firstDay: Day): (mon: Day)
    ensures IsoWeekday(mon) == 1
    ensures mon <= firstDay + 3 <= mon + 6
  {
    var firstWeekday := (firstDay + 6) % 7;
    var monday := firstDay - firstWeekday;
    if firstWeekday > 3 then monday + 7 else monday
  }

  /** ISO 8601 week 1 of a year is the Monday-to-Sunday week that holds January 4 of that year. */
  lemma Week1MondayIsIsoWeekOne(year: int)
    ensures IsoWeekday(Week1Monday(year)) == 1
    ensures Week1Monday(year) <= DaysBeforeYear(year) + 4 <= Week1Monday(year) + 6
  {
  }

  /** Two Mondays whose distance lies between 359 and 372 days are 52 or 53 weeks apart. */
  lemma MondaysApart(a: Day, b: Day)
    requires IsoWeekday(a) == 1 && IsoWeekday(b) == 1
    requires 359 <= b - a <= 372
    ensures b - a == 364 || b - a == 371
  {
  }

  /** An ISO year has 52 or 53 weeks. */
  lemma IsoYearLength(year: int)
    ensures Week1Monday(year + 1) - Week1Monday(year) == 364
         || Week1Monday(year + 1) - Week1Monday(year) == 371
  {
    YearLength(year);
    Week1MondayIsIsoWeekOne(year);
    Week1MondayIsIsoWeekOne(year + 1);
    MondaysApart(Week1Monday(year), Week1Monday(year + 1));
  }

  datatype IsoDate = IsoDate(year: int, week: int, weekday: int)

  /** `date.isocalendar()`, following Python's algorithm step by step. */
  function IsoCalendar(o: Day): IsoDate
    requires o >= 1
  {
    var y := YearOf(o);
    IsoFrom(o, y, Week1Monday(y - 1), Week1Monday(y), Week1Monday(y + 1))
  }

  /**
   * The body of `isocalendar()` for a day `o` of calendar year `y`, given the
   * week-1 Mondays `w0`, `w1`, `w2` of years `y - 1`, `y`, `y + 1`.
   */
  function IsoFrom(o: Day, y: int, w0: Day, w1: Day, w2: Day): IsoDate {
    var week := (o - w1) / 7;
    var day := (o - w1) % 7;
    if week < 0 then
      IsoDate(y - 1, (o - w0) / 7 + 1, (o - w0) % 7 + 1)
    else if week >= 52 && o >= w2 then
      IsoDate(y + 1, 1, day + 1)
    else
      IsoDate(y, week + 1, day + 1)
  }

  /** `r` places `o` in the week that starts `7 * (week - 1)` days after week-1 Monday `w`, before `wNext`. */
  predicate PlacedIn(o: Day, r: IsoDate, w: Day, wNext: Day) {
    && w <= o < wNext
    && 1 <= r.week <= 53
    && r.weekday == IsoWeekday(o)
    && o == w + 7 * (r.week - 1) + (r.weekday - 1)
  }

  /**
   * Given four consecutive week-1 Mondays and a day within three days of the
   * middle ISO year, `IsoFrom` places the day in one of the three ISO years.
   */
  lemma IsoFromSpec(o: Day, y: int, w0: Day, w1: Day, w2: Day, w3: Day)
    requires IsoWeekday(w0) == 1 && IsoWeekday(w1) == 1 && IsoWeekday(w2) == 1 && IsoWeekday(w3) == 1
    requires w1 - w0 == 364 || w1 - w0 == 371
    requires w2 - w1 == 364 || w2 - w1 == 371
    requires w3 - w2 == 364 || w3 - w2 == 371
    requires w1 - 3 <= o <= w2 + 2
    ensures var r := IsoFrom(o, y, w0, w1, w2);
      || (r.year == y - 1 && PlacedIn(o, r, w0, w1))
      || (r.year == y && PlacedIn(o, r, w1, w2))
      || (r.year == y + 1 && PlacedIn(o, r, w2, w3))
  {
    if o < w1 {
      assert (o - w1) / 7 < 0;
    } else if o >= w2 {
      assert (o - w1) / 7 >= 52;
    }
  }

  /** Week-1 Mondays of consecutive years `a` and `b` are 52 or 53 weeks apart. */
  lemma MondaySpacing(a: int, b: int)
    requires b == a + 1
    ensures IsoWeekday(Week1Monday(a)) == 1
    ensures Week1Monday(b) - Week1Monday(a) == 364 || Week1Monday(b) - Week1Monday(a) == 371
  {
    IsoYearLength(a);
    Week1MondayIsIsoWeekOne(a);
  }

  /** A day of calendar year `y` lies within three days of that year's ISO weeks. */
  lemma YearNearIsoYear(o: Day, y: int, z: int)
    requires o >= 1 && y == YearOf(o) && z == y + 1
    ensures Week1Monday(y) - 3 <= o <= Week1Monday(z) + 2
  {
    Week1MondayIsIsoWeekOne(y);
    Week1MondayIsIsoWeekOne(z);
  }

  /**
   * What `isocalendar()` computes, in ISO 8601 terms: `o` lies in the ISO
   * year that starts with that year's week 1 and ends before the next one's,
   * in the given week (1..53) on the given weekday.
   */
  lemma IsoCalendarSpec(o: Day)
    requires o >= 1
    ensures var r := IsoCalendar(o);
      && Week1Monday(r.year) <= o < Week1Monday(r.year + 1)
      && 1 <= r.week <= 53
      && r.weekday == IsoWeekday(o)
      && o == Week1Monday(r.year) + 7 * (r.week - 1) + (r.weekday - 1)
  {
    IsoCalendarPlaced(o);
    IsoPlaced(o, IsoCalendar(o), YearOf(o) - 1, YearOf(o), YearOf(o) + 1, YearOf(o) + 2);
  }

  /** `isocalendar()` places a day in the ISO year before, at or after its calendar year. */
  lemma IsoCalendarPlaced(o: Day)
    requires o >= 1
    ensures var r := IsoCalendar(o);
      || (r.year == YearOf(o) - 1 && PlacedIn(o, r, Week1Monday(YearOf(o) - 1), Week1Monday(YearOf(o))))
      || (r.year == YearOf(o) && PlacedIn(o, r, Week1Monday(YearOf(o)), Week1Monday(YearOf(o) + 1)))
      || (r.year == YearOf(o) + 1 && PlacedIn(o, r, Week1Monday(YearOf(o) + 1), Week1Monday(YearOf(o) + 2)))
  {
    MondaySpacing(YearOf(o) - 1, YearOf(o));
    MondaySpacing(YearOf(o), YearOf(o) + 1);
    MondaySpacing(YearOf(o) + 1, YearOf(o) + 2);
    IsoWeekdayOfMonday(YearOf(o) + 2);
    YearNearIsoYear(o, YearOf(o), YearOf(o) + 1);
    IsoFromSpec(o, YearOf(o), Week1Monday(YearOf(o) - 1), Week1Monday(YearOf(o)), Week1Monday(YearOf(o) + 1), Week1Monday(YearOf(o) + 2));
  }

  /** A placement in one of three consecutive ISO years, stated against that year's own week-1 Mondays. */
  lemma IsoPlaced(o: Day, r: IsoDate, y0: int, y1: int, y2: int, y3: int)
    requires y1 == y0 + 1 && y2 == y1 + 1 && y3 == y2 + 1
    requires || (r.year == y0 && PlacedIn(o, r, Week1Monday(y0), Week1Monday(y1)))
             || (r.year == y1 && PlacedIn(o, r, Week1Monday(y1), Week1Monday(y2)))
             || (r.year == y2 && PlacedIn(o, r, Week1Monday(y2), Week1Monday(y3)))
    ensures && Week1Monday(r.year) <= o < Week1Monday(r.year + 1)
            && 1 <= r.week <= 53
            && r.weekday == IsoWeekday(o)
            && o == Week1Monday(r.year) + 7 * (r.week - 1) + (r.weekday - 1)
  {
    if r.year == y0 {
      assert r.year + 1 == y1;
    } else if r.year == y1 {
      assert r.year + 1 == y2;
    } else {
      assert r.year + 1 == y3;
    }
  }

  /** A week-1 Monday is a Monday. */
  lemma IsoWeekdayOfMonday(y: int)
    ensures IsoWeekday(Week1Monday(y)) == 1
  {
    Week1MondayIsIsoWeekOne(y);
  }

  /** The Monday that `week_bounds` finds is the Monday of the ISO week `isocalendar()` names. */
  lemma WeekBoundsIsIsoWeek(o: Day)
    requires o >= 1
    ensures MondayOf(o) == Week1Monday(IsoCalendar(o).year) + 7 * (IsoCalendar(o).week - 1)
  {
    IsoCalendarSpec(o);
  }

  // ---------------------------------------------------------------------------
  // Month bounds (stats.month_bounds)
  // ---------------------------------------------------------------------------

  /**
   * `stats.month_bounds(y, m)`: the first and last day of the month; `None`
   * where Python's `date(...)` raises ValueError (a month outside 1..12, a
   * year outside 1..9999, or December 9999 whose successor month is out of range).
   */
  function MonthBounds(y: int, m: int): (r: Option<(Day, Day)>)
    ensures r.Some? <==> MinYear <= y <= MaxYear && 1 <= m <= 12 && !(y == MaxYear && m == 12)
    ensures r.Some? ==> r.value.0 == Ordinal(Ymd(y, m, 1))
    ensures r.Some? ==> r.value.1 == Ordinal(Ymd(y, m, DaysInMonth(y, m)))
    ensures r.Some? ==> r.value.1 + 1 == Ordinal(Ymd(NextMonth(y, m).0, NextMonth(y, m).1, 1))
  {
    if !(MinYear <= y <= MaxYear && 1 <= m <= 12) then None
    else
      var start := Ordinal(Ymd(y, m, 1));
      if m == 12 then
        if y + 1 > MaxYear then None
        else
          MonthLength(y, m);
          Some((start, Ordinal(Ymd(y + 1, 1, 1)) - 1))
      else
        MonthLength(y, m);
        Some((start, Ordinal(Ymd(y, m + 1, 1)) - 1))
  }

  // ---------------------------------------------------------------------------
  // The YYYY-MM-DD text form
  // ---------------------------------------------------------------------------

  /**
   * `datetime.strptime(s, "%Y-%m-%d").date()`. The format compiles to the
   * pattern `(\d\d\d\d)-(1[0-2]|0[1-9]|[1-9])-(3[01]|[12]\d|0[1-9]|[1-9]| [1-9])`,
   * matched from the start; the whole string must be consumed and the fields
   * must name a real date. So "2024-1-5" and "2024-01- 5" are accepted as
   * well as "2024-01-05" (digits are ASCII digits here).
   */
  function ParseYmd(s: string): (r: Option<Ymd>)
    ensures r.Some? ==> ValidYmd(r.value)
  {
    if |s| < 5 || !AllDigits(s[..4]) || s[4] != '-' then None
    else
      match MonthField(s, 5)
      case None => None
      case Some((m, j)) =>
        match DayField(s, j)
        case None => None
        case Some((d, k)) =>
          var date := Ymd(ParseNat(s[..4]), m, d);
          if k == |s| && ValidYmd(date) then Some(date) else None
  }

  /**
   * The `%m` group and the '-' after it, from index `i`: the alternatives
   * `1[0-2]`, `0[1-9]`, `[1-9]` in order, the first that the '-' can follow.
   * Yields the month and the index after the '-'.
   */
  function MonthField(s: string, i: nat): (r: Option<(int, nat)>)
    ensures r.Some? ==> 1 <= r.value.0 <= 12 && i + 2 <= r.value.1 <= |s|
  {
    if i + 2 < |s| && s[i] == '1' && '0' <= s[i + 1] <= '2' && s[i + 2] == '-' then
      Some((10 + DigitValue(s[i + 1]), i + 3))
    else if i + 2 < |s| && s[i] == '0' && '1' <= s[i + 1] <= '9' && s[i + 2] == '-' then
      Some((DigitValue(s[i + 1]), i + 3))
    else if i + 1 < |s| && '1' <= s[i] <= '9' && s[i + 1] == '-' then
      Some((DigitValue(s[i]), i + 2))
    else None
  }

  /**
   * The `%d` group from index `i`: the first of `3[01]`, `[12]\d`, `0[1-9]`,
   * `[1-9]`, ` [1-9]` that matches. Yields the day and the index after it.
   */
  function DayField(s: string, i: nat): (r: Option<(int, nat)>)
    ensures r.Some? ==> 1 <= r.value.0 <= 31 && i < r.value.1 <= |s|
  {
    if i + 1 < |s| && s[i] == '3' && '0' <= s[i + 1] <= '1' then
      Some((30 + DigitValue(s[i + 1]), i + 2))
    else if i + 1 < |s| && '1' <= s[i] <= '2' && IsDigit(s[i + 1]) then
      Some((DigitValue(s[i]) * 10 + DigitValue(s[i + 1]), i + 2))
    else if i + 1 < |s| && s[i] == '0' && '1' <= s[i + 1] <= '9' then
      Some((DigitValue(s[i + 1]), i + 2))
    else if i < |s| && '1' <= s[i] <= '9' then
      Some((DigitValue(s[i]), i + 1))
    else if i + 1 < |s| && s[i] == ' ' && '1' <= s[i + 1] <= '9' then
      Some((DigitValue(s[i + 1]), i + 2))
    else None
  }

  /** Four year digits, a dash, two month digits, a dash, two day digits. */
  predicate Canonical(s: string) {
    |s| == 10 && s[4] == '-' && s[7] == '-' && AllDigits(s[..4]) && AllDigits(s[5..7]) && AllDigits(s[8..])
  }

  /** The parser also takes month and day without their leading zero, and a day led by a space. */
  lemma ParseYmdLenient()
    ensures ParseYmd("2024-1-5") == Some(Ymd(2024, 1, 5))
    ensures ParseYmd("2024-01- 5") == Some(Ymd(2024, 1, 5))
    ensures ParseYmd("2024-02-30") == None && ParseYmd("2024-13-01") == None && ParseYmd("2024-01-05x") == None
  {
    assert "2024-1-5"[..4] == "2024";
    assert "2024-01- 5"[..4] == "2024";
    assert "2024-02-30"[..4] == "2024";
    assert "2024-13-01"[..4] == "2024";
    assert "2024-01-05x"[..4] == "2024";
    assert ParseNat("2024") == 2024 by {
      assert "2024"[..3] == "202" && "202"[..2] == "20" && "20"[..1] == "2" && "2"[..0] == "";
    }
  }

  /** The day number of a `YYYY-MM-DD` string, as `_parse_ymd` / `_parse_date` yield it. */
  function ParseDay(s: string): (r: Option<Day>)
    ensures r.Some? ==> InRange(r.value)
    ensures r.Some? <==> ParseYmd(s).Some?
  {
    match ParseYmd(s)
    case None => None
    case Some(d) => DayRange(d); Some(Ordinal(d))
  }

  lemma DayRange(d: Ymd)
    requires ValidYmd(d)
    ensures InRange(Ordinal(d))
  {
    DaysBeforeYearMonotone(1, d.year);
    DaysBeforeYearMonotone(d.year + 1, MaxYear + 1);
    YearLength(d.year);
    assert DaysBeforeYear(MaxYear + 1) == MaxDay;
  }

  /** `d.strftime("%Y-%m-%d")` for a valid date. */
  function FormatYmd(d: Ymd): (s: string)
    requires ValidYmd(d)
    ensures |s| == 10
  {
    PadDigits(d.year, 4) + "-" + PadDigits(d.month, 2) + "-" + PadDigits(d.day, 2)
  }

  lemma {:induction false} PadDigitsOfParse(s: string)
    requires AllDigits(s)
    ensures PadDigits(ParseNat(s), |s|) == s
  {
    if |s| > 0 {
      var init := s[..|s| - 1];
      PadDigitsOfParse(init);
      var n := ParseNat(s);
      assert n / 10 == ParseNat(init) && n % 10 == DigitValue(s[|s| - 1]);
      assert s == init + [s[|s| - 1]];
    }
  }

  /** Formatting a date and reading it back gives the same date. */
  lemma ParseFormatYmd(d: Ymd)
    requires ValidYmd(d)
    ensures ParseYmd(FormatYmd(d)) == Some(d)
  {
    var s := FormatYmd(d);
    var y, m, dd := PadDigits(d.year, 4), PadDigits(d.month, 2), PadDigits(d.day, 2);
    assert s == y + "-" + m + "-" + dd;
    assert s[..4] == y;
    assert s[4] == '-' && s[7] == '-';
    assert s[5] == m[0] && s[6] == m[1] && s[8] == dd[0] && s[9] == dd[1];
    TwoDigits(d.month);
    TwoDigits(d.day);
  }
  /** A formatted date reads back as its own day number. */
  lemma ParseDayOfFormatted(d: Ymd)
    requires ValidYmd(d)
    ensures ParseDay(FormatYmd(d)) == Some(Ordinal(d))
  {
    ParseFormatYmd(d);
  }


  /** The two digits of `n < 100`, zero padded. */
  lemma TwoDigits(n: nat)
    requires n < 100
    ensures PadDigits(n, 2)[0] == DigitChar(n / 10) && PadDigits(n, 2)[1] == DigitChar(n % 10)
  {
    assert PadDigits(n, 2) == PadDigits(n / 10, 1) + [DigitChar(n % 10)];
    assert PadDigits(n / 10, 1) == PadDigits(n / 100, 0) + [DigitChar((n / 10) % 10)];
  }

  /** On a canonical string, the accepted month and day are the two-digit numbers at their places. */
  lemma CanonicalFields(s: string)
    requires Canonical(s) && ParseYmd(s).Some?
    ensures ParseYmd(s).value.month == DigitValue(s[5]) * 10 + DigitValue(s[6])
    ensures ParseYmd(s).value.day == DigitValue(s[8]) * 10 + DigitValue(s[9])
    ensures ParseYmd(s).value.year == ParseNat(s[..4])
  {
    assert IsDigit(s[5]) && IsDigit(s[6]) by { assert s[5] == s[5..7][0] && s[6] == s[5..7][1]; }
    assert IsDigit(s[8]) && IsDigit(s[9]) by { assert s[8] == s[8..][0] && s[9] == s[8..][1]; }
    assert MonthField(s, 5).Some?;
    var (m, j) := MonthField(s, 5).value;
    assert j == 8;
    var (d, k) := DayField(s, 8).value;
    assert k == 10;
  }

  lemma DigitRoundTrip(c: char)
    requires IsDigit(c)
    ensures DigitChar(DigitValue(c)) == c
  {
  }

  /** A canonical string the parser accepts is the rendering of its date. */
  lemma FormatParseYmd(s: string)
    requires Canonical(s) && ParseYmd(s).Some?
    ensures FormatYmd(ParseYmd(s).value) == s
  {
    var date := ParseYmd(s).value;
    CanonicalFields(s);
    var f := FormatYmd(date);
    assert f[..4] == s[..4] by {
      PadDigitsOfParse(s[..4]);
      assert f[..4] == PadDigits(date.year, 4);
    }
    assert f[5] == s[5] && f[6] == s[6] by {
      TwoDigits(date.month);
      assert f[5] == PadDigits(date.month, 2)[0] && f[6] == PadDigits(date.month, 2)[1];
      DigitRoundTrip(s[5]);
      DigitRoundTrip(s[6]);
    }
    assert f[8] == s[8] && f[9] == s[9] by {
      TwoDigits(date.day);
      assert f[8] == PadDigits(date.day, 2)[0] && f[9] == PadDigits(date.day, 2)[1];
      DigitRoundTrip(s[8]);
      DigitRoundTrip(s[9]);
    }
    forall k | 0 <= k < 10
      ensures f[k] == s[k]
    {
      if k < 4 {
        assert f[k] == f[..4][k] && s[k] == s[..4][k];
      }
    }
  }
}

=== FILE: common.dfy ===
/** Small shared vocabulary: optional values, results and integer clamps. */
module Common {

  /** A value that may be absent (Python's `None`). */
  datatype Option<+T> = None | Some(value: T) {

    /** The value, or `default` when absent (Python's `x if x is not None else default`). */
    function GetOr(default: T): T {
      match this
      case Some(v) => v
      case None => default
    }
  }

  /** Either a value or the error that made the Python code raise. */
  datatype Result<+T, +E> = Ok(value: T) | Err(error: E)

  function Max(a: int, b: int): int {
    if a >= b then a else b
  }

  function Min(a: int, b: int): int {
    if a <= b then a else b
  }

  /** `max(lo, min(hi, x))`: the nearest point of `[lo, hi]` to `x`. */
  function Clamp(lo: int, hi: int, x: int): (r: int)
    requires lo <= hi
    ensures lo <= r <= hi
    ensures lo <= x <= hi ==> r == x
    ensures x < lo ==> r == lo
    ensures hi < x ==> r == hi
  {
    Max(lo, Min(hi, x))
  }
}

=== FILE: dashboard.dfy ===
/**
 * The logic of `ui_dashboard.py`'s `DashboardTab`: which period is shown
 * (the week of a reference day, or a calendar month) and how Prev/Next page
 * through periods; the goal rows of the goals panel; and the goal map the
 * Manage Goals dialog saves. Widgets, the chart and the texts are not modelled.
 */
module Dashboard {
  import opened Common
  import opened Text
  import opened SortedTags
  import opened Calendar
  import opened Stats

  // ---------------------------------------------------------------------------
  // Period selection and paging
  // ---------------------------------------------------------------------------

  datatype Period = Week | Month

  /** The period radio button, the reference day of week mode, and the year and month of month mode. */
  datatype View = View(period: Period, ref: Day, year: int, month: int)

  /** The reference day is a `date` and the month a calendar month. */
  predicate Valid(v: View) {
    InRange(v.ref) && 1 <= v.month <= 12
  }

  const WeekStep: int := 7

  /** `__init__`: week mode on today, with today's year and month for month mode. */
  function Init(today: Ymd): (v: View)
    requires ValidYmd(today)
    ensures Valid(v) && v.period == Week
    ensures Ordinal(Ymd(v.year, v.month, today.day)) == v.ref
  {
    DayRange(today);
    View(Week, Ordinal(today), today.year, today.month)
  }

  /** `_next_period`. `None` where `ref + timedelta(days=7)` leaves `date`'s range and raises. */
  function NextPeriod(v: View): (r: Option<View>)
    ensures v.period == Month ==> r.Some? && r.value.period == Month && r.value.ref == v.ref
    ensures v.period == Month && 1 <= v.month <= 12 ==> r.Some? && (r.value.year, r.value.month) == NextMonth(v.year, v.month)
    ensures v.period == Week ==> (r.Some? <==> InRange(v.ref + WeekStep))
    ensures v.period == Week && r.Some? ==>
      && r.value.period == Week && r.value.year == v.year && r.value.month == v.month
      && r.value.ref == v.ref + WeekStep
      && MondayOf(r.value.ref) == MondayOf(v.ref) + WeekStep
  {
    match v.period
    case Week =>
      NextWeekIsAdjacent(v.ref);
      if InRange(v.ref + WeekStep) then Some(v.(ref := v.ref + WeekStep)) else None
    case Month =>
      var (y, m) := if v.month == 12 then (v.year + 1, 1) else (v.year, v.month + 1);
      Some(v.(year := y, month := m))
  }

  /** `_prev_period`. `None` where `ref - timedelta(days=7)` leaves `date`'s range and raises. */
  function PrevPeriod(v: View): (r: Option<View>)
    ensures v.period == Month ==> r.Some? && r.value.period == Month && r.value.ref == v.ref
    ensures v.period == Month && 1 <= v.month <= 12 ==>
      r.Some? && 1 <= r.value.month <= 12 && NextMonth(r.value.year, r.value.month) == (v.year, v.month)
    ensures v.period == Week ==> (r.Some? <==> InRange(v.ref - WeekStep))
    ensures v.period == Week && r.Some? ==>
      && r.value.period == Week && r.value.year == v.year && r.value.month == v.month
      && r.value.ref == v.ref - WeekStep
      && MondayOf(r.value.ref) + WeekStep == MondayOf(v.ref)
  {
    match v.period
    case Week =>
      NextWeekIsAdjacent(v.ref - WeekStep);
      if InRange(v.ref - WeekStep) then Some(v.(ref := v.ref - WeekStep)) else None
    case Month =>
      var (y, m) := if v.month == 1 then (v.year - 1, 12) else (v.year, v.month - 1);
      Some(v.(year := y, month := m))
  }

  /** Paging keeps the view valid. */
  lemma PagingKeepsValid(v: View)
    requires Valid(v)
    ensures NextPeriod(v).Some? ==> Valid(NextPeriod(v).value)
    ensures PrevPeriod(v).Some? ==> Valid(PrevPeriod(v).value)
  {
  }

  /** Prev after Next, and Next after Prev, come back to the same view. */
  lemma PagingRoundTrip(v: View)
    requires Valid(v)
    ensures NextPeriod(v).Some? ==> PrevPeriod(NextPeriod(v).value) == Some(v)
    ensures PrevPeriod(v).Some? ==> NextPeriod(PrevPeriod(v).value) == Some(v)
  {
  }

  /**
   * Paging moves to the adjacent period: the next month's window starts the
   * day after this month's window ends, and the next week's Monday is the
   * day after this week's Sunday.
   */
  lemma NextPeriodIsAdjacent(v: View)
    requires Valid(v)
    requires NextPeriod(v).Some?
    ensures var w := NextPeriod(v).value;
      v.period == Month && MonthBounds(v.year, v.month).Some? && MonthBounds(w.year, w.month).Some? ==>
        MonthBounds(w.year, w.month).value.0 == MonthBounds(v.year, v.month).value.1 + 1
    ensures var w := NextPeriod(v).value;
      v.period == Week && WeekBounds(v.ref).Some? && WeekBounds(w.ref).Some? ==>
        WeekBounds(w.ref).value.0 == WeekBounds(v.ref).value.1 + 1
  {
  }

  /** `_current_period_totals`: the totals of the shown period (the label is not modelled here). */
  function CurrentTotals(v: View, rows: seq<SessionRow>): Result<seq<TagTotal>, StatsError>
    requires InRange(v.ref)
  {
    match v.period
    case Week => WeekTotals(rows, v.ref)
    case Month => MonthTotals(rows, v.year, v.month)
  }

  /** A week view's totals are the per-tag totals of the sessions dated Monday to Sunday of the shown week (`week_bounds`). */
  lemma CurrentWeekTotals(v: View, rows: seq<SessionRow>)
    requires InRange(v.ref) && v.period == Week
    ensures var r := CurrentTotals(v, rows);
      r.Ok? ==>
        && WeekBounds(v.ref).Some?
        && r.value == Totals(ParseRows(rows).value, WeekBounds(v.ref).value.0, WeekBounds(v.ref).value.1)
  {
    assert CurrentTotals(v, rows) == WeekTotals(rows, v.ref);
  }

  /** A month view's totals are the per-tag totals of the sessions dated in the shown month. */
  lemma CurrentMonthTotals(v: View, rows: seq<SessionRow>)
    requires InRange(v.ref) && v.period == Month
    ensures var r := CurrentTotals(v, rows);
      r.Ok? && |rows| > 0 ==>
        && MonthBounds(v.year, v.month).Some?
        && r.value == Totals(ParseRows(rows).value, MonthBounds(v.year, v.month).value.0, MonthBounds(v.year, v.month).value.1)
  {
    assert CurrentTotals(v, rows) == MonthTotals(rows, v.year, v.month);
  }

  /** Any unreadable row fails the view, whichever period it shows. */
  lemma CurrentTotalsFailOnBadRow(v: View, rows: seq<SessionRow>)
    requires InRange(v.ref)
    ensures ParseRows(rows).Err? ==> CurrentTotals(v, rows).Err?
  {
    if v.period == Week {
      assert CurrentTotals(v, rows) == WeekTotals(rows, v.ref);
    } else {
      assert CurrentTotals(v, rows) == MonthTotals(rows, v.year, v.month);
    }
  }

  /** The week branch: the week of `ref`, Monday to Sunday; fails on a bad row or a week past the calendar's end. */
  function WeekTotals(rows: seq<SessionRow>, ref: Day): (r: Result<seq<TagTotal>, StatsError>)
    requires InRange(ref)
    ensures r.Err? <==> ParseRows(rows).Err? || WeekBounds(ref).None?
    ensures r.Ok? ==> r.value == Totals(ParseRows(rows).value, MondayOf(ref), MondayOf(ref) + 6)
  {
    var w := WeeklyTotals(rows, ref);
    if w.Ok? then
      assert w.value.1.monday == MondayOf(ref) && w.value.1.sunday == MondayOf(ref) + 6;
      Ok(w.value.0)
    else Err(w.error)
  }

  /** The month branch: the month's first to last day; no sessions at all give no totals whatever the month. */
  function MonthTotals(rows: seq<SessionRow>, year: int, month: int): (r: Result<seq<TagTotal>, StatsError>)
    ensures r.Err? <==> ParseRows(rows).Err? || (|rows| > 0 && MonthBounds(year, month).None?)
    ensures r.Ok? && |rows| > 0 ==>
      r.value == Totals(ParseRows(rows).value, MonthBounds(year, month).value.0, MonthBounds(year, month).value.1)
    ensures r.Ok? && |rows| == 0 ==> r.value == []
  {
    var w := MonthlyTotals(rows, year, month);
    if w.Ok? then Ok(w.value.0) else Err(w.error)
  }

  // ---------------------------------------------------------------------------
  // Goals panel (_refresh_goals_panel)
  // ---------------------------------------------------------------------------

  /**
   * One period's goal map as stored: tags with a target as `float()` reads
   * it (`None` where `float()` raises). A `dict`, so its tags are distinct.
   */
  type GoalMap = seq<(string, Option<real>)>

  function TagsOfMap<V>(m: seq<(string, V)>): (ks: seq<string>)
    ensures |ks| == |m| && forall i | 0 <= i < |m| :: ks[i] == m[i].0
  {
    seq(|m|, i requires 0 <= i < |m| => m[i].0)
  }

  predicate DistinctTags<V>(m: seq<(string, V)>) {
    forall i, j | 0 <= i < j < |m| :: m[i].0 != m[j].0
  }

  /** A stored target that yields a goal row: numeric and positive. */
  predicate Shown(g: Option<real>) {
    g.Some? && g.value > 0.0
  }

  /** The target stored for `t`, where `t` is one of the map's tags. */
  function TargetOf(m: GoalMap, t: string): (g: Option<real>)
    requires t in TagsOfMap(m)
    ensures exists i | 0 <= i < |m| :: m[i] == (t, g)
  {
    if m[0].0 == t then m[0].1 else TargetOf(m[1..], t)
  }

  /** A row of the panel: the tag, its target, the minutes done in the period, and the progress bar value. */
  datatype GoalRow = GoalRow(tag: string, goal: real, done: real, progress: real)

  function RowTags(rows: seq<GoalRow>): (ks: seq<string>)
    ensures |ks| == |rows| && forall i | 0 <= i < |rows| :: ks[i] == rows[i].tag
  {
    seq(|rows|, i requires 0 <= i < |rows| => rows[i].tag)
  }

  /**
   * The minutes done for `t`: the period total converted by `minutes`
   * (`round(seconds / 60, 1)`, kept abstract), or 0 for a tag without
   * sessions in the period.
   */
  function Done(totals: seq<TagTotal>, t: string, minutes: int -> real): real {
    if t in Keys(totals) then minutes(TotalOf(totals, t)) else 0.0
  }

  function MinReal(a: real, b: real): real {
    if a <= b then a else b
  }

  function RowFor(t: string, g: real, totals: seq<TagTotal>, minutes: int -> real): GoalRow {
    var done := Done(totals, t, minutes);
    GoalRow(t, g, done, MinReal(done, g))
  }

  /** The tags of the map with a positive numeric target, in map order. */
  function ShownTags(m: GoalMap): (ks: seq<string>)
    ensures forall t :: t in ks <==> exists i | 0 <= i < |m| :: m[i].0 == t && Shown(m[i].1)
  {
    if |m| == 0 then []
    else (if Shown(m[0].1) then [m[0].0] else []) + ShownTags(m[1..])
  }

  /**
   * The goal rows: the map's items in sorted tag order, skipping targets
   * that are not numeric or not positive.
   */
  function GoalPanel(goals: GoalMap, totals: seq<TagTotal>, minutes: int -> real): (rows: seq<GoalRow>)
    requires DistinctTags(goals)
    ensures StrictlySorted(RowTags(rows))
    ensures forall t :: t in RowTags(rows) <==> exists i | 0 <= i < |goals| :: goals[i].0 == t && Shown(goals[i].1)
    ensures forall i | 0 <= i < |rows| :: rows[i].tag in TagsOfMap(goals) && Some(rows[i].goal) == TargetOf(goals, rows[i].tag)
    ensures forall i | 0 <= i < |rows| :: rows[i].goal > 0.0 && rows[i].done == Done(totals, rows[i].tag, minutes)
    ensures forall i | 0 <= i < |rows| ::
      (&& rows[i].progress <= rows[i].goal
       && rows[i].progress <= rows[i].done
       && (rows[i].progress == rows[i].done || rows[i].progress == rows[i].goal)
       && (rows[i].done >= 0.0 ==> rows[i].progress >= 0.0))
  {
    var keys := SortedUnique(ShownTags(goals));
    AllShown(goals, keys);
    assert forall i | 0 <= i < |keys| :: keys[i] in keys;
    var rows := PanelRows(keys, goals, totals, minutes);
    forall i | 0 <= i < |rows|
      ensures rows[i].tag in TagsOfMap(goals) && Some(rows[i].goal) == TargetOf(goals, rows[i].tag)
    {
      assert keys[i] in keys;
    }
    rows
  }

  /** One row per key, in key order. */
  function PanelRows(keys: seq<string>, goals: GoalMap, totals: seq<TagTotal>, minutes: int -> real): (rows: seq<GoalRow>)
    requires forall i | 0 <= i < |keys| :: keys[i] in TagsOfMap(goals) && Shown(TargetOf(goals, keys[i]))
    ensures |rows| == |keys| && RowTags(rows) == keys
    ensures forall i | 0 <= i < |rows| ::
      Shown(TargetOf(goals, keys[i])) && rows[i] == RowFor(keys[i], TargetOf(goals, keys[i]).value, totals, minutes)
  {
    if |keys| == 0 then []
    else
      assert forall i | 0 <= i < |keys[1..]| :: keys[1..][i] == keys[i + 1];
      assert Shown(TargetOf(goals, keys[0]));
      var rows := [RowFor(keys[0], TargetOf(goals, keys[0]).value, totals, minutes)] + PanelRows(keys[1..], goals, totals, minutes);
      assert RowTags(rows) == keys by {
        assert forall i | 1 <= i < |keys| :: keys[i] == keys[1..][i - 1];
      }
      rows
  }

  lemma AllShown(goals: GoalMap, keys: seq<string>)
    requires DistinctTags(goals)
    requires forall k | k in keys :: k in ShownTags(goals)
    ensures forall k | k in keys :: k in TagsOfMap(goals) && Shown(TargetOf(goals, k))
  {
    forall k | k in keys
      ensures k in TagsOfMap(goals) && Shown(TargetOf(goals, k))
    {
      TargetShown(goals, k);
    }
  }

  lemma TargetShown(goals: GoalMap, t: string)
    requires DistinctTags(goals)
    requires exists i | 0 <= i < |goals| :: goals[i].0 == t && Shown(goals[i].1)
    ensures t in TagsOfMap(goals) && Shown(TargetOf(goals, t))
  {
    var i :| 0 <= i < |goals| && goals[i].0 == t && Shown(goals[i].1);
    assert TagsOfMap(goals)[i] == t;
    var g := TargetOf(goals, t);
    var j :| 0 <= j < |goals| && goals[j] == (t, g);
  }

  /** With no sessions for a goal's tag in the period, its row shows 0 done and an empty bar. */
  lemma UntrackedGoalIsEmpty(goals: GoalMap, totals: seq<TagTotal>, minutes: int -> real, i: nat)
    requires DistinctTags(goals)
    requires i < |GoalPanel(goals, totals, minutes)|
    requires GoalPanel(goals, totals, minutes)[i].tag !in Keys(totals)
    ensures GoalPanel(goals, totals, minutes)[i].done == 0.0
    ensures GoalPanel(goals, totals, minutes)[i].progress == 0.0
  {
  }

  // ---------------------------------------------------------------------------
  // Manage Goals dialog (build_table and on_save)
  // ---------------------------------------------------------------------------

  /** The dialog's rows: every configured tag and every tag with a stored goal, sorted, once each. */
  function DialogTags<V>(configTags: seq<string>, goals: seq<(string, V)>): (r: seq<string>)
    ensures StrictlySorted(r)
    ensures forall t :: t in r <==> t in configTags || t in TagsOfMap(goals)
  {
    SortedUnique(configTags + TagsOfMap(goals))
  }

  /** `int(float(s))` of a stripped, non-blank entry, 0 where `float()` raises ValueError. */
  function GoalTarget(s: string): (n: int)
    ensures ParseDecimal(s).None? ==> n == 0
    ensures ParseDecimal(s).Some? && ParseDecimal(s).value >= 0.0 ==>
      n as real <= ParseDecimal(s).value < n as real + 1.0
    ensures ParseDecimal(s).Some? && ParseDecimal(s).value < 0.0 ==> n <= 0
    ensures ParseDecimal(s).Some? && ParseDecimal(s).value < 0.0 ==>
      n as real - 1.0 < ParseDecimal(s).value <= n as real
  {
    match ParseDecimal(s)
    case None => 0
    case Some(x) => Truncate(x)
  }

  /** Whether a dialog entry saves a goal: not blank once stripped, and a target above 0. */
  predicate Saves(entry: string) {
    Strip(entry) != "" && GoalTarget(Strip(entry)) > 0
  }

  /**
   * `on_save`: the new map keeps, in row order, each row whose entry saves
   * a goal, with its whole-minute target; blank and non-numeric entries and
   * targets of 0 or less are dropped (SaveGoalsSound and SaveGoalsComplete state it in full).
   */
  function SaveGoals(rows: seq<(string, string)>): (r: seq<(string, int)>)
    ensures |r| <= |rows|
    ensures forall i | 0 <= i < |r| :: r[i].1 > 0
  {
    if |rows| == 0 then []
    else
      var rest := SaveGoals(rows[1..]);
      var (t, entry) := rows[0];
      if Saves(entry) then
        var r := [(t, GoalTarget(Strip(entry)))] + rest;
        assert forall i | 0 < i < |r| :: r[i] == rest[i - 1];
        r
      else rest
  }

  /** Every saved pair comes from a row whose entry saves a goal, with the target that entry reads as. */
  lemma {:induction false} SaveGoalsSound(rows: seq<(string, string)>)
    ensures forall p | p in SaveGoals(rows) ::
      exists j | 0 <= j < |rows| :: rows[j].0 == p.0 && Saves(rows[j].1) && p.1 == GoalTarget(Strip(rows[j].1))
  {
    if |rows| > 0 {
      SaveGoalsSound(rows[1..]);
      forall p | p in SaveGoals(rows)
        ensures exists j | 0 <= j < |rows| :: rows[j].0 == p.0 && Saves(rows[j].1) && p.1 == GoalTarget(Strip(rows[j].1))
      {
        if p !in SaveGoals(rows[1..]) {
          assert rows[0].0 == p.0;
        } else {
          var j :| 0 <= j < |rows[1..]| && rows[1..][j].0 == p.0 && Saves(rows[1..][j].1)
            && p.1 == GoalTarget(Strip(rows[1..][j].1));
          assert rows[j + 1] == rows[1..][j];
        }
      }
    }
  }

  /** Every row whose entry saves a goal is in the saved map with the target its entry reads as. */
  lemma {:induction false} SaveGoalsComplete(rows: seq<(string, string)>)
    ensures forall j | 0 <= j < |rows| && Saves(rows[j].1) :: (rows[j].0, GoalTarget(Strip(rows[j].1))) in SaveGoals(rows)
  {
    if |rows| > 0 {
      SaveGoalsComplete(rows[1..]);
      forall j | 0 <= j < |rows| && Saves(rows[j].1)
        ensures (rows[j].0, GoalTarget(Strip(rows[j].1))) in SaveGoals(rows)
      {
        if j > 0 {
          assert rows[j] == rows[1..][j - 1];
        }
      }
    }
  }

  /** Every saved tag is the tag of some row. */
  lemma {:induction false} SavedTagsFromRows(rows: seq<(string, string)>)
    ensures forall p | p in SaveGoals(rows) :: p.0 in TagsOfMap(rows)
  {
    if |rows| > 0 {
      SavedTagsFromRows(rows[1..]);
      forall p | p in SaveGoals(rows)
        ensures p.0 in TagsOfMap(rows)
      {
        assert TagsOfMap(rows) == [rows[0].0] + TagsOfMap(rows[1..]);
      }
    }
  }

  /** Distinct dialog rows give a saved map with distinct tags. */
  lemma {:induction false} SaveGoalsDistinct(rows: seq<(string, string)>)
    requires DistinctTags(rows)
    ensures DistinctTags(SaveGoals(rows))
  {
    if |rows| > 0 {
      var rest := SaveGoals(rows[1..]);
      DistinctTail(rows);
      SaveGoalsDistinct(rows[1..]);
      if Saves(rows[0].1) {
        SavedTagsFromRows(rows[1..]);
        HeadNotInTail(rows);
        ConsDistinct((rows[0].0, GoalTarget(Strip(rows[0].1))), rest);
      }
    }
  }

  lemma DistinctTail<V>(m: seq<(string, V)>)
    requires |m| > 0 && DistinctTags(m)
    ensures DistinctTags(m[1..])
  {
    forall a, b | 0 <= a < b < |m[1..]|
      ensures m[1..][a].0 != m[1..][b].0
    {
      assert m[1..][a] == m[a + 1] && m[1..][b] == m[b + 1];
    }
  }

  lemma HeadNotInTail<V>(m: seq<(string, V)>)
    requires |m| > 0 && DistinctTags(m)
    ensures m[0].0 !in TagsOfMap(m[1..])
  {
    forall k | 0 <= k < |m[1..]|
      ensures TagsOfMap(m[1..])[k] != m[0].0
    {
      assert m[1..][k] == m[k + 1];
    }
  }

  lemma ConsDistinct<V>(x: (string, V), rest: seq<(string, V)>)
    requires DistinctTags(rest) && forall p | p in rest :: p.0 != x.0
    ensures DistinctTags([x] + rest)
  {
    var r := [x] + rest;
    forall a, b | 0 <= a < b < |r|
      ensures r[a].0 != r[b].0
    {
      assert r[b] == rest[b - 1];
      if a > 0 {
        assert r[a] == rest[a - 1];
      } else {
        assert rest[b - 1] in rest;
      }
    }
  }

  /** The stored form of a saved map, as the goals panel reads it back. */
  function Stored(saved: seq<(string, int)>): (m: GoalMap)
    ensures |m| == |saved| && forall i | 0 <= i < |m| :: m[i] == (saved[i].0, Some(saved[i].1 as real))
  {
    seq(|saved|, i requires 0 <= i < |saved| => (saved[i].0, Some(saved[i].1 as real)))
  }

  /** The entry text the dialog shows for a stored whole-minute goal: `str(n)`. */
  function EntryText(n: int): string {
    FormatInt(n)
  }

  /** The dialog rows for a saved map, each entry showing its stored target. */
  function EntryRows(saved: seq<(string, int)>): (rows: seq<(string, string)>)
    ensures TagsOfMap(rows) == TagsOfMap(saved)
  {
    if |saved| == 0 then []
    else
      var rest := EntryRows(saved[1..]);
      var rows := [(saved[0].0, EntryText(saved[0].1))] + rest;
      assert forall i | 0 < i < |rows| :: rows[i].0 == rest[i - 1].0 == saved[1..][i - 1].0;
      rows
  }

  /** Every saved goal gets a row in the goals panel, with its saved target. */
  lemma SavedGoalsAreShown(rows: seq<(string, string)>, totals: seq<TagTotal>, minutes: int -> real)
    requires DistinctTags(rows)
    ensures DistinctTags(Stored(SaveGoals(rows)))
    ensures var saved := SaveGoals(rows);
      var panel := GoalPanel(Stored(saved), totals, minutes);
      RowTags(panel) == SortedUnique(TagsOfMap(saved))
  {
    var saved := SaveGoals(rows);
    SaveGoalsDistinct(rows);
    assert DistinctTags(Stored(saved));
    var m := Stored(saved);
    var panel := GoalPanel(m, totals, minutes);
    forall t
      ensures t in RowTags(panel) <==> t in TagsOfMap(saved)
    {
      if t in TagsOfMap(saved) {
        var i :| 0 <= i < |saved| && TagsOfMap(saved)[i] == t;
        assert m[i].0 == t && Shown(m[i].1);
      }
    }
    StrictlySortedUnique(RowTags(panel), SortedUnique(TagsOfMap(saved)));
  }

  /**
   * Opening the dialog and saving without editing keeps the goals: each
   * stored positive goal is shown as `str(n)` and saved back as `n`.
   */
  lemma {:induction false} ResaveKeepsGoals(saved: seq<(string, int)>)
    requires forall i | 0 <= i < |saved| :: saved[i].1 > 0
    ensures SaveGoals(EntryRows(saved)) == saved
  {
    if |saved| > 0 {
      var n := saved[0].1;
      EntryTextSaves(n);
      ResaveKeepsGoals(saved[1..]);
      var rows := EntryRows(saved);
      assert rows[0] == (saved[0].0, EntryText(n));
      assert rows[1..] == EntryRows(saved[1..]);
      assert SaveGoals(rows) == [(saved[0].0, n)] + SaveGoals(rows[1..]);
      assert saved == [saved[0]] + saved[1..];
    }
  }

  /**
   * A fractional entry saves its whole part: "2.5" stores 2, and "0.5" saves
   * nothing because its target is 0.
   */
  lemma FractionalGoal(w: nat, f: nat, k: nat)
    requires f < Pow10(k)
    ensures GoalTarget(Decimal(w) + "." + PadDigits(f, k)) == w
    ensures Saves(Decimal(w) + "." + PadDigits(f, k)) <==> w > 0
  {
    var s := Decimal(w) + "." + PadDigits(f, k);
    FractionalTarget(w, f, k);
    FractionStripped(w, f, k);
    SavesStripped(s);
  }

  /** Such an entry has no whitespace to strip: it starts with a digit and ends with a digit or the point. */
  lemma FractionStripped(w: nat, f: nat, k: nat)
    requires f < Pow10(k)
    ensures Stripped(Decimal(w) + "." + PadDigits(f, k))
  {
    var s := Decimal(w) + "." + PadDigits(f, k);
    assert IsDigit(s[0]);
    assert IsDigit(s[|s| - 1]) || s[|s| - 1] == '.';
  }

  /** An entry with nothing to strip saves exactly when it is not empty and its target is positive. */
  lemma SavesStripped(s: string)
    requires Stripped(s)
    ensures Saves(s) <==> s != "" && GoalTarget(s) > 0
  {
    StripOfStripped(s);
  }

  /** `int(float("w.f"))` drops the fraction. */
  lemma FractionalTarget(w: nat, f: nat, k: nat)
    requires f < Pow10(k)
    ensures GoalTarget(Decimal(w) + "." + PadDigits(f, k)) == w
  {
    FractionReadsBack(w, f, k);
    FracBelowOne(f, Pow10(k));
  }

  /** `int(float("-w.f"))` truncates toward zero: "-2.5" gives -2, not -3. */
  lemma NegativeFractionalTarget(w: nat, f: nat, k: nat)
    requires f < Pow10(k)
    ensures GoalTarget("-" + Decimal(w) + "." + PadDigits(f, k)) == -(w as int)
  {
    FractionReadsBack(w, f, k);
    FracBelowOne(f, Pow10(k));
    assert "-" + Decimal(w) + "." + PadDigits(f, k) == "-" + (Decimal(w) + "." + PadDigits(f, k));
  }

  /** The entry text of a positive stored goal saves that same goal. */
  lemma EntryTextSaves(n: int)
    requires n > 0
    ensures Saves(EntryText(n)) && GoalTarget(Strip(EntryText(n))) == n
  {
    var d := Decimal(n);
    assert EntryText(n) == d;
    assert Stripped(d) by {
      assert IsDigit(d[0]) && IsDigit(d[|d| - 1]);
    }
    StripOfStripped(d);
    DecimalReadsBack(n);
    assert GoalTarget(d) == n;
  }
}

=== FILE: milestones.dfy ===
/**
 * The list logic of `ui_milestones.py`'s `MilestonesTab`: two tables of
 * milestones (countdowns to future dates, anniversaries of past dates),
 * how stored items are ordered and shown with their day counts, how the
 * table rows are saved back, the editor's validation, and the recount of
 * the days column. The table is modelled as its sequence of rows.
 */
module Milestones {
  import opened Common
  import opened Text
  import opened Calendar

  /** A stored milestone; `None` for a missing key, which the code reads as "". */
  datatype Stored = Stored(title: Option<string>, date: Option<string>)

  /** The days column of a row: empty, "n days left", "n days", or "?". */
  datatype Days = Blank | DaysLeft(n: int) | DaysAgo(n: int) | Unknown

  /** One row of a table: title, date text, days column. */
  datatype Row = Row(title: string, date: string, days: Days)

  /** The Countdown table or the Since table. */
  datatype Mode = Countdown | Since

  /** The sort key of a stored item: `x.get("date", "")`. */
  function Key(x: Stored): string {
    x.date.GetOr("")
  }

  // ---------------------------------------------------------------------------
  // Stable sort by date string (sorted(..., key=date, reverse=...))
  // ---------------------------------------------------------------------------

  /** `a` may come before `b`: ascending, or descending when `desc`. */
  predicate Ordered(a: string, b: string, desc: bool) {
    if desc then LessEq(b, a) else LessEq(a, b)
  }

  predicate Sorted(s: seq<Stored>, desc: bool) {
    forall i, j | 0 <= i < j < |s| :: Ordered(Key(s[i]), Key(s[j]), desc)
  }

  lemma OrderedTransitive(a: string, b: string, c: string, desc: bool)
    requires Ordered(a, b, desc) && Ordered(b, c, desc)
    ensures Ordered(a, c, desc)
  {
    if desc {
      LessEqTransitive(c, b, a);
    } else {
      LessEqTransitive(a, b, c);
    }
  }

  /** Puts `x` in front of the first element it may precede: ahead of equal keys, as a stable sort of `[x] + ys` does. */
  function InsertBy(x: Stored, ys: seq<Stored>, desc: bool): (r: seq<Stored>)
    requires Sorted(ys, desc)
    ensures Sorted(r, desc)
    ensures multiset(r) == multiset(ys) + multiset{x}
  {
    if |ys| == 0 then [x]
    else if Ordered(Key(x), Key(ys[0]), desc) then
      var r := [x] + ys;
      forall j | 1 <= j < |r|
        ensures Ordered(Key(x), Key(r[j]), desc)
      {
        if j > 1 {
          OrderedTransitive(Key(x), Key(ys[0]), Key(ys[j - 1]), desc);
        }
      }
      r
    else
      var rest := InsertBy(x, ys[1..], desc);
      var r := [ys[0]] + rest;
      LessEqTotal(Key(x), Key(ys[0]));
      forall j | 1 <= j < |r|
        ensures Ordered(Key(ys[0]), Key(r[j]), desc)
      {
        assert r[j] in multiset(rest);
        if r[j] != x {
          assert r[j] in multiset(ys[1..]);
          var k :| 0 <= k < |ys[1..]| && ys[1..][k] == r[j];
          assert ys[k + 1] == r[j];
        }
      }
      assert ys == [ys[0]] + ys[1..];
      r
  }

  /** A stable sort by date: a permutation of `s`, ordered by `Key`. */
  function SortBy(s: seq<Stored>, desc: bool): (r: seq<Stored>)
    ensures Sorted(r, desc)
    ensures multiset(r) == multiset(s)
  {
    if |s| == 0 then []
    else
      assert s == [s[0]] + s[1..];
      InsertBy(s[0], SortBy(s[1..], desc), desc)
  }

  /** An already ordered list is left exactly as it is. */
  lemma {:induction false} SortBySorted(s: seq<Stored>, desc: bool)
    requires Sorted(s, desc)
    ensures SortBy(s, desc) == s
  {
    if |s| > 0 {
      assert Sorted(s[1..], desc) by {
        forall i, j | 0 <= i < j < |s[1..]|
          ensures Ordered(Key(s[1..][i]), Key(s[1..][j]), desc)
        {
          assert s[1..][i] == s[i + 1] && s[1..][j] == s[j + 1];
        }
      }
      SortBySorted(s[1..], desc);
      if |s| > 1 {
        assert Ordered(Key(s[0]), Key(s[1]), desc);
        assert s[1..][0] == s[1];
      }
      assert s == [s[0]] + s[1..];
    }
  }

  // ---------------------------------------------------------------------------
  // Days column
  // ---------------------------------------------------------------------------

  /**
   * The days column for a parsed date: `(d - today).days` left in the
   * Countdown table, `(today - d).days` in the Since table, "?" when the
   * date does not parse.
   */
  function DaysOf(parsed: Option<Day>, mode: Mode, today: Day): (r: Days)
    ensures parsed.None? <==> r == Unknown
    ensures parsed.Some? && mode == Countdown ==> r.DaysLeft? && parsed.value == today + r.n
    ensures parsed.Some? && mode == Since ==> r.DaysAgo? && parsed.value == today - r.n
  {
    match parsed
    case None => Unknown
    case Some(d) => if mode == Countdown then DaysLeft(d - today) else DaysAgo(today - d)
  }

  /** For the same date, the countdown and the since count are negatives of each other; 0 exactly on the day. */
  lemma DaysMirror(d: Day, today: Day)
    ensures DaysOf(Some(d), Countdown, today).n == -DaysOf(Some(d), Since, today).n
    ensures DaysOf(Some(d), Countdown, today).n == 0 <==> d == today
    ensures DaysOf(Some(d), Countdown, today).n > 0 <==> d > today
  {
  }

  // ---------------------------------------------------------------------------
  // _fill_tree
  // ---------------------------------------------------------------------------

  /** A stored item is shown when its stripped title and stripped date are both non-empty. */
  predicate Displayable(x: Stored) {
    Strip(x.title.GetOr("")) != "" && Strip(Key(x)) != ""
  }

  /** The row shown for an item: stripped title and date, and the days column of the date. */
  function RowOf(x: Stored, mode: Mode, today: Day): Row {
    var ds := Strip(Key(x));
    Row(Strip(x.title.GetOr("")), ds, DaysOf(ParseDay(ds), mode, today))
  }

  /** A well-formed row: non-empty stripped title and date, days column computed from the date. */
  predicate Shown(r: Row, mode: Mode, today: Day) {
    && r.title != "" && r.date != "" && Stripped(r.title) && Stripped(r.date)
    && r.days == DaysOf(ParseDay(r.date), mode, today)
  }

  /** `[f(x) for x in s if keep(x)]`. */
  function FilterMap<A, B>(s: seq<A>, keep: A -> bool, f: A -> B): (r: seq<B>)
    ensures |r| <= |s|
    ensures forall i | 0 <= i < |r| :: exists k | 0 <= k < |s| :: keep(s[k]) && r[i] == f(s[k])
  {
    if |s| == 0 then []
    else
      var rest := FilterMap(s[1..], keep, f);
      var head := if keep(s[0]) then [f(s[0])] else [];
      var r := head + rest;
      forall i | 0 <= i < |r|
        ensures exists k | 0 <= k < |s| :: keep(s[k]) && r[i] == f(s[k])
      {
        if i < |head| {
          assert keep(s[0]) && r[i] == f(s[0]);
        } else {
          var k :| 0 <= k < |s[1..]| && keep(s[1..][k]) && rest[i - |head|] == f(s[1..][k]);
          assert s[k + 1] == s[1..][k];
        }
      }
      r
  }

  lemma {:induction false} FilterMapAppend<A, B>(a: seq<A>, b: seq<A>, keep: A -> bool, f: A -> B)
    ensures FilterMap(a + b, keep, f) == FilterMap(a, keep, f) + FilterMap(b, keep, f)
  {
    if |a| > 0 {
      assert (a + b)[1..] == a[1..] + b;
      FilterMapAppend(a[1..], b, keep, f);
    } else {
      assert a + b == b;
    }
  }

  /** Every kept element of a sequence whose elements all pass `keep` is mapped, in order. */
  lemma {:induction false} FilterMapAll<A, B>(s: seq<A>, keep: A -> bool, f: A -> B)
    requires forall k | 0 <= k < |s| :: keep(s[k])
    ensures |FilterMap(s, keep, f)| == |s| && forall i | 0 <= i < |s| :: FilterMap(s, keep, f)[i] == f(s[i])
  {
    if |s| > 0 {
      var tail := s[1..];
      assert forall k | 0 <= k < |tail| :: tail[k] == s[k + 1];
      FilterMapAll(tail, keep, f);
      var rest := FilterMap(tail, keep, f);
      var r := FilterMap(s, keep, f);
      FilterMapCons(s, keep, f);
      assert r == [f(s[0])] + rest;
      forall i | 0 <= i < |s|
        ensures r[i] == f(s[i])
      {
        if i > 0 {
          assert r[i] == rest[i - 1] == f(tail[i - 1]);
        }
      }
    }
  }

  /** The row-building step of `_fill_tree` for one table. */
  function RowMaker(mode: Mode, today: Day): Stored -> Row {
    x => RowOf(x, mode, today)
  }

  lemma FilterMapCons<A, B>(s: seq<A>, keep: A -> bool, f: A -> B)
    requires |s| > 0
    ensures FilterMap(s, keep, f) == (if keep(s[0]) then [f(s[0])] else []) + FilterMap(s[1..], keep, f)
  {
  }

  /** The rows for the items in the given order, skipping those that are not displayable. */
  function Display(s: seq<Stored>, mode: Mode, today: Day): (rows: seq<Row>)
    ensures |rows| <= |s|
  {
    FilterMap(s, Displayable, RowMaker(mode, today))
  }

  /** `r` is the row of some displayable item of `s`. */
  predicate RowOfSome(r: Row, s: seq<Stored>, mode: Mode, today: Day) {
    exists k | 0 <= k < |s| :: Displayable(s[k]) && r == RowOf(s[k], mode, today)
  }

  /** Every shown row is the row of a displayable item. */
  lemma DisplayFrom(s: seq<Stored>, mode: Mode, today: Day)
    ensures forall i | 0 <= i < |Display(s, mode, today)| :: RowOfSome(Display(s, mode, today)[i], s, mode, today)
  {
    var rows := Display(s, mode, today);
    var keep: Stored -> bool := Displayable;
    var f := RowMaker(mode, today);
    assert rows == FilterMap(s, keep, f);
    forall i | 0 <= i < |rows|
      ensures RowOfSome(rows[i], s, mode, today)
    {
      assert rows[i] in rows;
      var k :| 0 <= k < |s| && keep(s[k]) && rows[i] == f(s[k]);
      assert Displayable(s[k]);
      assert rows[i] == RowOf(s[k], mode, today);
    }
  }

  /** `Display` of a non-empty sequence: the first item's row, if shown, then the rest. */
  lemma DisplayCons(s: seq<Stored>, mode: Mode, today: Day)
    requires |s| > 0
    ensures Display(s, mode, today)
         == (if Displayable(s[0]) then [RowOf(s[0], mode, today)] else []) + Display(s[1..], mode, today)
  {
    var f := RowMaker(mode, today);
    FilterMapCons(s, Displayable, f);
    assert f(s[0]) == RowOf(s[0], mode, today);
  }

  /** Every shown row is well formed. */
  lemma DisplayShown(s: seq<Stored>, mode: Mode, today: Day)
    ensures forall i | 0 <= i < |Display(s, mode, today)| :: Shown(Display(s, mode, today)[i], mode, today)
  {
    var rows := Display(s, mode, today);
    DisplayFrom(s, mode, today);
    forall i | 0 <= i < |rows|
      ensures Shown(rows[i], mode, today)
    {
      assert RowOfSome(rows[i], s, mode, today);
      var k :| 0 <= k < |s| && Displayable(s[k]) && rows[i] == RowOf(s[k], mode, today);
    }
  }

  /**
   * `_fill_tree`: the items sorted by date (ascending for countdowns,
   * descending for anniversaries), then shown as rows, skipping items
   * without a title or a date; every displayable item is shown once.
   */
  function FillTree(items: seq<Stored>, mode: Mode, today: Day): (rows: seq<Row>)
    ensures forall i | 0 <= i < |rows| :: Shown(rows[i], mode, today)
    ensures multiset(rows) == multiset(Display(items, mode, today))
  {
    var sorted := SortBy(items, mode == Since);
    DisplaySort(items, mode == Since, Displayable, RowMaker(mode, today));
    DisplayShown(sorted, mode, today);
    Display(sorted, mode, today)
  }

  lemma {:induction false} DisplayInsert(x: Stored, ys: seq<Stored>, desc: bool, keep: Stored -> bool, f: Stored -> Row)
    requires Sorted(ys, desc)
    ensures multiset(FilterMap(InsertBy(x, ys, desc), keep, f))
         == multiset(FilterMap([x], keep, f)) + multiset(FilterMap(ys, keep, f))
  {
    if |ys| == 0 {
    } else if Ordered(Key(x), Key(ys[0]), desc) {
      assert InsertBy(x, ys, desc) == [x] + ys;
      FilterMapAppend([x], ys, keep, f);
    } else {
      var tail := ys[1..];
      var z := InsertBy(x, tail, desc);
      assert InsertBy(x, ys, desc) == [ys[0]] + z;
      DisplayInsert(x, tail, desc, keep, f);
      FilterMapAppend([ys[0]], z, keep, f);
      assert ys == [ys[0]] + tail;
      FilterMapAppend([ys[0]], tail, keep, f);
      var hx := FilterMap([x], keep, f);
      var hy := FilterMap([ys[0]], keep, f);
      assert FilterMap(InsertBy(x, ys, desc), keep, f) == hy + FilterMap(z, keep, f);
      assert FilterMap(ys, keep, f) == hy + FilterMap(tail, keep, f);
      assert multiset(FilterMap(z, keep, f)) == multiset(hx) + multiset(FilterMap(tail, keep, f));
    }
  }

  lemma {:induction false} DisplaySort(s: seq<Stored>, desc: bool, keep: Stored -> bool, f: Stored -> Row)
    ensures multiset(FilterMap(SortBy(s, desc), keep, f)) == multiset(FilterMap(s, keep, f))
  {
    if |s| > 0 {
      var tail := s[1..];
      var sortedTail := SortBy(tail, desc);
      assert SortBy(s, desc) == InsertBy(s[0], sortedTail, desc);
      DisplaySort(tail, desc, keep, f);
      DisplayInsert(s[0], sortedTail, desc, keep, f);
      assert s == [s[0]] + tail;
      FilterMapAppend([s[0]], tail, keep, f);
    }
  }

  /** When the stored dates carry no surrounding blanks, the shown rows are in date order. */
  lemma FillTreeOrdered(items: seq<Stored>, mode: Mode, today: Day)
    requires forall k | 0 <= k < |items| :: Stripped(Key(items[k]))
    ensures var rows := FillTree(items, mode, today);
      forall i, j | 0 <= i < j < |rows| :: Ordered(rows[i].date, rows[j].date, mode == Since)
  {
    var desc := mode == Since;
    var sorted := SortBy(items, desc);
    forall k | 0 <= k < |sorted|
      ensures Stripped(Key(sorted[k]))
    {
      assert sorted[k] in multiset(items);
    }
    DisplayOrdered(sorted, desc, mode, today);
  }

  /**
   * A filter-map keeps order: when the keys of `s` are ordered and every
   * kept element's image carries the element's key, the images are ordered.
   */
  lemma {:induction false} FilterMapOrdered<A, B>(s: seq<A>, keep: A -> bool, f: A -> B, ka: A -> string, kb: B -> string, desc: bool)
    requires forall k, l | 0 <= k < l < |s| :: Ordered(ka(s[k]), ka(s[l]), desc)
    requires forall k | 0 <= k < |s| :: keep(s[k]) ==> kb(f(s[k])) == ka(s[k])
    ensures var r := FilterMap(s, keep, f);
      forall i, j | 0 <= i < j < |r| :: Ordered(kb(r[i]), kb(r[j]), desc)
  {
    if |s| > 0 {
      var tail := s[1..];
      assert forall k | 0 <= k < |tail| :: tail[k] == s[k + 1];
      FilterMapOrdered(tail, keep, f, ka, kb, desc);
      var rest := FilterMap(tail, keep, f);
      FilterMapCons(s, keep, f);
      if keep(s[0]) {
        var r := FilterMap(s, keep, f);
        assert r == [f(s[0])] + rest;
        forall j | 0 <= j < |rest|
          ensures Ordered(ka(s[0]), kb(rest[j]), desc)
        {
          assert rest[j] in rest;
          var k :| 0 <= k < |tail| && keep(tail[k]) && rest[j] == f(tail[k]);
          assert Ordered(ka(s[0]), ka(s[k + 1]), desc);
        }
        forall i, j | 0 <= i < j < |r|
          ensures Ordered(kb(r[i]), kb(r[j]), desc)
        {
          assert r[j] == rest[j - 1];
          if i > 0 {
            assert r[i] == rest[i - 1];
          }
        }
      }
    }
  }

  /** The date column of a row. */
  function DateOf(r: Row): string {
    r.date
  }

  lemma DisplayOrdered(s: seq<Stored>, desc: bool, mode: Mode, today: Day)
    requires Sorted(s, desc) && forall k | 0 <= k < |s| :: Stripped(Key(s[k]))
    ensures var rows := Display(s, mode, today);
      forall i, j | 0 <= i < j < |rows| :: Ordered(rows[i].date, rows[j].date, desc)
  {
    var keep: Stored -> bool := Displayable;
    var f := RowMaker(mode, today);
    var ka: Stored -> string := Key;
    var kb: Row -> string := DateOf;
    forall k | 0 <= k < |s|
      ensures keep(s[k]) ==> kb(f(s[k])) == ka(s[k])
    {
      RowDate(s[k], mode, today);
      assert f(s[k]) == RowOf(s[k], mode, today);
    }
    FilterMapOrdered(s, keep, f, ka, kb, desc);
    var rows := Display(s, mode, today);
    assert rows == FilterMap(s, keep, f);
    forall i, j | 0 <= i < j < |rows|
      ensures Ordered(rows[i].date, rows[j].date, desc)
    {
      assert Ordered(kb(rows[i]), kb(rows[j]), desc);
    }
  }

  lemma RowDate(x: Stored, mode: Mode, today: Day)
    requires Stripped(Key(x))
    ensures RowOf(x, mode, today).date == Key(x)
  {
    StripOfStripped(Key(x));
  }

  // ---------------------------------------------------------------------------
  // _tree_to_list
  // ---------------------------------------------------------------------------

  /** The rows with non-empty stripped title and date, as stored items, in table order. */
  function Keep(tree: seq<Row>): (s: seq<Stored>)
    ensures forall k | 0 <= k < |s| :: Clean(s[k])
  {
    if |tree| == 0 then []
    else
      var t := Strip(tree[0].title);
      var ds := Strip(tree[0].date);
      assert Stripped(t) && Stripped(ds);
      var head := if t != "" && ds != "" then [Stored(Some(t), Some(ds))] else [];
      var rest := Keep(tree[1..]);
      var s := head + rest;
      forall k | 0 <= k < |s|
        ensures Clean(s[k])
      {
        if k >= |head| {
          assert s[k] == rest[k - |head|];
        }
      }
      s
  }

  /** A saved item: both keys present, stripped and non-empty. */
  predicate Clean(x: Stored) {
    && x.title.Some? && x.date.Some?
    && x.title.value != "" && x.date.value != ""
    && Stripped(x.title.value) && Stripped(x.date.value)
  }

  /**
   * `_tree_to_list`: the rows with a non-empty stripped title and date,
   * stripped, sorted ascending by date.
   */
  function TreeToList(tree: seq<Row>): (s: seq<Stored>)
    ensures Sorted(s, false)
    ensures multiset(s) == multiset(Keep(tree))
    ensures forall k | 0 <= k < |s| :: Clean(s[k])
  {
    var s := SortBy(Keep(tree), false);
    forall k | 0 <= k < |s|
      ensures Clean(s[k])
    {
      assert s[k] in multiset(Keep(tree));
    }
    s
  }

  /** A row survives saving exactly when its stripped title and date are both non-empty. */
  lemma {:induction false} KeepMembers(tree: seq<Row>, t: string, ds: string)
    ensures Stored(Some(t), Some(ds)) in Keep(tree) <==>
      exists i | 0 <= i < |tree| :: Strip(tree[i].title) == t && Strip(tree[i].date) == ds && t != "" && ds != ""
  {
    if |tree| > 0 {
      KeepMembers(tree[1..], t, ds);
      if exists i | 0 <= i < |tree[1..]| :: Strip(tree[1..][i].title) == t && Strip(tree[1..][i].date) == ds && t != "" && ds != "" {
        var i :| 0 <= i < |tree[1..]| && Strip(tree[1..][i].title) == t && Strip(tree[1..][i].date) == ds && t != "" && ds != "";
        assert tree[i + 1] == tree[1..][i];
      }
      if exists i | 0 <= i < |tree| :: Strip(tree[i].title) == t && Strip(tree[i].date) == ds && t != "" && ds != "" {
        var i :| 0 <= i < |tree| && Strip(tree[i].title) == t && Strip(tree[i].date) == ds && t != "" && ds != "";
        if i > 0 {
          assert tree[1..][i - 1] == tree[i];
        }
      }
    }
  }

  /** The title and date of each row, the part a table shows and saves. */
  function Pairs(rows: seq<Row>): (ps: seq<(string, string)>)
    ensures |ps| == |rows|
  {
    seq(|rows|, i requires 0 <= i < |rows| => (rows[i].title, rows[i].date))
  }

  function StoredPairs(s: seq<Stored>): (ps: seq<(string, string)>)
    ensures |ps| == |s|
  {
    seq(|s|, i requires 0 <= i < |s| => (s[i].title.GetOr(""), Key(s[i])))
  }

  lemma DisplayClean(s: seq<Stored>, mode: Mode, today: Day)
    requires forall k | 0 <= k < |s| :: Clean(s[k])
    ensures Pairs(Display(s, mode, today)) == StoredPairs(s)
  {
    forall k | 0 <= k < |s|
      ensures Displayable(s[k])
    {
      CleanRow(s[k], mode, today);
    }
    DisplayAll(s, mode, today);
    var rows := Display(s, mode, today);
    forall i | 0 <= i < |s|
      ensures Pairs(rows)[i] == StoredPairs(s)[i]
    {
      CleanPair(s[i], rows[i], mode, today);
    }
  }

  /** When every item is displayable, each one is shown, in order. */
  lemma DisplayAll(s: seq<Stored>, mode: Mode, today: Day)
    requires forall k | 0 <= k < |s| :: Displayable(s[k])
    ensures |Display(s, mode, today)| == |s|
    ensures forall i | 0 <= i < |s| :: Display(s, mode, today)[i] == RowOf(s[i], mode, today)
  {
    var keep: Stored -> bool := Displayable;
    var f := RowMaker(mode, today);
    assert forall k | 0 <= k < |s| :: keep(s[k]);
    FilterMapAll(s, keep, f);
    var rows := Display(s, mode, today);
    assert rows == FilterMap(s, keep, f);
    forall i | 0 <= i < |s|
      ensures rows[i] == RowOf(s[i], mode, today)
    {
      assert rows[i] == f(s[i]);
    }
  }

  lemma CleanPair(x: Stored, row: Row, mode: Mode, today: Day)
    requires Clean(x) && row == RowOf(x, mode, today)
    ensures (row.title, row.date) == (x.title.GetOr(""), Key(x))
  {
    CleanRow(x, mode, today);
  }

  lemma CleanRow(x: Stored, mode: Mode, today: Day)
    requires Clean(x)
    ensures Displayable(x)
    ensures (RowOf(x, mode, today).title, RowOf(x, mode, today).date) == (x.title.value, x.date.value)
  {
    StripOfStripped(x.title.value);
    StripOfStripped(x.date.value);
  }

  lemma PairsCons(row: Row, rows: seq<Row>)
    ensures Pairs([row] + rows) == [(row.title, row.date)] + Pairs(rows)
  {
  }

  /**
   * Save All then the refresh that follows: the Countdown table shows
   * exactly the saved list, in the saved order.
   */
  lemma SaveThenShow(tree: seq<Row>, today: Day)
    ensures Pairs(FillTree(TreeToList(tree), Countdown, today)) == StoredPairs(TreeToList(tree))
  {
    var saved := TreeToList(tree);
    SortBySorted(saved, false);
    DisplayClean(saved, Countdown, today);
  }

  // ---------------------------------------------------------------------------
  // The tab: both tables and the stored lists
  // ---------------------------------------------------------------------------

  /** The stored lists of both tables. */
  datatype Data = Data(countdown: seq<Stored>, since: seq<Stored>)

  /** The tab's stored lists and the rows its two tables show. */
  datatype Tab = Tab(data: Data, countdownRows: seq<Row>, sinceRows: seq<Row>)

  /** `_refresh_views`: both tables refilled from the stored lists. */
  function Refresh(data: Data, today: Day): (r: Tab)
    ensures r.data == data
    ensures forall i | 0 <= i < |r.countdownRows| :: Shown(r.countdownRows[i], Countdown, today)
    ensures forall i | 0 <= i < |r.sinceRows| :: Shown(r.sinceRows[i], Since, today)
    ensures multiset(r.countdownRows) == multiset(Display(data.countdown, Countdown, today))
    ensures multiset(r.sinceRows) == multiset(Display(data.since, Since, today))
  {
    Tab(data, FillTree(data.countdown, Countdown, today), FillTree(data.since, Since, today))
  }

  /**
   * `_save_all`: each table's rows become its stored list, whether or not
   * writing them out succeeds, and both tables are refilled; the Countdown
   * table then shows exactly its saved list in order, the Since table the
   * same items as its saved list.
   */
  function SaveAll(tab: Tab, today: Day): (r: Tab)
    ensures r.data.countdown == TreeToList(tab.countdownRows) && r.data.since == TreeToList(tab.sinceRows)
    ensures Pairs(r.countdownRows) == StoredPairs(r.data.countdown)
    ensures multiset(r.sinceRows) == multiset(Display(r.data.since, Since, today))
  {
    var data := Data(TreeToList(tab.countdownRows), TreeToList(tab.sinceRows));
    SaveThenShow(tab.countdownRows, today);
    Refresh(data, today)
  }

  // ---------------------------------------------------------------------------
  // _recompute_days_in_tree
  // ---------------------------------------------------------------------------

  /** `_recompute_days_in_tree`: every row's days column recomputed from its stripped date; titles and dates untouched. */
  function Recompute(tree: seq<Row>, mode: Mode, today: Day): (r: seq<Row>)
    ensures |r| == |tree|
    ensures forall i | 0 <= i < |r| :: r[i].title == tree[i].title && r[i].date == tree[i].date
    ensures forall i | 0 <= i < |r| :: r[i].days == DaysOf(ParseDay(Strip(tree[i].date)), mode, today)
  {
    seq(|tree|, i requires 0 <= i < |tree| =>
      Row(tree[i].title, tree[i].date, DaysOf(ParseDay(Strip(tree[i].date)), mode, today)))
  }

  /** Recounting the rows a fill produced changes nothing: both compute the same column. */
  lemma RecomputeAgreesWithFill(items: seq<Stored>, mode: Mode, today: Day)
    ensures Recompute(FillTree(items, mode, today), mode, today) == FillTree(items, mode, today)
  {
    var rows := FillTree(items, mode, today);
    forall i | 0 <= i < |rows|
      ensures Strip(rows[i].date) == rows[i].date
    {
      StripOfStripped(rows[i].date);
    }
  }

  // ---------------------------------------------------------------------------
  // _delete_row
  // ---------------------------------------------------------------------------

  /**
   * `_delete_row`: the rows at the selected positions are removed, the
   * others kept in order.
   */
  function DeleteRows<T>(tree: seq<T>, selected: set<nat>): (r: seq<T>)
    ensures |r| <= |tree|
    decreases |tree|
  {
    if |tree| == 0 then []
    else
      var n := |tree| - 1;
      DeleteRows(tree[..n], selected) + (if n in selected then [] else [tree[n]])
  }

  /** Every row that is not selected is kept... */
  lemma {:induction false} DeleteKeeps<T>(tree: seq<T>, selected: set<nat>, i: nat)
    requires i < |tree| && i !in selected
    ensures tree[i] in DeleteRows(tree, selected)
    decreases |tree|
  {
    var n := |tree| - 1;
    var r := DeleteRows(tree, selected);
    if i < n {
      DeleteKeeps(tree[..n], selected, i);
      assert tree[..n][i] == tree[i];
    } else {
      assert r[|r| - 1] == tree[n];
    }
  }

  /** ...and every kept row is an unselected one. */
  lemma {:induction false} DeleteOnly<T>(tree: seq<T>, selected: set<nat>, x: T)
    requires x in DeleteRows(tree, selected)
    ensures exists i | 0 <= i < |tree| :: i !in selected && tree[i] == x
    decreases |tree|
  {
    var n := |tree| - 1;
    var front := tree[..n];
    if x in DeleteRows(front, selected) {
      DeleteOnly(front, selected, x);
      var i :| 0 <= i < |front| && i !in selected && front[i] == x;
      assert tree[i] == x;
    } else {
      assert n !in selected && tree[n] == x;
    }
  }

  /** With nothing selected, the table is unchanged. */
  lemma {:induction false} DeleteNothing<T>(tree: seq<T>, selected: set<nat>)
    requires forall i | 0 <= i < |tree| :: i !in selected
    ensures DeleteRows(tree, selected) == tree
    decreases |tree|
  {
    if |tree| > 0 {
      var n := |tree| - 1;
      DeleteNothing(tree[..n], selected);
      assert tree == tree[..n] + [tree[n]];
    }
  }

  // ---------------------------------------------------------------------------
  // The editor dialog (on_ok)
  // ---------------------------------------------------------------------------

  datatype Target = Add | Edit(index: nat)

  /** Why OK is refused: a blank title or date, or a date that does not read as YYYY-MM-DD. */
  datatype EditorError = Required | BadDate

  /**
   * `on_ok`: the stripped title and date are both required and the date
   * must parse; then a new row is appended (Add) or the selected row is
   * replaced (Edit), with an empty days column, and the table's days are
   * recounted.
   */
  function OnOk(tree: seq<Row>, title: string, date: string, target: Target, mode: Mode, today: Day): (r: Result<seq<Row>, EditorError>)
    requires target.Edit? ==> target.index < |tree|
    ensures r == Err(Required) <==> Strip(title) == "" || Strip(date) == ""
    ensures r == Err(BadDate) <==> Strip(title) != "" && Strip(date) != "" && ParseDay(Strip(date)).None?
    ensures r.Ok? && target == Add ==>
      Pairs(r.value) == Pairs(tree) + [(Strip(title), Strip(date))]
    ensures r.Ok? && target.Edit? ==>
      Pairs(r.value) == Pairs(tree)[target.index := (Strip(title), Strip(date))]
    ensures r.Ok? ==> forall i | 0 <= i < |r.value| :: r.value[i].days != Blank
    ensures r.Ok? ==> forall i | 0 <= i < |r.value| :: r.value[i].days == DaysOf(ParseDay(Strip(r.value[i].date)), mode, today)
  {
    var t := Strip(title);
    var ds := Strip(date);
    if t == "" || ds == "" then Err(Required)
    else if ParseDay(ds).None? then Err(BadDate)
    else Ok(Place(tree, Row(t, ds, Blank), target, mode, today))
  }

  /** The accepted row appended or put in place of the edited one, then the table recounted. */
  function Place(tree: seq<Row>, row: Row, target: Target, mode: Mode, today: Day): (r: seq<Row>)
    requires target.Edit? ==> target.index < |tree|
    ensures target == Add ==> Pairs(r) == Pairs(tree) + [(row.title, row.date)]
    ensures target.Edit? ==> Pairs(r) == Pairs(tree)[target.index := (row.title, row.date)]
    ensures forall i | 0 <= i < |r| :: r[i].days != Blank
    ensures forall i | 0 <= i < |r| :: r[i].days == DaysOf(ParseDay(Strip(r[i].date)), mode, today)
  {
    var edited := match target
      case Add => tree + [row]
      case Edit(i) => tree[i := row];
    var r := Recompute(edited, mode, today);
    PairsOfRecompute(edited, mode, today);
    match target
    case Add =>
      PairsAppend(tree, row);
      r
    case Edit(i) =>
      PairsUpdate(tree, i, row);
      r
  }

  lemma PairsOfRecompute(tree: seq<Row>, mode: Mode, today: Day)
    ensures Pairs(Recompute(tree, mode, today)) == Pairs(tree)
  {
  }

  lemma PairsAppend(tree: seq<Row>, row: Row)
    ensures Pairs(tree + [row]) == Pairs(tree) + [(row.title, row.date)]
  {
  }

  lemma PairsUpdate(tree: seq<Row>, i: nat, row: Row)
    requires i < |tree|
    ensures Pairs(tree[i := row]) == Pairs(tree)[i := (row.title, row.date)]
  {
  }

  /** An accepted entry lands in the table with the day count of its date, never "?". */
  lemma AcceptedDateCounts(tree: seq<Row>, title: string, date: string, target: Target, mode: Mode, today: Day)
    requires target.Edit? ==> target.index < |tree|
    requires OnOk(tree, title, date, target, mode, today).Ok?
    ensures var rows := OnOk(tree, title, date, target, mode, today).value;
      var i := if target == Add then |tree| else target.index;
      && i < |rows|
      && rows[i].days == DaysOf(ParseDay(Strip(date)), mode, today)
      && rows[i].days != Unknown
  {
    var ds := Strip(date);
    var row := Row(Strip(title), ds, Blank);
    var edited := match target
      case Add => tree + [row]
      case Edit(j) => tree[j := row];
    var i := if target == Add then |tree| else target.index;
    assert i < |edited| && edited[i] == row;
    var r := Recompute(edited, mode, today);
    assert OnOk(tree, title, date, target, mode, today).value == Place(tree, row, target, mode, today) == r;
    StripOfStripped(ds);
    assert r[i].days == DaysOf(ParseDay(ds), mode, today);
  }
}

=== FILE: presets.dfy ===
/**
 * The preset length both timer windows read from their minute and second
 * spinboxes (`_preset_seconds` of the timer tab, `get_preset_seconds` of the
 * single-window prototype): the two computations are the same.
 */
module Presets {
  import opened Common
  import opened Countdown

  const DefaultMinutes: int := 25
  const DefaultSecondsField: int := 0
  const MaxMinutes: int := 180
  const MaxSecondsField: int := 59

  /**
   * `int(var.get())` yields `Some(n)`; `None` stands for an entry that does
   * not read as an integer, where the code falls back to 25 minutes or
   * 0 seconds. Minutes are clamped to 0..180, seconds to 0..59, and the
   * total is at least one second.
   */
  function PresetSeconds(minutes: Option<int>, seconds: Option<int>): (r: int)
    ensures 1 <= r <= MaxMinutes * 60 + MaxSecondsField
    ensures minutes.None? && seconds.None? ==> r == DefaultSeconds
    ensures minutes.Some? && seconds.Some? && 0 <= minutes.value <= MaxMinutes && 0 <= seconds.value <= MaxSecondsField
            && minutes.value * 60 + seconds.value > 0
            ==> r == minutes.value * 60 + seconds.value
    ensures minutes.Some? && minutes.value <= 0 && seconds.Some? && seconds.value <= 0 ==> r == 1
    ensures minutes.Some? && minutes.value >= MaxMinutes ==> r >= MaxMinutes * 60
    // One field unreadable: the other is taken with the default for the missing one.
    ensures minutes.None? && seconds.Some? && 0 <= seconds.value <= MaxSecondsField ==> r == DefaultSeconds + seconds.value
    ensures minutes.Some? && 0 <= minutes.value <= MaxMinutes && seconds.None? ==> r == Max(1, minutes.value * 60)
    // One field out of range: it counts as the nearest bound.
    ensures minutes.Some? && minutes.value > MaxMinutes && seconds.Some? && 0 <= seconds.value <= MaxSecondsField
            ==> r == MaxMinutes * 60 + seconds.value
    ensures minutes.Some? && minutes.value < 0 && seconds.Some? && 0 <= seconds.value <= MaxSecondsField
            ==> r == Max(1, seconds.value)
    ensures minutes.Some? && 0 <= minutes.value <= MaxMinutes && seconds.Some? && seconds.value > MaxSecondsField
            ==> r == minutes.value * 60 + MaxSecondsField
    ensures minutes.Some? && 0 <= minutes.value <= MaxMinutes && seconds.Some? && seconds.value < 0
            ==> r == Max(1, minutes.value * 60)
  {
    var m := Clamp(0, MaxMinutes, minutes.GetOr(DefaultMinutes));
    var s := Clamp(0, MaxSecondsField, seconds.GetOr(DefaultSecondsField));
    Max(1, m * 60 + s)
  }

  /** An in-range entry other than 0:00 is taken as it is: the preset splits back into the same minutes and seconds. */
  lemma PresetReadsBack(m: int, s: int)
    requires 0 <= m <= MaxMinutes && 0 <= s <= MaxSecondsField && (m, s) != (0, 0)
    ensures MinutesSeconds(PresetSeconds(Some(m), Some(s))) == (m, s)
  {
    var r := PresetSeconds(Some(m), Some(s));
    assert r == m * 60 + s;
    var (mm, ss) := MinutesSeconds(r);
    assert mm * 60 + ss == m * 60 + s;
  }

  /**
   * Clamping and defaulting happen field by field: any entry gives the same
   * preset as the in-range entry it is read as.
   */
  lemma PresetOfClampedFields(minutes: Option<int>, seconds: Option<int>)
    ensures var m := Clamp(0, MaxMinutes, minutes.GetOr(DefaultMinutes));
      var s := Clamp(0, MaxSecondsField, seconds.GetOr(DefaultSecondsField));
      && 0 <= m <= MaxMinutes && 0 <= s <= MaxSecondsField
      && PresetSeconds(minutes, seconds) == PresetSeconds(Some(m), Some(s))
  {
  }
}

=== FILE: prototype.dfy ===
/**
 * `app.py`, the older single-window timer: the same countdown engine and
 * preset clamp as the timer page, without sessions, tags or notes.
 */
module Prototype {
  import opened Common
  import opened Countdown
  import opened Presets
  import TimerTab

  /** The spinbox entries, the timer, and the last remainder shown on the clock. */
  datatype App = App(minutes: Option<int>, seconds: Option<int>, timer: Timer, shown: int)

  function Preset(app: App): int {
    PresetSeconds(app.minutes, app.seconds)
  }

  /** `__init__`: 25:00 in the spinboxes, the timer set to the preset and shown. */
  function Init(): (r: App)
    ensures !r.timer.running && Remaining(r.timer) == DefaultSeconds && r.shown == DefaultSeconds
    ensures Valid(r.timer)
  {
    var t := SetSeconds(Countdown.Init(), PresetSeconds(Some(DefaultMinutes), Some(DefaultSecondsField)));
    App(Some(DefaultMinutes), Some(DefaultSecondsField), t, Remaining(t))
  }

  /** `_on_tick`: the clock text for the reported remainder. */
  function ClockText(app: App): string {
    FormatMmss(app.shown)
  }

  /** `_on_finish`: back to the preset, shown. */
  function OnFinish(app: App, now: int): (r: App)
    ensures !r.timer.running && Remaining(r.timer) == Preset(app) && r.shown == Preset(app)
  {
    var (t, _) := Reset(app.timer, now, Some(Preset(app)));
    app.(timer := t, shown := Remaining(t))
  }

  /** Runs the callbacks a timer step fired, in order. */
  function Deliver(app: App, notices: seq<Notice>, now: int): (r: App)
    ensures FinishNotice !in notices ==> r.timer == app.timer
    decreases |notices|
  {
    if |notices| == 0 then app
    else
      var first := match notices[0]
        case TickNotice(s) => app.(shown := s)
        case FinishNotice => OnFinish(app, now);
      assert notices == [notices[0]] + notices[1..];
      Deliver(first, notices[1..], now)
  }

  lemma DeliverTick(app: App, seconds: int, now: int)
    ensures Deliver(app, [TickNotice(seconds)], now) == app.(shown := seconds)
  {
    assert [TickNotice(seconds)][1..] == [];
  }

  datatype Event = StartPressed | PausePressed | ResetPressed | TimerTicked | PresetEdited(minutes: Option<int>, seconds: Option<int>)

  /**
   * One event at instant `now`: `on_start` and `on_pause` defer to the
   * timer's own guards; `on_reset` resets to the preset; an edit of either
   * spinbox updates a stopped timer only.
   */
  function Step(app: App, ev: Event, now: int): (r: App)
    ensures ev.PresetEdited? && app.timer.running ==> r.timer == app.timer
    ensures ev.PresetEdited? && !app.timer.running ==>
      Remaining(r.timer) == PresetSeconds(ev.minutes, ev.seconds) && r.shown == Remaining(r.timer)
    ensures ev == ResetPressed ==> !r.timer.running && Remaining(r.timer) == Preset(app) && r.shown == Preset(app)
    ensures ev == PausePressed ==> r.timer == Pause(app.timer, now)
  {
    match ev
    case StartPressed =>
      var (t, ns) := Start(app.timer, now);
      Deliver(app.(timer := t), ns, now)
    case PausePressed => app.(timer := Pause(app.timer, now))
    case ResetPressed =>
      var (t, ns) := Reset(app.timer, now, Some(Preset(app)));
      DeliverTick(app.(timer := t), Remaining(t), now);
      Deliver(app.(timer := t), ns, now)
    case TimerTicked =>
      var (t, ns) := Tick(app.timer, now);
      Deliver(app.(timer := t), ns, now)
    case PresetEdited(m, s) =>
      var a := app.(minutes := m, seconds := s);
      if a.timer.running then a
      else
        var t := SetSeconds(a.timer, Preset(a));
        a.(timer := t, shown := Remaining(t))
  }

  lemma {:induction false} DeliverValid(app: App, notices: seq<Notice>, now: int)
    requires Valid(app.timer)
    ensures Valid(Deliver(app, notices, now).timer)
    decreases |notices|
  {
    if |notices| > 0 {
      var first := match notices[0]
        case TickNotice(s) => app.(shown := s)
        case FinishNotice => OnFinish(app, now);
      DeliverValid(first, notices[1..], now);
    }
  }

  /** Every event keeps the timer's own invariant. */
  lemma StepKeepsValid(app: App, ev: Event, now: int)
    requires Valid(app.timer)
    ensures Valid(Step(app, ev, now).timer)
  {
    match ev
    case StartPressed =>
      var (t, ns) := Start(app.timer, now);
      DeliverValid(app.(timer := t), ns, now);
    case ResetPressed =>
      var (t, ns) := Reset(app.timer, now, Some(Preset(app)));
      DeliverValid(app.(timer := t), ns, now);
    case TimerTicked =>
      var (t, ns) := Tick(app.timer, now);
      DeliverValid(app.(timer := t), ns, now);
    case _ =>
  }

  /** The timer inside a page of the newer interface, given the same spinbox entries. */
  predicate SameTimer(app: App, tab: TimerTab.Tab) {
    && app.timer == tab.timer
    && app.minutes == tab.form.minutes && app.seconds == tab.form.seconds
  }

  lemma {:induction false} DeliverAgrees(app: App, tab: TimerTab.Tab, notices: seq<Notice>, now: int, date: string)
    requires SameTimer(app, tab) && app.shown == tab.shown
    ensures var a := Deliver(app, notices, now);
      var t := TimerTab.Deliver(tab, notices, now, date).tab;
      SameTimer(a, t) && a.shown == t.shown
    decreases |notices|
  {
    if |notices| > 0 {
      var a1 := match notices[0]
        case TickNotice(s) => app.(shown := s)
        case FinishNotice => OnFinish(app, now);
      var t1 := match notices[0]
        case TickNotice(s) => TimerTab.Outcome(TimerTab.Show(tab, s), [])
        case FinishNotice => TimerTab.TimerFinished(tab, now, date);
      DeliverAgrees(a1, t1.tab, notices[1..], now, date);
    }
  }

  /**
   * The prototype and the timer page drive the countdown identically: from
   * the same timer and spinbox entries, starting, ticking and resetting
   * leave both with the same timer and the same clock.
   */
  lemma AgreesWithTimerPage(app: App, tab: TimerTab.Tab, now: int, date: string)
    requires SameTimer(app, tab) && app.shown == tab.shown
    ensures var a := Step(app, StartPressed, now);
      var t := TimerTab.Step(tab, TimerTab.StartPressed, now, date).tab;
      SameTimer(a, t) && a.shown == t.shown
    ensures var a := Step(app, TimerTicked, now);
      var t := TimerTab.Step(tab, TimerTab.TimerTicked, now, date).tab;
      SameTimer(a, t) && a.shown == t.shown
    ensures var a := Step(app, ResetPressed, now);
      var t := TimerTab.Step(tab, TimerTab.ResetPressed, now, date).tab;
      SameTimer(a, t) && a.shown == t.shown
  {
    if !tab.timer.running {
      var ready := TimerTab.OpenSession(tab, now);
      var (t1, ns) := Start(ready.timer, now);
      DeliverAgrees(app.(timer := t1), ready.(timer := t1), ns, now, date);
    }
    var (t2, ns2) := Tick(tab.timer, now);
    DeliverAgrees(app.(timer := t2), tab.(timer := t2), ns2, now, date);
    var (t3, ns3) := Reset(app.timer, now, Some(Preset(app)));
    DeliverAgrees(app.(timer := t3), tab.(timer := t3), ns3, now, date);
  }
}

=== FILE: sorted_tags.dfy ===
/**
 * Sorted, duplicate-free sequences of strings: the result of `np.unique`
 * on an array of tags and of `sorted(set(...))` on a collection of tags.
 */
module SortedTags {
  import opened Text

  /** Strictly increasing in Python's `str` order, hence free of duplicates. */
  predicate StrictlySorted(xs: seq<string>) {
    forall i, j | 0 <= i < j < |xs| :: Less(xs[i], xs[j])
  }

  lemma StrictlySortedDistinct(xs: seq<string>, i: int, j: int)
    requires StrictlySorted(xs) && 0 <= i < |xs| && 0 <= j < |xs| && i != j
    ensures xs[i] != xs[j]
  {
    if i < j {
      LessIrreflexive(xs[i]);
    } else {
      LessIrreflexive(xs[j]);
    }
  }

  /** Adds `t` to a sorted set of tags, keeping it sorted; a tag already present is not repeated. */
  function Insert(xs: seq<string>, t: string): (r: seq<string>)
    requires StrictlySorted(xs)
    ensures StrictlySorted(r)
    ensures forall x :: x in r <==> x in xs || x == t
    ensures t in xs ==> r == xs
    ensures t !in xs ==> |r| == |xs| + 1
  {
    if |xs| == 0 then [t]
    else if t == xs[0] then xs
    else if Less(t, xs[0]) then
      var r := [t] + xs;
      forall i, j | 0 <= i < j < |r|
        ensures Less(r[i], r[j])
      {
        if i == 0 && j > 1 {
          LessTransitive(t, xs[0], xs[j - 1]);
        }
      }
      assert t !in xs by {
        if t in xs {
          var k :| 0 <= k < |xs| && xs[k] == t;
          if k > 0 {
            LessTransitive(t, xs[0], t);
          }
          LessIrreflexive(t);
        }
      }
      r
    else
      var rest := Insert(xs[1..], t);
      var r := [xs[0]] + rest;
      LessTotal(t, xs[0]);
      forall i, j | 0 <= i < j < |r|
        ensures Less(r[i], r[j])
      {
        if i == 0 {
          assert r[j] in rest;
          assert r[j] in xs[1..] || r[j] == t;
        }
      }
      assert xs == [xs[0]] + xs[1..];
      r
  }

  /** The distinct elements of `s` in increasing order (`sorted(set(s))`, `np.unique(s)`). */
  function SortedUnique(s: seq<string>): (r: seq<string>)
    ensures StrictlySorted(r)
    ensures forall x :: x in r <==> x in s
    ensures |r| <= |s|
  {
    if |s| == 0 then []
    else
      var r := Insert(SortedUnique(s[..|s| - 1]), s[|s| - 1]);
      assert s == s[..|s| - 1] + [s[|s| - 1]];
      r
  }

  /** Two strictly sorted sequences with the same elements are the same sequence. */
  lemma {:induction false} StrictlySortedUnique(xs: seq<string>, ys: seq<string>)
    requires StrictlySorted(xs) && StrictlySorted(ys)
    requires forall x :: x in xs <==> x in ys
    ensures xs == ys
  {
    SameElementsSameEmptiness(xs, ys);
    if |xs| > 0 {
      // The first element of each is the least of the common set.
      FirstIsLeast(xs, ys);
      FirstIsLeast(ys, xs);
      if xs[0] != ys[0] {
        LessAsymmetric(ys[0], xs[0]);
        assert false;
      }
      forall x
        ensures x in xs[1..] <==> x in ys[1..]
      {
        if x in xs[1..] {
          var k :| 1 <= k < |xs| && xs[k] == x;
          StrictlySortedDistinct(xs, 0, k);
          assert x in ys;
        }
        if x in ys[1..] {
          var k :| 1 <= k < |ys| && ys[k] == x;
          StrictlySortedDistinct(ys, 0, k);
          assert x in xs;
        }
      }
      StrictlySortedUnique(xs[1..], ys[1..]);
      assert xs == [xs[0]] + xs[1..] && ys == [ys[0]] + ys[1..];
    }
  }

  lemma SameElementsSameEmptiness(xs: seq<string>, ys: seq<string>)
    requires forall x :: x in xs <==> x in ys
    ensures |xs| == 0 <==> |ys| == 0
  {
    if |xs| > 0 {
      assert xs[0] in ys;
    }
    if |ys| > 0 {
      assert ys[0] in xs;
    }
  }

  /** The first element of a strictly sorted sequence is below every other element of the same set. */
  lemma FirstIsLeast(xs: seq<string>, ys: seq<string>)
    requires StrictlySorted(ys) && |xs| > 0 && |ys| > 0
    requires forall x :: x in xs <==> x in ys
    ensures xs[0] == ys[0] || Less(ys[0], xs[0])
  {
    assert xs[0] in ys;
  }
}

=== FILE: stats.dfy ===
/**
 * Period aggregation of `stats.py`: the stored sessions are read into
 * (day, seconds, tag) entries, filtered to an inclusive day window (a
 * Monday-to-Sunday week or a calendar month), and summed per tag. Totals
 * are kept in seconds: the conversion to minutes rounded to one decimal
 * (binary floating point) is not modelled.
 */
module Stats {
  import opened Common
  import opened Text
  import opened SortedTags
  import opened Calendar

  // ---------------------------------------------------------------------------
  // Reading the stored sessions (_sessions_to_arrays)
  // ---------------------------------------------------------------------------

  /** A stored `duration_s`: absent, read by `int(...)` as `n`, or not readable as an integer. */
  datatype Field = Missing | Given(n: int) | Unreadable

  /** One stored session, as far as aggregation reads it; `None` for an absent key. */
  datatype SessionRow = SessionRow(date: Option<string>, duration: Field, tag: Option<string>)

  /** A session as the arrays hold it: its day, its seconds, its tag. */
  datatype Entry = Entry(day: Day, seconds: int, tag: string)

  /**
   * Why a call raises: a session without a date (KeyError), a date that does
   * not parse, a duration that `int()` refuses (ValueError), each with the
   * index of the first offending session; or period bounds outside `date`'s
   * range (OverflowError or ValueError).
   */
  datatype StatsError = MissingDate(index: nat) | BadDate(index: nat) | BadDuration(index: nat) | OutOfRange

  const DefaultTag: string := "Other"

  predicate DateOk(row: SessionRow) {
    row.date.Some? && ParseDay(row.date.value).Some?
  }

  predicate DurationOk(row: SessionRow) {
    !row.duration.Unreadable?
  }

  /** The first session from `from` on whose date is missing or does not parse. */
  function FirstBadDate(rows: seq<SessionRow>, from: nat): (r: Option<StatsError>)
    ensures r.None? ==> forall i | from <= i < |rows| :: DateOk(rows[i])
    ensures r.Some? ==> (r.value.MissingDate? || r.value.BadDate?) && var i := r.value.index;
      && from <= i < |rows| && !DateOk(rows[i])
      && (r.value.MissingDate? <==> rows[i].date.None?)
      && forall k | from <= k < i :: DateOk(rows[k])
    decreases |rows| - from
  {
    if from >= |rows| then None
    else if rows[from].date.None? then Some(MissingDate(from))
    else if ParseDay(rows[from].date.value).None? then Some(BadDate(from))
    else FirstBadDate(rows, from + 1)
  }

  /** The first session from `from` on whose duration `int()` refuses. */
  function FirstBadDuration(rows: seq<SessionRow>, from: nat): (r: Option<StatsError>)
    ensures r.None? ==> forall i | from <= i < |rows| :: DurationOk(rows[i])
    ensures r.Some? ==> r.value.BadDuration? && var i := r.value.index;
      && from <= i < |rows| && !DurationOk(rows[i])
      && forall k | from <= k < i :: DurationOk(rows[k])
    decreases |rows| - from
  {
    if from >= |rows| then None
    else if rows[from].duration.Unreadable? then Some(BadDuration(from))
    else FirstBadDuration(rows, from + 1)
  }

  /** One session's entry: a missing duration counts 0 seconds and a missing tag is "Other". */
  function ToEntry(row: SessionRow): (e: Entry)
    requires DateOk(row) && DurationOk(row)
    ensures InRange(e.day)
    ensures row.duration.Missing? ==> e.seconds == 0
    ensures row.duration.Given? ==> e.seconds == row.duration.n
    ensures row.tag.None? ==> e.tag == DefaultTag
    ensures row.tag.Some? ==> e.tag == row.tag.value
  {
    var seconds := match row.duration
      case Given(n) => n
      case _ => 0;
    Entry(ParseDay(row.date.value).value, seconds, row.tag.GetOr(DefaultTag))
  }

  /**
   * A session stored with its date written as `%Y-%m-%d`, its seconds and
   * its tag is read back as an entry on that very day.
   */
  lemma StoredSessionReadsBack(d: Ymd, seconds: int, tag: string)
    requires ValidYmd(d)
    ensures var row := SessionRow(Some(FormatYmd(d)), Given(seconds), Some(tag));
      && DateOk(row) && DurationOk(row)
      && ToEntry(row) == Entry(Ordinal(d), seconds, tag)
  {
    ParseFormatYmd(d);
  }

  /**
   * `_sessions_to_arrays`: all dates are read first, then all durations, so
   * the error is the first bad date if there is one, else the first bad
   * duration; otherwise one entry per session, in order.
   */
  function ParseRows(rows: seq<SessionRow>): (r: Result<seq<Entry>, StatsError>)
    ensures r.Ok? <==> forall i | 0 <= i < |rows| :: DateOk(rows[i]) && DurationOk(rows[i])
    ensures r.Ok? ==> |r.value| == |rows| && forall i | 0 <= i < |rows| :: r.value[i] == ToEntry(rows[i])
    ensures r.Err? && (exists i | 0 <= i < |rows| :: !DateOk(rows[i])) ==>
      (r.error.MissingDate? || r.error.BadDate?) && var i := r.error.index;
      && 0 <= i < |rows| && !DateOk(rows[i]) && forall k | 0 <= k < i :: DateOk(rows[k])
    ensures r.Err? && (forall i | 0 <= i < |rows| :: DateOk(rows[i])) ==>
      r.error.BadDuration? && var i := r.error.index;
      && 0 <= i < |rows| && !DurationOk(rows[i]) && forall k | 0 <= k < i :: DurationOk(rows[k])
  {
    match FirstBadDate(rows, 0)
    case Some(e) => Err(e)
    case None =>
      match FirstBadDuration(rows, 0)
      case Some(e) => Err(e)
      case None => Ok(seq(|rows|, i requires 0 <= i < |rows| => ToEntry(rows[i])))
  }

  // ---------------------------------------------------------------------------
  // Window, per-tag sums, totals
  // ---------------------------------------------------------------------------

  predicate InWindow(e: Entry, lo: Day, hi: Day) {
    lo <= e.day <= hi
  }

  /** The entries with `lo <= day <= hi`, in order (the boolean mask). */
  function Window(es: seq<Entry>, lo: Day, hi: Day): (r: seq<Entry>)
    ensures forall e :: e in r <==> e in es && InWindow(e, lo, hi)
    ensures |r| == 0 <==> forall i | 0 <= i < |es| :: !InWindow(es[i], lo, hi)
    ensures |r| <= |es|
  {
    if |es| == 0 then []
    else
      var init := es[..|es| - 1];
      var last := es[|es| - 1];
      assert es == init + [last];
      var r := Window(init, lo, hi) + (if InWindow(last, lo, hi) then [last] else []);
      assert forall i | 0 <= i < |init| :: init[i] == es[i];
      r
  }

  /** The tags of the entries, in order. */
  function TagsOf(es: seq<Entry>): (r: seq<string>)
    ensures |r| == |es| && forall i | 0 <= i < |es| :: r[i] == es[i].tag
  {
    seq(|es|, i requires 0 <= i < |es| => es[i].tag)
  }

  /** The seconds of the entries carrying tag `t` (`np.add.at` into that tag's slot). */
  function SumFor(es: seq<Entry>, t: string): int {
    if |es| == 0 then 0
    else SumFor(es[..|es| - 1], t) + (if es[|es| - 1].tag == t then es[|es| - 1].seconds else 0)
  }

  /** The seconds of all the entries. */
  function SumAll(es: seq<Entry>): int {
    if |es| == 0 then 0 else SumAll(es[..|es| - 1]) + es[|es| - 1].seconds
  }

  /** A tag and its total seconds in the period. */
  datatype TagTotal = TagTotal(tag: string, seconds: int)

  function Keys(r: seq<TagTotal>): (ks: seq<string>)
    ensures |ks| == |r| && forall i | 0 <= i < |r| :: ks[i] == r[i].tag
  {
    seq(|r|, i requires 0 <= i < |r| => r[i].tag)
  }

  /** The total recorded for `t`, 0 when `t` has no row. */
  function TotalOf(r: seq<TagTotal>, t: string): int {
    if |r| == 0 then 0 else if r[0].tag == t then r[0].seconds else TotalOf(r[1..], t)
  }

  function SumTotals(r: seq<TagTotal>): int {
    if |r| == 0 then 0 else r[0].seconds + SumTotals(r[1..])
  }

  /**
   * The per-tag totals over the window: one row per distinct tag found in
   * the window (`np.unique`, hence sorted), each with the sum of that tag's
   * seconds in the window.
   */
  function Totals(es: seq<Entry>, lo: Day, hi: Day): (r: seq<TagTotal>)
    ensures StrictlySorted(Keys(r))
    ensures forall t :: t in Keys(r) <==> exists i | 0 <= i < |es| :: InWindow(es[i], lo, hi) && es[i].tag == t
    ensures forall i | 0 <= i < |r| :: r[i].seconds == SumFor(Window(es, lo, hi), r[i].tag)
  {
    var win := Window(es, lo, hi);
    var keys := SortedUnique(TagsOf(win));
    var r := seq(|keys|, i requires 0 <= i < |keys| => TagTotal(keys[i], SumFor(win, keys[i])));
    assert Keys(r) == keys;
    forall t
      ensures t in keys <==> exists i | 0 <= i < |es| :: InWindow(es[i], lo, hi) && es[i].tag == t
    {
      if t in keys {
        var j :| 0 <= j < |win| && TagsOf(win)[j] == t;
        assert win[j] in win;
        var i :| 0 <= i < |es| && es[i] == win[j];
      }
      if exists i | 0 <= i < |es| :: InWindow(es[i], lo, hi) && es[i].tag == t {
        var i :| 0 <= i < |es| && InWindow(es[i], lo, hi) && es[i].tag == t;
        assert es[i] in win;
        var j :| 0 <= j < |win| && win[j] == es[i];
        assert TagsOf(win)[j] == t;
      }
    }
    r
  }

  // ---------------------------------------------------------------------------
  // weekly_totals_by_tag and monthly_totals_by_tag
  // ---------------------------------------------------------------------------

  const Hyphen: char := '-'
  const EnDash: char := '\U{2013}'

  /**
   * `"{iso year}-W{iso week:02d}  ({Mon DD}{dash}{Mon DD})"`, kept as its
   * parts: the month-name rendering of `strftime('%b %d')` is left to the locale.
   */
  datatype WeekLabel = WeekLabel(isoYear: int, isoWeek: int, monday: Day, sunday: Day, dash: char)

  /**
   * `weekly_totals_by_tag(sessions, ref)`. Every session is read first (one
   * bad session fails the call, whatever its date); then the week of `ref`
   * is bounded (which overflows in the last days of 9999). The label uses a
   * hyphen when there are no sessions or none in the week, and an en dash
   * otherwise.
   */
  function WeeklyTotals(rows: seq<SessionRow>, ref: Day): (r: Result<(seq<TagTotal>, WeekLabel), StatsError>)
    requires InRange(ref)
    ensures r.Ok? <==> ParseRows(rows).Ok? && WeekBounds(ref).Some?
    ensures r.Err? && ParseRows(rows).Ok? ==> r.error == OutOfRange
    ensures r.Ok? ==> var (totals, week) := r.value;
      && week.monday == MondayOf(ref) && week.sunday == week.monday + 6
      && week.monday <= ref <= week.sunday
      && (week.isoYear, week.isoWeek) == (IsoCalendar(ref).year, IsoCalendar(ref).week)
      && totals == Totals(ParseRows(rows).value, week.monday, week.sunday)
      && (week.dash == EnDash <==> |totals| > 0)
  {
    match ParseRows(rows)
    case Err(e) => Err(e)
    case Ok(es) =>
      match WeekBounds(ref)
      case None => Err(OutOfRange)
      case Some((mon, sun)) =>
        var iso := IsoCalendar(ref);
        if |es| == 0 then
          Ok(([], WeekLabel(iso.year, iso.week, mon, sun, Hyphen)))
        else if |Window(es, mon, sun)| == 0 then
          EmptyWindowNoTotals(es, mon, sun);
          Ok(([], WeekLabel(iso.year, iso.week, mon, sun, Hyphen)))
        else
          NonEmptyWindowTotals(es, mon, sun);
          Ok((Totals(es, mon, sun), WeekLabel(iso.year, iso.week, mon, sun, EnDash)))
  }

  /** `f"{y}-{m:02d}"` */
  function MonthLabel(y: int, m: int): string {
    FormatInt(y) + "-" + FormatInt02(m)
  }

  /**
   * `monthly_totals_by_tag(sessions, y, m)`. With no sessions the label is
   * returned without bounding the month (so even an invalid month gives a
   * result); otherwise the month must be a valid one of `date`'s range.
   */
  function MonthlyTotals(rows: seq<SessionRow>, y: int, m: int): (r: Result<(seq<TagTotal>, string), StatsError>)
    ensures r.Ok? <==> ParseRows(rows).Ok? && (|rows| == 0 || MonthBounds(y, m).Some?)
    ensures r.Err? && ParseRows(rows).Ok? ==> r.error == OutOfRange
    ensures r.Ok? ==> r.value.1 == MonthLabel(y, m)
    ensures r.Ok? && |rows| == 0 ==> r.value.0 == []
    ensures r.Ok? && |rows| > 0 ==> var (lo, hi) := MonthBounds(y, m).value;
      r.value.0 == Totals(ParseRows(rows).value, lo, hi)
  {
    match ParseRows(rows)
    case Err(e) => Err(e)
    case Ok(es) =>
      if |es| == 0 then Ok(([], MonthLabel(y, m)))
      else
        match MonthBounds(y, m)
        case None => Err(OutOfRange)
        case Some((lo, hi)) =>
          if |Window(es, lo, hi)| == 0 then
            EmptyWindowNoTotals(es, lo, hi);
            Ok(([], MonthLabel(y, m)))
          else Ok((Totals(es, lo, hi), MonthLabel(y, m)))
  }

  lemma EmptyWindowNoTotals(es: seq<Entry>, lo: Day, hi: Day)
    requires |Window(es, lo, hi)| == 0
    ensures Totals(es, lo, hi) == []
  {
  }

  lemma NonEmptyWindowTotals(es: seq<Entry>, lo: Day, hi: Day)
    requires |Window(es, lo, hi)| > 0
    ensures |Totals(es, lo, hi)| > 0
  {
    var win := Window(es, lo, hi);
    assert win[0] in win;
    var i :| 0 <= i < |es| && es[i] == win[0];
    assert es[i].tag in Keys(Totals(es, lo, hi));
  }

  // ---------------------------------------------------------------------------
  // Properties
  // ---------------------------------------------------------------------------

  /** Looking a tag up in the totals gives that tag's seconds in the window, 0 for a tag not in the window. */
  lemma TotalOfIsSum(es: seq<Entry>, lo: Day, hi: Day, t: string)
    ensures TotalOf(Totals(es, lo, hi), t) == SumFor(Window(es, lo, hi), t)
  {
    var r := Totals(es, lo, hi);
    if t in Keys(r) {
      var j :| 0 <= j < |r| && Keys(r)[j] == t;
      TotalOfAt(r, j);
    } else {
      TotalOfAbsent(r, t);
      var win := Window(es, lo, hi);
      forall i | 0 <= i < |win|
        ensures win[i].tag != t
      {
        assert win[i] in win;
        var k :| 0 <= k < |es| && es[k] == win[i];
      }
      SumForAbsent(win, t);
    }
  }

  lemma {:induction false} TotalOfAt(r: seq<TagTotal>, j: nat)
    requires j < |r| && StrictlySorted(Keys(r))
    ensures TotalOf(r, r[j].tag) == r[j].seconds
  {
    if j > 0 {
      StrictlySortedDistinct(Keys(r), 0, j);
      assert Keys(r[1..]) == Keys(r)[1..];
      TotalOfAt(r[1..], j - 1);
    }
  }

  lemma {:induction false} TotalOfAbsent(r: seq<TagTotal>, t: string)
    requires t !in Keys(r)
    ensures TotalOf(r, t) == 0
  {
    if |r| > 0 {
      assert Keys(r[1..]) == Keys(r)[1..];
      TotalOfAbsent(r[1..], t);
    }
  }

  lemma {:induction false} SumForAbsent(es: seq<Entry>, t: string)
    requires forall i | 0 <= i < |es| :: es[i].tag != t
    ensures SumFor(es, t) == 0
  {
    if |es| > 0 {
      SumForAbsent(es[..|es| - 1], t);
    }
  }

  /** The totals add up to all the seconds in the window: every in-window session is counted once. */
  lemma TotalsAddUp(es: seq<Entry>, lo: Day, hi: Day)
    ensures SumTotals(Totals(es, lo, hi)) == SumAll(Window(es, lo, hi))
  {
    var r := Totals(es, lo, hi);
    var win := Window(es, lo, hi);
    var keys := Keys(r);
    SumTotalsIsSumKeys(r, win);
    forall i | 0 <= i < |win|
      ensures win[i].tag in keys
    {
      assert win[i] in win;
      var k :| 0 <= k < |es| && es[k] == win[i];
    }
    SumKeysCoversAll(win, keys);
  }

  /** Σ over the keys of each key's sum. */
  function SumKeys(es: seq<Entry>, keys: seq<string>): int {
    if |keys| == 0 then 0 else SumFor(es, keys[0]) + SumKeys(es, keys[1..])
  }

  lemma {:induction false} SumTotalsIsSumKeys(r: seq<TagTotal>, win: seq<Entry>)
    requires forall i | 0 <= i < |r| :: r[i].seconds == SumFor(win, r[i].tag)
    ensures SumTotals(r) == SumKeys(win, Keys(r))
  {
    if |r| > 0 {
      assert Keys(r[1..]) == Keys(r)[1..];
      SumTotalsIsSumKeys(r[1..], win);
    }
  }

  /** Σ over the keys of "the entry's seconds if its tag is this key". */
  function Indicator(keys: seq<string>, t: string, v: int): int {
    if |keys| == 0 then 0 else (if keys[0] == t then v else 0) + Indicator(keys[1..], t, v)
  }

  lemma {:induction false} IndicatorOnce(keys: seq<string>, t: string, v: int)
    requires StrictlySorted(keys) && t in keys
    ensures Indicator(keys, t, v) == v
  {
    if keys[0] == t {
      IndicatorNone(keys[1..], t, v);
    } else {
      IndicatorOnce(keys[1..], t, v);
    }
  }

  lemma {:induction false} IndicatorNone(keys: seq<string>, t: string, v: int)
    requires StrictlySorted([t] + keys)
    ensures Indicator(keys, t, v) == 0
  {
    if |keys| > 0 {
      assert ([t] + keys)[0] == t && ([t] + keys)[1] == keys[0];
      LessIrreflexive(t);
      assert StrictlySorted([t] + keys[1..]) by {
        forall i, j | 0 <= i < j < |[t] + keys[1..]|
          ensures Less(([t] + keys[1..])[i], ([t] + keys[1..])[j])
        {
          if i == 0 {
            assert ([t] + keys)[0] == t && ([t] + keys)[j + 1] == keys[j];
          } else {
            assert ([t] + keys)[i + 1] == keys[i] && ([t] + keys)[j + 1] == keys[j];
          }
        }
      }
      IndicatorNone(keys[1..], t, v);
    }
  }

  lemma {:induction false} SumKeysSplit(es: seq<Entry>, keys: seq<string>)
    requires |es| > 0
    ensures SumKeys(es, keys) == SumKeys(es[..|es| - 1], keys) + Indicator(keys, es[|es| - 1].tag, es[|es| - 1].seconds)
  {
    if |keys| > 0 {
      SumKeysSplit(es, keys[1..]);
    }
  }

  lemma {:induction false} SumKeysCoversAll(es: seq<Entry>, keys: seq<string>)
    requires StrictlySorted(keys)
    requires forall i | 0 <= i < |es| :: es[i].tag in keys
    ensures SumKeys(es, keys) == SumAll(es)
  {
    if |es| == 0 {
      SumKeysEmpty(keys);
    } else {
      SumKeysSplit(es, keys);
      IndicatorOnce(keys, es[|es| - 1].tag, es[|es| - 1].seconds);
      SumKeysCoversAll(es[..|es| - 1], keys);
    }
  }

  lemma {:induction false} SumKeysEmpty(keys: seq<string>)
    ensures SumKeys([], keys) == 0
  {
    if |keys| > 0 {
      SumKeysEmpty(keys[1..]);
    }
  }

  /**
   * Adding one session moves exactly one total: the session's tag gains its
   * seconds when its day is in the window, and nothing else changes.
   */
  lemma AppendMovesOneTotal(es: seq<Entry>, e: Entry, lo: Day, hi: Day, t: string)
    ensures TotalOf(Totals(es + [e], lo, hi), t)
         == TotalOf(Totals(es, lo, hi), t) + (if InWindow(e, lo, hi) && e.tag == t then e.seconds else 0)
  {
    var before := Window(es, lo, hi);
    var after := Window(es + [e], lo, hi);
    TotalOfIsSum(es + [e], lo, hi, t);
    TotalOfIsSum(es, lo, hi, t);
    WindowAppend(es, e, lo, hi);
    if InWindow(e, lo, hi) {
      assert after == before + [e];
      SumForAppend(before, e, t);
      assert SumFor(after, t) == SumFor(before, t) + (if e.tag == t then e.seconds else 0);
    } else {
      assert after == before;
    }
  }

  lemma WindowAppend(es: seq<Entry>, e: Entry, lo: Day, hi: Day)
    ensures Window(es + [e], lo, hi) == Window(es, lo, hi) + (if InWindow(e, lo, hi) then [e] else [])
  {
    var w := es + [e];
    assert w[..|w| - 1] == es;
  }

  lemma SumForAppend(ws: seq<Entry>, e: Entry, t: string)
    ensures SumFor(ws + [e], t) == SumFor(ws, t) + (if e.tag == t then e.seconds else 0)
  {
    var w := ws + [e];
    assert w[..|w| - 1] == ws;
  }

  /**
   * A session that does not read fails the whole aggregation, for any
   * period, even when its date lies outside the period.
   */
  lemma BadRowFailsBoth(rows: seq<SessionRow>, i: nat, ref: Day, y: int, m: int)
    requires InRange(ref) && i < |rows| && !(DateOk(rows[i]) && DurationOk(rows[i]))
    ensures ParseRows(rows).Err?
    ensures WeeklyTotals(rows, ref) == Err(ParseRows(rows).error)
    ensures MonthlyTotals(rows, y, m) == Err(ParseRows(rows).error)
    ensures !DateOk(rows[i]) ==> ParseRows(rows).error.index <= i
  {
  }

  /** No session in the period (or none at all) gives empty totals, but still a label. */
  lemma NothingInPeriod(rows: seq<SessionRow>, y: int, m: int)
    requires ParseRows(rows).Ok? && MonthBounds(y, m).Some?
    requires var (lo, hi) := MonthBounds(y, m).value;
      forall i | 0 <= i < |rows| :: !InWindow(ParseRows(rows).value[i], lo, hi)
    ensures MonthlyTotals(rows, y, m) == Ok(([], MonthLabel(y, m)))
  {
    var (lo, hi) := MonthBounds(y, m).value;
    var es := ParseRows(rows).value;
    if |es| > 0 {
      EmptyWindowNoTotals(es, lo, hi);
    }
  }

  /** The month label reads back: year digits, a dash, then the two-digit month. */
  lemma MonthLabelReadsBack(y: nat, m: int)
    requires 1 <= m <= 12
    ensures var s := MonthLabel(y, m);
      && |s| >= 4 && s[|s| - 3] == '-'
      && AllDigits(s[..|s| - 3]) && AllDigits(s[|s| - 2..])
      && ParseNat(s[..|s| - 3]) == y && ParseNat(s[|s| - 2..]) == m
  {
    var a := Decimal(y);
    var b := FormatInt02(m);
    assert |b| == 2 && AllDigits(b) && ParseNat(b) == m by {
      if m < 10 {
        assert b == "0" + Decimal(m) && |Decimal(m)| == 1;
        assert b[..1] == "0";
      } else {
        assert b == Decimal(m) && Decimal(m) == Decimal(m / 10) + [DigitChar(m % 10)];
      }
    }
    var s := MonthLabel(y, m);
    assert s == a + "-" + b;
    assert s[..|s| - 3] == a;
    assert s[|s| - 2..] == b;
  }
}

=== FILE: text.dfy ===
/**
 * Strings as Python sees them: whitespace stripping, decimal rendering and
 * parsing of integers, the `float()` reading of a decimal entry, and the
 * code-point order that `sorted` and `<` use on `str`.
 */
module Text {
  import opened Common

  // ---------------------------------------------------------------------------
  // Whitespace and str.strip()
  // ---------------------------------------------------------------------------

  /** The characters Python's `str.isspace` accepts (and `str.strip()` removes). */
  predicate IsSpace(c: char) {
    || ('\t' <= c <= '\r')
    || ('\U{1C}' <= c <= '\U{1F}')
    || c == ' '
    || c == '\U{85}'
    || c == '\U{A0}'
    || c == '\U{1680}'
    || ('\U{2000}' <= c <= '\U{200A}')
    || c == '\U{2028}'
    || c == '\U{2029}'
    || c == '\U{202F}'
    || c == '\U{205F}'
    || c == '\U{3000}'
  }

  /** A string with no whitespace at either end: what `strip()` returns. */
  predicate Stripped(s: string) {
    |s| == 0 || (!IsSpace(s[0]) && !IsSpace(s[|s| - 1]))
  }

  predicate AllSpace(s: string) {
    forall k | 0 <= k < |s| :: IsSpace(s[k])
  }

  /** `s.lstrip()` */
  function TrimStart(s: string): (r: string)
    ensures |r| <= |s| && r == s[|s| - |r|..]
    ensures |r| > 0 ==> !IsSpace(r[0])
    ensures AllSpace(s[..|s| - |r|])
  {
    if |s| > 0 && IsSpace(s[0]) then TrimStart(s[1..]) else s
  }

  /** `s.rstrip()` */
  function TrimEnd(s: string): (r: string)
    ensures |r| <= |s| && r == s[..|r|]
    ensures |r| > 0 ==> !IsSpace(r[|r| - 1])
    ensures AllSpace(s[|r|..])
  {
    if |s| > 0 && IsSpace(s[|s| - 1]) then TrimEnd(s[..|s| - 1]) else s
  }

  /** `s.strip()`: a contiguous piece of `s`, empty exactly when `s` is all whitespace. */
  function Strip(s: string): (r: string)
    ensures Stripped(r)
    ensures |r| <= |s|
    ensures r == "" <==> AllSpace(s)
    ensures StripOffset(s) + |r| <= |s| && r == s[StripOffset(s)..StripOffset(s) + |r|]
  {
    var t := TrimStart(s);
    var r := TrimEnd(t);
    StripFacts(s, t, r);
    r
  }

  lemma StripFacts(s: string, t: string, r: string)
    requires |t| <= |s| && t == s[|s| - |t|..] && AllSpace(s[..|s| - |t|])
    requires |r| <= |t| && r == t[..|r|] && AllSpace(t[|r|..])
    requires |r| > 0 ==> !IsSpace(r[0])
    ensures |s| - |t| + |r| <= |s| && r == s[|s| - |t|..|s| - |t| + |r|]
    ensures r == "" <==> AllSpace(s)
  {
    StripSlice(s, |s| - |t|, t, r);
    if r == "" {
      EmptyStripAllSpace(s, t);
    } else {
      NonEmptyStrip(s, |s| - |t|, r);
    }
  }

  lemma StripSlice(s: string, i: nat, t: string, r: string)
    requires i <= |s| && t == s[i..] && |r| <= |t| && r == t[..|r|]
    ensures i + |r| <= |s| && r == s[i..i + |r|]
  {
  }

  lemma NonEmptyStrip(s: string, i: nat, r: string)
    requires i + |r| <= |s| && r == s[i..i + |r|] && |r| > 0 && !IsSpace(r[0])
    ensures !AllSpace(s)
  {
    assert s[i] == r[0];
  }

  lemma EmptyStripAllSpace(s: string, t: string)
    requires |t| <= |s| && t == s[|s| - |t|..] && AllSpace(s[..|s| - |t|]) && AllSpace(t)
    ensures AllSpace(s)
  {
    var i := |s| - |t|;
    assert AllSpace(s[..i]);
    assert AllSpace(t[0..]);
    forall k | 0 <= k < |s|
      ensures IsSpace(s[k])
    {
      if k < i {
        assert s[k] == s[..i][k];
      } else {
        assert s[k] == t[k - i];
      }
    }
  }

  /** Where the stripped text begins inside the original. */
  function StripOffset(s: string): (i: nat)
    ensures i <= |s|
  {
    |s| - |TrimStart(s)|
  }

  lemma {:induction false} StripOfStripped(s: string)
    requires Stripped(s)
    ensures Strip(s) == s
  {
    assert TrimStart(s) == s;
    assert TrimEnd(s) == s;
  }

  // ---------------------------------------------------------------------------
  // Decimal digits
  // ---------------------------------------------------------------------------

  predicate IsDigit(c: char) {
    '0' <= c <= '9'
  }

  predicate AllDigits(s: string) {
    forall k | 0 <= k < |s| :: IsDigit(s[k])
  }

  function DigitChar(d: int): (c: char)
    requires 0 <= d < 10
    ensures IsDigit(c)
  {
    ('0' as int + d) as char
  }

  function DigitValue(c: char): (d: int)
    requires IsDigit(c)
    ensures 0 <= d < 10
  {
    c as int - '0' as int
  }

  function Pow10(w: nat): (p: nat)
    ensures p >= 1
  {
    if w == 0 then 1 else 10 * Pow10(w - 1)
  }

  /** The number a string of decimal digits spells (`int(s)` on digits only). */
  function ParseNat(s: string): (n: nat)
    requires AllDigits(s)
    ensures n < Pow10(|s|)
  {
    if |s| == 0 then 0 else ParseNat(s[..|s| - 1]) * 10 + DigitValue(s[|s| - 1])
  }

  /** `f"{n:0{width}d}"` for an `n` that fits in `width` digits: zero padded on the left. */
  function PadDigits(n: nat, width: nat): (r: string)
    requires n < Pow10(width)
    ensures |r| == width
    ensures AllDigits(r)
    ensures ParseNat(r) == n
  {
    if width == 0 then ""
    else
      var r := PadDigits(n / 10, width - 1) + [DigitChar(n % 10)];
      assert r[..|r| - 1] == PadDigits(n / 10, width - 1);
      r
  }

  /** `str(n)` for a natural number: the shortest decimal rendering. */
  function Decimal(n: nat): (r: string)
    ensures |r| >= 1
    ensures AllDigits(r)
    ensures ParseNat(r) == n
    ensures |r| > 1 ==> r[0] != '0'
  {
    if n < 10 then [DigitChar(n)]
    else
      var r := Decimal(n / 10) + [DigitChar(n % 10)];
      assert r[..|r| - 1] == Decimal(n / 10);
      r
  }

  /** `str(n)` for any int. */
  function FormatInt(n: int): string {
    if n < 0 then "-" + Decimal(-n) else Decimal(n)
  }

  /** `f"{n:02d}"`: zero padded to two characters; the sign counts towards the width. */
  function FormatInt02(n: int): string {
    if 0 <= n < 10 then "0" + Decimal(n) else FormatInt(n)
  }

  // ---------------------------------------------------------------------------
  // float() on a decimal entry, and int() of the result
  // ---------------------------------------------------------------------------

  /** Index of the first '.' in `s`, or `|s|` when there is none. */
  function DotIndex(s: string): (i: nat)
    ensures i <= |s|
    ensures i < |s| ==> s[i] == '.'
    ensures forall k | 0 <= k < i :: s[k] != '.'
  {
    if |s| == 0 then 0
    else if s[0] == '.' then 0
    else 1 + DotIndex(s[1..])
  }

  /** Digits, optionally one '.', optionally more digits; at least one digit in all. */
  function ParseUnsignedDecimal(s: string): (r: Option<real>)
    ensures r.Some? ==> r.value >= 0.0
  {
    var i := DotIndex(s);
    var whole := s[..i];
    var frac := if i < |s| then s[i + 1..] else "";
    if AllDigits(whole) && AllDigits(frac) && |whole| + |frac| >= 1 then
      var n := ParseNat(whole) as real;
      var q := FracValue(ParseNat(frac), Pow10(|frac|));
      Some(n + q)
    else None
  }

  /** The digits after the point, as a fraction of `scale`. */
  function FracValue(digits: nat, scale: nat): (q: real)
    requires scale >= 1
    ensures q >= 0.0
  {
    digits as real / scale as real
  }

  /** Fewer digits' worth than the scale is less than one whole. */
  lemma FracBelowOne(digits: nat, scale: nat)
    requires 1 <= scale && digits < scale
    ensures FracValue(digits, scale) < 1.0
  {
  }

  /**
   * The value `float(s)` gives a stripped entry of the form
   * `[+|-] digits [. digits]` (or `[+|-] . digits`); `None` for everything
   * else, which the model treats as not numeric.
   */
  function ParseDecimal(s: string): (r: Option<real>)
    ensures r.Some? && |s| > 0 && s[0] == '-' ==> r.value <= 0.0
    ensures r.Some? && (|s| == 0 || s[0] != '-') ==> r.value >= 0.0
  {
    if |s| > 0 && (s[0] == '+' || s[0] == '-') then
      match ParseUnsignedDecimal(s[1..])
      case None => None
      case Some(v) => Some(if s[0] == '-' then -v else v)
    else ParseUnsignedDecimal(s)
  }

  /** A leading sign applies to the unsigned text after it: '-' negates, '+' changes nothing. */
  lemma SignedDecimal(u: string)
    requires |u| == 0 || (u[0] != '+' && u[0] != '-')
    ensures ParseDecimal("+" + u) == ParseDecimal(u)
    ensures ParseDecimal("-" + u) == if ParseDecimal(u).Some? then Some(-ParseDecimal(u).value) else None
  {
    assert ParseDecimal(u) == ParseUnsignedDecimal(u);
    assert ("+" + u)[1..] == u;
    assert ("-" + u)[1..] == u;
  }

  /** The first '.' after a run of digits is the one right after them. */
  lemma DotAfterDigits(d: string, rest: string)
    requires AllDigits(d)
    ensures DotIndex(d + "." + rest) == |d|
  {
    var s := d + "." + rest;
    assert s[|d|] == '.';
    assert forall j | 0 <= j < |d| :: s[j] == d[j];
  }

  /** `float("d.p")` for digit runs `d` and `p` is `d + p / 10^|p|`. */
  lemma DigitsDotDigits(d: string, p: string)
    requires AllDigits(d) && AllDigits(p) && |d| >= 1
    ensures ParseUnsignedDecimal(d + "." + p).Some?
    ensures ParseUnsignedDecimal(d + "." + p).value == ParseNat(d) as real + FracValue(ParseNat(p), Pow10(|p|))
  {
    var s := d + "." + p;
    assert DotIndex(s) == |d| < |s| && s[..|d|] == d && s[|d| + 1..] == p by {
      DotAfterDigits(d, p);
    }
  }

  /** An unsigned entry starting with a digit reads the same as a decimal, and negated after '-'. */
  lemma UnsignedIsDecimal(s: string)
    requires |s| > 0 && IsDigit(s[0]) && ParseUnsignedDecimal(s).Some?
    ensures ParseDecimal(s).Some? && ParseDecimal(s).value == ParseUnsignedDecimal(s).value
    ensures ParseDecimal("-" + s).Some? && ParseDecimal("-" + s).value == -ParseUnsignedDecimal(s).value
  {
    assert ("-" + s)[1..] == s;
  }

  /**
   * A decimal with a fractional part reads back as its value:
   * `float("w.f")` with `k` fraction digits is `w + f / 10^k`, also with a sign.
   */
  lemma FractionReadsBack(w: nat, f: nat, k: nat)
    requires f < Pow10(k)
    ensures var s := Decimal(w) + "." + PadDigits(f, k);
      && ParseDecimal(s).Some? && ParseDecimal(s).value == w as real + f as real / Pow10(k) as real
      && ParseDecimal("-" + s).Some? && ParseDecimal("-" + s).value == -(w as real + f as real / Pow10(k) as real)
  {
    var d, p := Decimal(w), PadDigits(f, k);
    DigitsDotDigits(d, p);
    assert (d + "." + p)[0] == d[0];
    UnsignedIsDecimal(d + "." + p);
  }

  /** `int(x)` on a float: truncation toward zero. */
  function Truncate(x: real): (r: int)
    ensures x >= 0.0 ==> r as real <= x < r as real + 1.0
    ensures x < 0.0 ==> r as real - 1.0 < x <= r as real
  {
    if x >= 0.0 then x.Floor else -((-x).Floor)
  }

  lemma {:induction false} DotIndexOfDigits(s: string)
    requires AllDigits(s)
    ensures DotIndex(s) == |s|
  {
    if |s| > 0 {
      DotIndexOfDigits(s[1..]);
    }
  }

  /** `float(str(n))` reads back `n`, and `int(float(str(-n)))` reads back `-n`. */
  lemma DecimalReadsBack(n: nat)
    ensures ParseDecimal(Decimal(n)) == Some(n as real)
    ensures ParseDecimal("-" + Decimal(n)) == Some(-(n as real))
  {
    var d := Decimal(n);
    UnsignedDecimalReadsBack(n);
    var m := "-" + d;
    assert m[1..] == d;
    assert m[0] == '-';
  }

  lemma UnsignedDecimalReadsBack(n: nat)
    ensures ParseUnsignedDecimal(Decimal(n)) == Some(n as real)
    ensures |Decimal(n)| > 0 && Decimal(n)[0] != '+' && Decimal(n)[0] != '-'
  {
    var d := Decimal(n);
    DotIndexOfDigits(d);
    assert d[..|d|] == d;
    assert ParseNat(d) == n;
    assert ParseNat("") == 0;
    assert FracValue(0, 1) == 0.0;
    assert IsDigit(d[0]);
  }

  // ---------------------------------------------------------------------------
  // Code-point order on str (what `<`, `sorted` and `np.unique` use)
  // ---------------------------------------------------------------------------

  /** Python's `a < b` on `str`: lexicographic by code point, a proper prefix first. */
  predicate Less(a: string, b: string)
    decreases |a|
  {
    if |a| == 0 then |b| > 0
    else |b| > 0 && (a[0] < b[0] || (a[0] == b[0] && Less(a[1..], b[1..])))
  }

  predicate LessEq(a: string, b: string) {
    a == b || Less(a, b)
  }

  lemma {:induction false} LessIrreflexive(a: string)
    ensures !Less(a, a)
  {
    if |a| > 0 {
      LessIrreflexive(a[1..]);
    }
  }

  lemma {:induction false} LessTransitive(a: string, b: string, c: string)
    requires Less(a, b) && Less(b, c)
    ensures Less(a, c)
  {
    if |a| > 0 && a[0] == b[0] && b[0] == c[0] {
      LessTransitive(a[1..], b[1..], c[1..]);
    }
  }

  lemma {:induction false} LessTotal(a: string, b: string)
    ensures a == b || Less(a, b) || Less(b, a)
  {
    if |a| > 0 && |b| > 0 && a[0] == b[0] {
      LessTotal(a[1..], b[1..]);
      if a[1..] == b[1..] {
        assert a == [a[0]] + a[1..] && b == [b[0]] + b[1..];
      }
    }
  }

  lemma LessAsymmetric(a: string, b: string)
    requires Less(a, b)
    ensures !Less(b, a)
  {
    if Less(b, a) {
      LessTransitive(a, b, a);
      LessIrreflexive(a);
    }
  }

  lemma LessEqTotal(a: string, b: string)
    ensures LessEq(a, b) || LessEq(b, a)
  {
    LessTotal(a, b);
  }

  lemma LessEqTransitive(a: string, b: string, c: string)
    requires LessEq(a, b) && LessEq(b, c)
    ensures LessEq(a, c)
  {
    if a != b && b != c {
      LessTransitive(a, b, c);
    }
  }
}

=== FILE: timer.dfy ===
/**
 * The countdown engine of `timer.py`: a timer that is either stopped with a
 * number of seconds left, or running towards an absolute end instant.
 * Instants are whole seconds; the Tk `after` scheduling is replaced by an
 * explicit tick step, and cancelling the pending job is `running := false`.
 * Each step returns the new state and the callbacks it fires, in order.
 */
module Countdown {
  import opened Common
  import opened Text

  /** Seconds of a fresh timer: 25 minutes. */
  const DefaultSeconds: int := 25 * 60

  /**
   * `running`, `_remaining` and `_end_ts`. The constructor only sets the
   * misspelt `_end_time`, so `_end_ts` does not exist until the first start;
   * nothing reads it before then, and `None` stands for both.
   */
  datatype Timer = Timer(running: bool, remaining: int, endTs: Option<int>)

  /** A callback the timer fires: `on_tick(remaining)` or `on_finish()`. */
  datatype Notice = TickNotice(seconds: int) | FinishNotice

  function Init(): (t: Timer)
    ensures Valid(t) && !t.running && Remaining(t) == DefaultSeconds
  {
    Timer(false, DefaultSeconds, None)
  }

  /** What every reachable state satisfies: the stored remainder is not negative and a running timer has an end instant. */
  predicate Valid(t: Timer) {
    t.remaining >= 0 && (t.running ==> t.endTs.Some?)
  }

  /** The `remaining` property. */
  function Remaining(t: Timer): (r: int)
    ensures r >= 0
    ensures t.remaining >= 0 ==> r == t.remaining
  {
    Max(0, t.remaining)
  }

  /** `set_seconds`: ignored while running; otherwise the remainder becomes `seconds`, clamped at 0 (not 1). */
  function SetSeconds(t: Timer, seconds: int): (r: Timer)
    ensures t.running ==> r == t
    ensures !t.running ==> !r.running && r.endTs == t.endTs && Remaining(r) == Max(0, seconds)
    ensures Valid(t) ==> Valid(r)
  {
    if t.running then t else t.(remaining := Max(0, seconds))
  }

  /**
   * `_tick`: a stopped timer ignores it. A running one recomputes the
   * remainder from its end instant (never by counting down), reports it,
   * and when nothing is left stops and reports the finish. The end instant
   * is kept after the finish.
   */
  function Tick(t: Timer, now: int): (r: (Timer, seq<Notice>))
    ensures !t.running ==> r == (t, [])
    ensures t.running ==> r.0.endTs.Some? && r.0.remaining == Max(0, r.0.endTs.value - now)
    ensures t.running && t.endTs.Some? ==> r.0.endTs == t.endTs
    ensures t.running ==> (r.0.running <==> r.0.endTs.value - now > 0)
    ensures t.running ==> r.1 == [TickNotice(Remaining(r.0))] + (if r.0.running then [] else [FinishNotice])
    ensures Valid(t) ==> Valid(r.0)
  {
    if !t.running then (t, [])
    else
      var endTs := t.endTs.GetOr(now + t.remaining);
      var left := Max(0, endTs - now);
      var ticked := Timer(true, left, Some(endTs));
      if left <= 0 then (ticked.(running := false), [TickNotice(left), FinishNotice])
      else (ticked, [TickNotice(left)])
  }

  /** `start`: ignored while running; otherwise fixes the end instant `now + remaining` and ticks at once. */
  function Start(t: Timer, now: int): (r: (Timer, seq<Notice>))
    ensures t.running ==> r == (t, [])
    ensures !t.running ==> r == Tick(Timer(true, t.remaining, Some(now + t.remaining)), now)
    ensures Valid(t) ==> Valid(r.0)
  {
    if t.running then (t, [])
    else Tick(Timer(true, t.remaining, Some(now + t.remaining)), now)
  }

  /** `pause`: stops the timer and keeps what was left at `now`, clearing the end instant. */
  function Pause(t: Timer, now: int): (r: Timer)
    ensures !t.running ==> r == t
    ensures t.running && t.endTs.Some? ==> r == Timer(false, Max(0, t.endTs.value - now), None)
    ensures !r.running
    ensures Valid(t) ==> Valid(r)
  {
    if !t.running then t
    else
      match t.endTs
      case Some(e) => Timer(false, Max(0, e - now), None)
      case None => t.(running := false)
  }

  /** `reset(seconds)`: pauses, takes `seconds` (clamped at 0) when given, and reports the remainder exactly once. */
  function Reset(t: Timer, now: int, seconds: Option<int>): (r: (Timer, seq<Notice>))
    ensures !r.0.running
    ensures r.1 == [TickNotice(Remaining(r.0))]
    ensures seconds.Some? ==> Remaining(r.0) == Max(0, seconds.value)
    ensures seconds.Some? ==> r.0.remaining == Max(0, seconds.value)
    ensures seconds.None? ==> r.0 == Pause(t, now)
    ensures Valid(t) ==> Valid(r.0)
  {
    var p := Pause(t, now);
    var q := if seconds.Some? then p.(remaining := Max(0, seconds.value)) else p;
    (q, [TickNotice(Remaining(q))])
  }

  // ---------------------------------------------------------------------------
  // The MM:SS rendering (format_mmss, and the `_on_tick` display of both tabs)
  // ---------------------------------------------------------------------------

  /** `divmod(seconds, 60)` (floor division, as in Python). */
  function MinutesSeconds(seconds: int): (r: (int, int))
    ensures r.0 * 60 + r.1 == seconds
    ensures 0 <= r.1 < 60
    ensures seconds >= 0 ==> r.0 >= 0
  {
    (seconds / 60, seconds % 60)
  }

  /** `format_mmss(seconds)`: `f"{mm:02d}:{ss:02d}"`. */
  function FormatMmss(seconds: int): (r: string)
    ensures |r| >= 5 && r[|r| - 3] == ':'
    ensures AllDigits(r[|r| - 2..]) && ParseNat(r[|r| - 2..]) == seconds % 60
  {
    var (mm, ss) := MinutesSeconds(seconds);
    FormatInt02TwoDigits(ss);
    var a, b := FormatInt02(mm), FormatInt02(ss);
    assert |a| >= 2;
    var r := a + ":" + b;
    assert r[|r| - 2..] == b;
    r
  }

  lemma {:induction false} ParseNatLeadingZero(d: string)
    requires AllDigits(d)
    ensures AllDigits("0" + d) && ParseNat("0" + d) == ParseNat(d)
  {
    if |d| > 0 {
      var init := d[..|d| - 1];
      ParseNatLeadingZero(init);
      assert ("0" + d)[..|d|] == "0" + init;
    }
  }

  /** Two-digit zero padding of a number below 100 spells the number in exactly two digits. */
  lemma FormatInt02TwoDigits(n: int)
    requires 0 <= n < 100
    ensures |FormatInt02(n)| == 2 && AllDigits(FormatInt02(n)) && ParseNat(FormatInt02(n)) == n
  {
    if n < 10 {
      ParseNatLeadingZero(Decimal(n));
    } else {
      assert Decimal(n) == Decimal(n / 10) + [DigitChar(n % 10)];
    }
  }

  /** Zero padding of a natural number spells the number in at least two digits. */
  lemma FormatInt02Digits(n: nat)
    ensures |FormatInt02(n)| >= 2 && AllDigits(FormatInt02(n)) && ParseNat(FormatInt02(n)) == n
  {
    if n < 100 {
      FormatInt02TwoDigits(n);
    } else {
      assert Decimal(n) == Decimal(n / 10) + [DigitChar(n % 10)];
    }
  }

  /**
   * The clock text reads back: the digits before the colon are the minutes,
   * the two after it the seconds, and together they give back `seconds`.
   */
  lemma FormatMmssReadsBack(seconds: nat)
    ensures var r := FormatMmss(seconds);
      && |r| >= 5 && r[|r| - 3] == ':'
      && AllDigits(r[..|r| - 3]) && AllDigits(r[|r| - 2..])
      && ParseNat(r[..|r| - 3]) * 60 + ParseNat(r[|r| - 2..]) == seconds
  {
    var (mm, ss) := MinutesSeconds(seconds);
    FormatInt02Digits(mm);
    FormatInt02TwoDigits(ss);
    var r := FormatMmss(seconds);
    var a, b := FormatInt02(mm), FormatInt02(ss);
    assert r == a + ":" + b;
    assert r[..|r| - 3] == a;
    assert r[|r| - 2..] == b;
  }

  // ---------------------------------------------------------------------------
  // Properties of runs
  // ---------------------------------------------------------------------------

  /** The timer's own state is valid from construction on, whatever sequence of steps follows. */
  lemma StepsKeepValid(t: Timer, now: int, seconds: int, given: Option<int>)
    requires Valid(t)
    ensures Valid(SetSeconds(t, seconds)) && Valid(Start(t, now).0) && Valid(Pause(t, now))
    ensures Valid(Reset(t, now, given).0) && Valid(Tick(t, now).0)
    ensures Remaining(Start(t, now).0) >= 0 && Start(t, now).0.remaining >= 0
  {
  }

  /** Starting and pausing at the same instant keeps the remainder and leaves the timer stopped; the end instant is cleared unless the start finished at once. */
  lemma StartThenPause(t: Timer, now: int)
    requires Valid(t) && !t.running
    ensures var r := Pause(Start(t, now).0, now);
      && !r.running && r.remaining == t.remaining
      && (t.remaining > 0 ==> r.endTs.None?)
  {
  }

  /** A tick at or past the end instant reports 0, stops the timer and fires the finish callback once. */
  lemma TickAtEndFinishes(t: Timer, now: int)
    requires t.running && t.endTs.Some? && t.endTs.value - now <= 0
    ensures Tick(t, now) == (Timer(false, 0, t.endTs), [TickNotice(0), FinishNotice])
  {
  }

  /** A tick before the end instant leaves the timer running with exactly the time to the end instant. */
  lemma TickBeforeEnd(t: Timer, now: int)
    requires t.running && t.endTs.Some? && now < t.endTs.value
    ensures Tick(t, now) == (Timer(true, t.endTs.value - now, t.endTs), [TickNotice(t.endTs.value - now)])
  {
  }

  /** Starting with nothing left finishes on the immediate first tick. */
  lemma StartAtZeroFinishes(t: Timer, now: int)
    requires !t.running && t.remaining == 0
    ensures Start(t, now) == (Timer(false, 0, Some(now)), [TickNotice(0), FinishNotice])
  {
  }

  /** Starting with `n > 0` seconds left runs towards `now + n` and reports `n`. */
  lemma StartWithTimeLeft(t: Timer, now: int)
    requires !t.running && t.remaining > 0
    ensures Start(t, now) == (Timer(true, t.remaining, Some(now + t.remaining)), [TickNotice(t.remaining)])
  {
  }

  /** A sequence of ticks at the given instants, with all the callbacks they fire. */
  function RunTicks(t: Timer, times: seq<int>): (r: (Timer, seq<Notice>))
    ensures !t.running ==> r == (t, [])
    ensures Valid(t) ==> Valid(r.0)
    ensures t.running && t.endTs.Some? ==> r.0.endTs == t.endTs
    decreases |times|
  {
    if |times| == 0 || !t.running then (t, [])
    else
      var (t1, n1) := Tick(t, times[0]);
      var (t2, n2) := RunTicks(t1, times[1..]);
      (t2, n1 + n2)
  }

  function FinishCount(ns: seq<Notice>): nat {
    if |ns| == 0 then 0 else (if ns[0] == FinishNotice then 1 else 0) + FinishCount(ns[1..])
  }

  lemma FinishCountAppend(a: seq<Notice>, b: seq<Notice>)
    ensures FinishCount(a + b) == FinishCount(a) + FinishCount(b)
  {
    if |a| > 0 {
      assert (a + b)[0] == a[0] && (a + b)[1..] == a[1..] + b;
      FinishCountAppend(a[1..], b);
    } else {
      assert a + b == b;
    }
  }

  /**
   * However the ticks fall, the finish callback fires exactly once if some
   * tick comes at or after the end instant, and never otherwise; while no
   * tick has reached it, the remainder is the time to the end instant, so
   * late or missed ticks cause no drift.
   */
  lemma {:induction false} RunTicksFinishOnce(t: Timer, times: seq<int>)
    requires t.running && t.endTs.Some?
    ensures var r := RunTicks(t, times);
      && FinishCount(r.1) == (if exists i | 0 <= i < |times| :: times[i] >= t.endTs.value then 1 else 0)
      && ((forall i | 0 <= i < |times| :: times[i] < t.endTs.value) && |times| > 0 ==>
            r.0.running && r.0.remaining == t.endTs.value - times[|times| - 1])
    decreases |times|
  {
    var e := t.endTs.value;
    if |times| > 0 {
      var (t1, n1) := Tick(t, times[0]);
      var rest := RunTicks(t1, times[1..]);
      FinishCountAppend(n1, rest.1);
      if times[0] >= e {
        assert n1 == [TickNotice(0), FinishNotice];
        assert FinishCount(n1) == 1;
        assert rest.1 == [];
      } else {
        assert n1 == [TickNotice(e - times[0])];
        assert FinishCount(n1) == 0;
        RunTicksFinishOnce(t1, times[1..]);
        if exists i | 0 <= i < |times| :: times[i] >= e {
          var i :| 0 <= i < |times| && times[i] >= e;
          assert times[1..][i - 1] == times[i];
        }
        if exists i | 0 <= i < |times[1..]| :: times[1..][i] >= e {
          var i :| 0 <= i < |times[1..]| && times[1..][i] >= e;
          assert times[i + 1] >= e;
        }
      }
    }
  }
}

=== FILE: timer_tab.dfy ===
/**
 * The timer page of `ui_timer.py`: the countdown engine plus the session
 * capture that sits on top of it. A session begins at the first start,
 * survives pauses (only running time is accumulated), and ends with exactly
 * one record when it is finished by hand or by the timer, or with none when
 * it is reset. Each handler takes the instant `now` (whole seconds) and the
 * local calendar date of that instant as `YYYY-MM-DD` text, and returns the
 * new page state together with the records it handed to `add_session`.
 */
module TimerTab {
  import opened Common
  import opened Text
  import opened Countdown
  import opened Presets

  // ---------------------------------------------------------------------------
  // State
  // ---------------------------------------------------------------------------

  datatype Phase = Work | ShortBreak | LongBreak

  /** The configuration keys the page reads; `None` where a key is absent. */
  datatype Config = Config(
    tags: Option<seq<string>>,
    workMin: Option<int>,
    shortBreakMin: Option<int>,
    longBreakMin: Option<int>,
    longEvery: Option<int>)

  /**
   * The widgets the logic reads: the minute and second spinboxes (`None`
   * when the entry is not an integer), the editable tag box with its list,
   * and the note text.
   */
  datatype Form = Form(minutes: Option<int>, seconds: Option<int>, tagText: string, tags: seq<string>, noteText: string)

  /** `_session_active`, `_current_tag`, `_current_note`, `_current_start_ts`, `_last_run_start_ts`, `_accum_active_s`. */
  datatype Capture = Capture(
    active: bool,
    tag: Option<string>,
    note: string,
    startTs: Option<int>,
    lastRunStart: Option<int>,
    accum: int)

  const Idle: Capture := Capture(false, None, "", None, None, 0)

  datatype EndedBy = Auto | Manual

  /** The dictionary `_finalize_session` passes to `add_session`. */
  datatype SessionRecord = SessionRecord(
    startTs: int,
    endTs: int,
    durationS: int,
    tag: string,
    note: string,
    date: string,
    endedBy: EndedBy)

  /** The page: configuration, widgets, timer, the last value shown on the clock, capture and Pomodoro state. */
  datatype Tab = Tab(
    config: Config,
    form: Form,
    timer: Timer,
    shown: int,
    cap: Capture,
    autoMode: bool,
    phase: Phase,
    cycles: int)

  /** A handler's result: the new page and the records it emitted, in order. */
  datatype Outcome = Outcome(tab: Tab, records: seq<SessionRecord>)

  function Preset(tab: Tab): int {
    PresetSeconds(tab.form.minutes, tab.form.seconds)
  }

  // ---------------------------------------------------------------------------
  // Tags
  // ---------------------------------------------------------------------------

  const OtherTag: string := "Other"
  const MaxTagLength: nat := 30

  /** `(t or "").strip()[:30] or "Other"`. */
  function NormalizeTag(t: string): (r: string)
    ensures 1 <= |r| <= MaxTagLength
    ensures AllSpace(t) ==> r == OtherTag
    ensures !AllSpace(t) ==> r == Strip(t)[..Min(MaxTagLength, |Strip(t)|)]
  {
    var s := Strip(t);
    var cut := if |s| <= MaxTagLength then s else s[..MaxTagLength];
    if cut == "" then OtherTag else cut
  }

  /** A tag that is already stripped and short enough is kept as it is. */
  lemma NormalizeTagKeeps(t: string)
    requires Stripped(t) && 1 <= |t| <= MaxTagLength
    ensures NormalizeTag(t) == t
  {
    StripOfStripped(t);
  }

  /**
   * Cutting at 30 characters can leave whitespace at the end, so
   * normalising is not idempotent: the second pass strips it off.
   */
  lemma NormalizeTagNotIdempotent()
    ensures var t := "a" + seq(29, _ => ' ') + "b";
      NormalizeTag(t) == "a" + seq(29, _ => ' ') && NormalizeTag(NormalizeTag(t)) == "a"
  {
    var t := "a" + seq(29, _ => ' ') + "b";
    assert Stripped(t);
    StripOfStripped(t);
    var u := "a" + seq(29, _ => ' ');
    assert t[..MaxTagLength] == u;
    var v := "a";
    assert TrimStart(u) == u;
    TrimEndOfSpaces(u, 1);
    assert Strip(u) == v;
  }

  lemma {:induction false} TrimEndOfSpaces(u: string, k: nat)
    requires k <= |u| && AllSpace(u[k..]) && (k > 0 ==> !IsSpace(u[k - 1]))
    ensures TrimEnd(u) == u[..k]
    decreases |u|
  {
    if |u| > k {
      assert IsSpace(u[|u| - 1]) by { assert u[k..][|u| - 1 - k] == u[|u| - 1]; }
      var w := u[..|u| - 1];
      assert w[k..] == u[k..][..|u| - 1 - k];
      TrimEndOfSpaces(w, k);
      assert w[..k] == u[..k];
    } else {
      assert u[..k] == u;
    }
  }

  predicate NoDuplicates(xs: seq<string>) {
    forall i, j | 0 <= i < j < |xs| :: xs[i] != xs[j]
  }

  /** `_add_tag`: normalises the entry, appends it to the list when new, and shows it. */
  function AddTag(f: Form): (r: Form)
    ensures r.tagText == NormalizeTag(f.tagText) && r.tagText in r.tags
    ensures NormalizeTag(f.tagText) in f.tags ==> r.tags == f.tags
    ensures NormalizeTag(f.tagText) !in f.tags ==> r.tags == f.tags + [NormalizeTag(f.tagText)]
    ensures NoDuplicates(f.tags) ==> NoDuplicates(r.tags)
    ensures r.(tagText := f.tagText, tags := f.tags) == f
  {
    var t := NormalizeTag(f.tagText);
    var values := if t in f.tags then f.tags else f.tags + [t];
    f.(tags := values, tagText := t)
  }

  /**
   * `_add_tag` on the page: the list and the entry change as `AddTag` says,
   * and `_save_tags` stores the list in the configuration only when the
   * tag was appended.
   */
  function AddTagOnPage(tab: Tab): (r: Tab)
    ensures r.form == AddTag(tab.form)
    ensures NormalizeTag(tab.form.tagText) in tab.form.tags ==> r.config == tab.config
    ensures NormalizeTag(tab.form.tagText) !in tab.form.tags ==>
      r.config == tab.config.(tags := Some(tab.form.tags + [NormalizeTag(tab.form.tagText)]))
    ensures r.(form := tab.form, config := tab.config) == tab
  {
    var form := AddTag(tab.form);
    if NormalizeTag(tab.form.tagText) in tab.form.tags then tab.(form := form)
    else tab.(form := form, config := tab.config.(tags := Some(form.tags)))
  }

  /** The list without any copy of `t`. */
  function Without(xs: seq<string>, t: string): (r: seq<string>)
    ensures forall x :: x in r <==> x in xs && x != t
    ensures |r| <= |xs|
    ensures NoDuplicates(xs) ==> NoDuplicates(r)
    ensures |xs| > 0 && xs[0] != t ==> |r| > 0 && r[0] == xs[0]
  {
    if |xs| == 0 then []
    else
      var rest := Without(xs[1..], t);
      if xs[0] == t then rest
      else
        var r := [xs[0]] + rest;
        assert NoDuplicates(xs) ==> xs[0] !in xs[1..];
        r
  }

  /**
   * `_delete_tag`: refused (nothing changes) when the normalised entry is the
   * tag of the active session; otherwise every copy leaves the list, an
   * emptied list becomes `["Other"]`, and the first remaining tag is shown.
   */
  function DeleteTag(tab: Tab): (r: Tab)
    ensures InUse(tab) ==> r == tab
    ensures !InUse(tab) ==> NormalizeTag(tab.form.tagText) !in r.form.tags || r.form.tags == [OtherTag]
    ensures !InUse(tab) ==> forall x :: x in r.form.tags ==> x in tab.form.tags || x == OtherTag
    ensures !InUse(tab) ==> |r.form.tags| >= 1 && r.form.tagText == r.form.tags[0]
    ensures !InUse(tab) ==>
      forall x :: x in tab.form.tags && x != NormalizeTag(tab.form.tagText) ==> x in r.form.tags
    ensures !InUse(tab) ==> r.config == tab.config.(tags := Some(r.form.tags))
    ensures !InUse(tab) && |Without(tab.form.tags, NormalizeTag(tab.form.tagText))| > 0 ==>
      r.form.tags == Without(tab.form.tags, NormalizeTag(tab.form.tagText))
    ensures !InUse(tab) && |Without(tab.form.tags, NormalizeTag(tab.form.tagText))| == 0 ==>
      r.form.tags == [OtherTag] && r.form.tagText == OtherTag
    ensures !InUse(tab) && |tab.form.tags| > 0 && tab.form.tags[0] != NormalizeTag(tab.form.tagText) ==>
      r.form.tagText == tab.form.tags[0]
    ensures NoDuplicates(tab.form.tags) ==> NoDuplicates(r.form.tags)
    ensures r.(form := tab.form, config := tab.config) == tab
  {
    if InUse(tab) then tab
    else
      var values := Without(tab.form.tags, NormalizeTag(tab.form.tagText));
      var values' := if |values| == 0 then [OtherTag] else values;
      var form := tab.form.(tags := values', tagText := values'[0]);
      tab.(form := form, config := tab.config.(tags := Some(values')))
  }

  /** The filter keeps list order: filtering a concatenation filters each part. */
  lemma {:induction false} WithoutConcat(a: seq<string>, b: seq<string>, t: string)
    ensures Without(a + b, t) == Without(a, t) + Without(b, t)
    decreases |a|
  {
    if |a| > 0 {
      assert (a + b)[1..] == a[1..] + b;
      WithoutConcat(a[1..], b, t);
    } else {
      assert a + b == b;
    }
  }

  /** A one-tag list is kept when it is another tag and emptied when it is `t`. */
  lemma WithoutSingle(x: string, t: string)
    ensures Without([x], t) == if x == t then [] else [x]
  {
    assert [x][1..] == [];
  }

  /** A list made only of copies of `t` filters to nothing. */
  lemma {:induction false} WithoutOnlyT(xs: seq<string>, t: string)
    requires forall j | 0 <= j < |xs| :: xs[j] == t
    ensures Without(xs, t) == []
    decreases |xs|
  {
    if |xs| > 0 {
      WithoutOnlyT(xs[1..], t);
    }
  }

  /**
   * Deleting shows the first tag of the list that is not the deleted one,
   * as `values[0]` of the order-keeping filter does.
   */
  lemma DeleteShowsFirstSurvivor(tab: Tab, i: nat)
    requires !InUse(tab)
    requires i < |tab.form.tags| && tab.form.tags[i] != NormalizeTag(tab.form.tagText)
    requires forall j | 0 <= j < i :: tab.form.tags[j] == NormalizeTag(tab.form.tagText)
    ensures DeleteTag(tab).form.tagText == tab.form.tags[i]
  {
    var xs, t := tab.form.tags, NormalizeTag(tab.form.tagText);
    assert xs == xs[..i] + xs[i..];
    WithoutConcat(xs[..i], xs[i..], t);
    WithoutOnlyT(xs[..i], t);
    assert Without(xs, t) == Without(xs[i..], t);
  }

  /** Removing a tag the list does not hold gives the list back. */
  lemma {:induction false} WithoutAbsent(xs: seq<string>, t: string)
    requires t !in xs
    ensures Without(xs, t) == xs
    decreases |xs|
  {
    if |xs| > 0 {
      WithoutAbsent(xs[1..], t);
      assert [xs[0]] + xs[1..] == xs;
    }
  }

  /** Removing a tag that was just appended to a list without it gives the list back. */
  lemma {:induction false} WithoutAppended(xs: seq<string>, t: string)
    requires t !in xs
    ensures Without(xs + [t], t) == xs
    decreases |xs|
  {
    if |xs| == 0 {
      assert ([] + [t])[1..] == [];
    } else {
      assert (xs + [t])[1..] == xs[1..] + [t];
      WithoutAppended(xs[1..], t);
      assert [xs[0]] + xs[1..] == xs;
    }
  }

  /**
   * Adding a new, already clean tag and then deleting it, with no session
   * running, gives back the tag list; the stored list is that list and the
   * entry shows its first tag.
   */
  lemma AddThenDeleteTag(tab: Tab, now: int, date: string)
    requires !tab.cap.active
    requires Stripped(tab.form.tagText) && 1 <= |tab.form.tagText| <= MaxTagLength
    requires tab.form.tagText !in tab.form.tags && |tab.form.tags| > 0
    ensures var back := Step(Step(tab, TagAdded, now, date).tab, TagDeleted, now, date).tab;
      && back.form.tags == tab.form.tags
      && back.form.tagText == tab.form.tags[0]
      && back.config.tags == Some(tab.form.tags)
      && back.cap == tab.cap
  {
    NormalizeTagKeeps(tab.form.tagText);
    WithoutAppended(tab.form.tags, tab.form.tagText);
  }

  /** `self._session_active and t == (self._current_tag or "")`. */
  predicate InUse(tab: Tab) {
    tab.cap.active && NormalizeTag(tab.form.tagText) == tab.cap.tag.GetOr("")
  }

  // ---------------------------------------------------------------------------
  // The session capture
  // ---------------------------------------------------------------------------

  /** Adds the open run segment, if any, to the active time and closes it. */
  function CloseSegment(cap: Capture, now: int): (r: Capture)
    ensures r.lastRunStart.None?
    ensures cap.lastRunStart.Some? ==> r.accum == cap.accum + (now - cap.lastRunStart.value)
    ensures cap.lastRunStart.None? ==> r == cap
    ensures r.(accum := cap.accum, lastRunStart := cap.lastRunStart) == cap
  {
    match cap.lastRunStart
    case Some(l) => cap.(accum := cap.accum + (now - l), lastRunStart := None)
    case None => cap
  }

  /**
   * `_finalize_session`: nothing when no session is active; otherwise one
   * record and the capture cleared. The start instant falls back to the end
   * instant when absent (and, through Python's `or`, when it is 0); the tag
   * falls back to "Other" when absent or empty.
   */
  function Finalize(cap: Capture, auto: bool, now: int, date: string): (r: (Capture, seq<SessionRecord>))
    ensures !cap.active ==> r == (cap, [])
    ensures cap.active ==> r.0 == Idle && |r.1| == 1
    ensures cap.active ==> RecordOf(r.1[0], cap, auto, now, date) && r.1[0].tag != ""
  {
    if !cap.active then (cap, [])
    else
      var start := if cap.startTs.None? || cap.startTs.value == 0 then now else cap.startTs.value;
      var tag := if cap.tag.None? || cap.tag.value == "" then OtherTag else cap.tag.value;
      var rec := SessionRecord(start, now, Max(0, cap.accum), tag, cap.note, date, if auto then Auto else Manual);
      (Idle, [rec])
  }

  /**
   * The record `_finalize_session` builds from capture `cap` at instant
   * `now`: it ends now on `date`; its start is the session's start, or now
   * when that is absent or 0 (Python's `or`); its tag is the session's, or
   * "Other" when absent or empty; its active time is the accumulated time,
   * at least 0; it carries the note and who ended it.
   */
  predicate RecordOf(rec: SessionRecord, cap: Capture, auto: bool, now: int, date: string) {
    && rec.endTs == now
    && rec.date == date
    && (cap.startTs.Some? && cap.startTs.value != 0 ==> rec.startTs == cap.startTs.value)
    && (cap.startTs.None? || cap.startTs == Some(0) ==> rec.startTs == now)
    && (cap.tag.Some? && cap.tag.value != "" ==> rec.tag == cap.tag.value)
    && (cap.tag.None? || cap.tag == Some("") ==> rec.tag == OtherTag)
    && rec.durationS == Max(0, cap.accum)
    && rec.note == cap.note
    && (rec.endedBy == Auto <==> auto)
  }

  /** A second finalize emits nothing: the first one cleared the session. */
  lemma FinalizeTwice(cap: Capture, a1: bool, a2: bool, n1: int, n2: int, d1: string, d2: string)
    ensures var (c1, r1) := Finalize(cap, a1, n1, d1);
      var (c2, r2) := Finalize(c1, a2, n2, d2);
      |r1 + r2| == (if cap.active then 1 else 0) && c2 == c1
  {
  }

  // ---------------------------------------------------------------------------
  // Handlers
  // ---------------------------------------------------------------------------

  /** `_on_tick`: the clock shows the reported remainder. */
  function Show(tab: Tab, seconds: int): Tab {
    tab.(shown := seconds)
  }

  /** `timer.reset(seconds=...)` followed by `_on_tick(timer.remaining)`: both show the same remainder. */
  function ResetTimer(tab: Tab, now: int, seconds: int): (r: Tab)
    ensures !r.timer.running && Remaining(r.timer) == Max(0, seconds) && r.shown == Remaining(r.timer)
    ensures r.timer.remaining == Max(0, seconds)
    ensures r.(timer := tab.timer, shown := tab.shown) == tab
    ensures Valid(tab.timer) ==> Valid(r.timer)
  {
    var (t, notices) := Reset(tab.timer, now, Some(seconds));
    Show(tab.(timer := t), Remaining(t))
  }

  /**
   * `_on_timer_finished`, the timer's finish callback: closes the open run
   * segment of an active session, finalizes it as ended by the timer, and
   * resets the timer to the preset.
   */
  function TimerFinished(tab: Tab, now: int, date: string): (r: Outcome)
    ensures r.tab.cap == Idle || (r.tab.cap == tab.cap && !tab.cap.active)
    ensures |r.records| == (if tab.cap.active then 1 else 0)
    ensures forall rec | rec in r.records :: rec.endedBy == Auto
    ensures tab.cap.active ==> RecordOf(r.records[0], CloseSegment(tab.cap, now), true, now, date)
    ensures !r.tab.timer.running && Remaining(r.tab.timer) == Preset(tab)
    ensures r.tab.(timer := tab.timer, shown := tab.shown, cap := tab.cap) == tab
  {
    var cap := if tab.cap.active then CloseSegment(tab.cap, now) else tab.cap;
    var (cap', recs) := Finalize(cap, true, now, date);
    Outcome(ResetTimer(tab.(cap := cap'), now, Preset(tab)), recs)
  }

  /** Runs the callbacks a timer step fired, in order. */
  function Deliver(tab: Tab, notices: seq<Notice>, now: int, date: string): (r: Outcome)
    ensures (forall k | 0 <= k < |notices| :: notices[k].TickNotice?) ==> r.tab.cap == tab.cap && r.records == []
    ensures FinishNotice !in notices ==> r.tab.timer == tab.timer && r.tab.cap == tab.cap
    ensures r.tab.phase == tab.phase && r.tab.cycles == tab.cycles && r.tab.autoMode == tab.autoMode
    decreases |notices|
  {
    if |notices| == 0 then Outcome(tab, [])
    else
      var first := match notices[0]
        case TickNotice(s) => Outcome(Show(tab, s), [])
        case FinishNotice => TimerFinished(tab, now, date);
      var rest := Deliver(first.tab, notices[1..], now, date);
      assert notices == [notices[0]] + notices[1..];
      Outcome(rest.tab, first.records + rest.records)
  }

  /** A first start with time on the timer opens the session and leaves the timer running, showing its remainder. */
  lemma FirstStart(tab: Tab, now: int, date: string)
    requires !tab.timer.running && !tab.cap.active && tab.timer.remaining > 0
    ensures var r := OnStart(tab, now, date);
      && r.records == []
      && r.tab.timer.running && r.tab.timer.endTs == Some(now + tab.timer.remaining)
      && r.tab.shown == tab.timer.remaining
      && r.tab.cap == Capture(true, Some(NormalizeTag(tab.form.tagText)), Strip(tab.form.noteText), Some(now), Some(now), 0)
  {
    StartRuns(tab, now, date);
  }

  /** Starting a stopped timer with time left: the session opens or resumes, the timer runs, nothing is recorded. */
  lemma StartRuns(tab: Tab, now: int, date: string)
    requires !tab.timer.running && tab.timer.remaining > 0
    ensures var rem := tab.timer.remaining;
      var r := OnStart(tab, now, date);
      && r.records == []
      && r.tab == Show(OpenSession(tab, now).(timer := Timer(true, rem, Some(now + rem))), rem)
  {
    OnStartOpens(tab, now, date);
    RunTimerStart(OpenSession(tab, now), tab.timer, now, date);
  }

  /** `on_start` on a stopped timer: open or resume the session, then start the page's own timer. */
  lemma OnStartOpens(tab: Tab, now: int, date: string)
    requires !tab.timer.running
    ensures OnStart(tab, now, date) == RunTimer(OpenSession(tab, now), Start(tab.timer, now), now, date)
  {
    assert OpenSession(tab, now).timer == tab.timer;
  }

  /** The page's timer replaced by `t0` started: running towards `now` plus its remainder, which is shown. */
  lemma RunTimerStart(tab: Tab, t0: Timer, now: int, date: string)
    requires !t0.running && t0.remaining > 0
    ensures var rem := t0.remaining;
      RunTimer(tab, Start(t0, now), now, date) == Outcome(Show(tab.(timer := Timer(true, rem, Some(now + rem))), rem), [])
  {
    var rem := t0.remaining;
    var t := Timer(true, rem, Some(now + rem));
    StartWithTimeLeft(t0, now);
    DeliverOne(tab.(timer := t), TickNotice(rem), now, date);
  }

  lemma DeliverOne(tab: Tab, n: Notice, now: int, date: string)
    ensures Deliver(tab, [n], now, date) ==
      match n
      case TickNotice(s) => Outcome(Show(tab, s), [])
      case FinishNotice => TimerFinished(tab, now, date)
  {
    assert [n][1..] == [];
  }

  /** A first start on an empty timer finishes at once: one record of no active time, ended by the timer. */
  lemma FirstStartAtZero(tab: Tab, now: int, date: string)
    requires !tab.timer.running && !tab.cap.active && tab.timer.remaining == 0
    ensures var r := OnStart(tab, now, date);
      && |r.records| == 1
      && r.records[0].durationS == 0 && r.records[0].endedBy == Auto
      && r.records[0].startTs == now && r.records[0].endTs == now
      && r.tab.cap == Idle && !r.tab.timer.running && Remaining(r.tab.timer) == Preset(tab)
  {
    var ready := OpenSession(tab, now);
    StartAtZeroFinishes(ready.timer, now);
    var started := ready.(timer := Timer(false, 0, Some(now)));
    var shown := Show(started, 0);
    assert Deliver(started, [TickNotice(0), FinishNotice], now, date)
        == Outcome(Deliver(shown, [FinishNotice], now, date).tab, [] + Deliver(shown, [FinishNotice], now, date).records) by {
      assert [TickNotice(0), FinishNotice][1..] == [FinishNotice];
    }
    DeliverOne(shown, FinishNotice, now, date);
    var fin := TimerFinished(shown, now, date);
    assert CloseSegment(shown.cap, now).accum == 0;
  }

  /** A timer step inside the page: the step itself, then the callbacks it fired. */
  function RunTimer(tab: Tab, step: (Timer, seq<Notice>), now: int, date: string): Outcome {
    Deliver(tab.(timer := step.0), step.1, now, date)
  }

  /**
   * `on_start`: nothing while the timer runs. A first start opens a session
   * with the normalised tag (added to the list), the stripped note, and both
   * the session and the run segment starting now; a resume only reopens the
   * run segment when none is open. Then the timer starts, which may finish
   * at once when nothing is left.
   */
  function OnStart(tab: Tab, now: int, date: string): (r: Outcome)
    ensures tab.timer.running ==> r == Outcome(tab, [])
    ensures r.tab.phase == tab.phase && r.tab.cycles == tab.cycles && r.tab.autoMode == tab.autoMode
  {
    if tab.timer.running then Outcome(tab, [])
    else
      var ready := OpenSession(tab, now);
      RunTimer(ready, Start(ready.timer, now), now, date)
  }

  /** The capture changes `on_start` makes before starting the timer. */
  function OpenSession(tab: Tab, now: int): (r: Tab)
    ensures !tab.cap.active ==> r.cap == Capture(true, Some(NormalizeTag(tab.form.tagText)), Strip(tab.form.noteText), Some(now), Some(now), 0)
    ensures !tab.cap.active ==> r.form == AddTag(tab.form)
    ensures !tab.cap.active && NormalizeTag(tab.form.tagText) in tab.form.tags ==> r.config == tab.config
    ensures !tab.cap.active && NormalizeTag(tab.form.tagText) !in tab.form.tags ==>
      r.config.tags == Some(r.form.tags) && r.config.(tags := tab.config.tags) == tab.config
    ensures tab.cap.active ==>
      r.form == tab.form && r.config == tab.config
      && r.cap == tab.cap.(lastRunStart := Some(tab.cap.lastRunStart.GetOr(now)))
    ensures r.(form := tab.form, config := tab.config, cap := tab.cap) == tab
  {
    if !tab.cap.active then
      var t := NormalizeTag(tab.form.tagText);
      AddTagOnPage(tab).(cap := Capture(true, Some(t), Strip(tab.form.noteText), Some(now), Some(now), 0))
    else if tab.cap.lastRunStart.None? then
      tab.(cap := tab.cap.(lastRunStart := Some(now)))
    else tab
  }

  /** `on_pause`: when the timer runs, pause it and close the open run segment. */
  function OnPause(tab: Tab, now: int): (r: Tab)
    ensures !tab.timer.running ==> r == tab
    ensures tab.timer.running ==> r.timer == Pause(tab.timer, now) && r.cap == CloseSegment(tab.cap, now)
    ensures !r.timer.running
    ensures tab.timer.running ==> r.cap.lastRunStart.None?
  {
    if tab.timer.running then
      tab.(timer := Pause(tab.timer, now), cap := CloseSegment(tab.cap, now))
    else tab
  }

  /**
   * `on_finish`: nothing without an active session; otherwise pause a
   * running timer closing its run segment, finalize the session as ended by
   * hand, and reset the timer to the preset.
   */
  function OnFinish(tab: Tab, now: int, date: string): (r: Outcome)
    ensures !tab.cap.active ==> r == Outcome(tab, [])
    ensures tab.cap.active ==> |r.records| == 1 && r.records[0].endedBy == Manual && r.tab.cap == Idle
    ensures tab.cap.active ==> !r.tab.timer.running && Remaining(r.tab.timer) == Preset(tab)
    ensures tab.cap.active ==>
      RecordOf(r.records[0], if tab.timer.running then CloseSegment(tab.cap, now) else tab.cap, false, now, date)
    ensures r.tab.(timer := tab.timer, shown := tab.shown, cap := tab.cap) == tab
  {
    if !tab.cap.active then Outcome(tab, [])
    else
      var paused := OnPause(tab, now);
      var (cap, recs) := Finalize(paused.cap, false, now, date);
      Outcome(ResetTimer(paused.(cap := cap), now, Preset(tab)), recs)
  }

  /** `on_reset`: the timer stops at the preset and the session is dropped without a record. */
  function OnReset(tab: Tab, now: int): (r: Tab)
    ensures r.cap == Idle
    ensures !r.timer.running && Remaining(r.timer) == Preset(tab) && r.shown == Preset(tab)
    ensures r.form == tab.form
  {
    ResetTimer(tab, now, Preset(tab)).(cap := Idle)
  }

  /** `_on_preset_changed`: a stopped timer takes the new preset; a running one is left alone. */
  function OnPresetChanged(tab: Tab): (r: Tab)
    ensures tab.timer.running ==> r == tab
    ensures !tab.timer.running ==> Remaining(r.timer) == Preset(tab) && r.shown == Preset(tab) && !r.timer.running
    ensures r.cap == tab.cap && r.form == tab.form
  {
    if tab.timer.running then tab
    else
      var t := SetSeconds(tab.timer, Preset(tab));
      tab.(timer := t, shown := Remaining(t))
  }

  /** Reacting to a preset change twice is the same as reacting once. */
  lemma OnPresetChangedIdempotent(tab: Tab)
    ensures OnPresetChanged(OnPresetChanged(tab)) == OnPresetChanged(tab)
  {
  }

  // ---------------------------------------------------------------------------
  // Pomodoro auto mode
  // ---------------------------------------------------------------------------

  /** The configured length of a phase, in minutes. */
  function PhaseMinutes(config: Config, phase: Phase): int {
    match phase
    case Work => config.workMin.GetOr(25)
    case ShortBreak => config.shortBreakMin.GetOr(5)
    case LongBreak => config.longBreakMin.GetOr(15)
  }

  /** `_set_phase`: records the phase and, in auto mode, resets the timer to the phase's length. */
  function SetPhase(tab: Tab, phase: Phase, now: int): (r: Tab)
    ensures r.phase == phase && r.cap == tab.cap && r.cycles == tab.cycles
    ensures tab.autoMode ==> !r.timer.running && r.timer.remaining == Max(0, PhaseMinutes(tab.config, phase) * 60)
    ensures !tab.autoMode ==> r.timer == tab.timer
  {
    var t := tab.(phase := phase);
    if tab.autoMode then ResetTimer(t, now, PhaseMinutes(tab.config, phase) * 60) else t
  }

  /**
   * In auto mode with a non-negative phase length, the clock's `MM:SS` text
   * is the `f"{mins:02d}:00"` that `_set_phase` writes.
   */
  lemma SetPhaseClockText(tab: Tab, phase: Phase, now: int)
    requires tab.autoMode && PhaseMinutes(tab.config, phase) >= 0
    ensures FormatMmss(SetPhase(tab, phase, now).shown) == FormatInt02(PhaseMinutes(tab.config, phase)) + ":00"
  {
    var m := PhaseMinutes(tab.config, phase);
    assert MinutesSeconds(m * 60) == (m, 0);
    assert FormatInt02(0) == "00";
  }

  /**
   * The phase after `phase` with `count` work phases done: after work the
   * count goes up and the break is long exactly when the new count is a
   * multiple of `longEvery`; after a break, work. With `longEvery == 0`
   * Python's `%` raises after the count was raised: `Err` carries it.
   * (Python's `%` and Dafny's differ for a negative divisor, but both give 0
   * exactly on multiples.)
   */
  function NextPhase(phase: Phase, count: int, longEvery: int): (r: Result<(Phase, int), int>)
    ensures phase != Work ==> r == Ok((Work, count))
    ensures phase == Work && longEvery == 0 ==> r == Err(count + 1)
    ensures phase == Work && longEvery != 0 ==> r.Ok? && r.value.1 == count + 1
    ensures phase == Work && longEvery != 0 ==>
      (r.value.0 == LongBreak <==> exists k :: (count + 1) == k * longEvery)
    ensures r.Ok? && phase == Work ==> r.value.0 != Work
  {
    if phase == Work then
      var c := count + 1;
      if longEvery == 0 then Err(c)
      else
        MultipleIffModZero(c, longEvery);
        Ok((if c % longEvery == 0 then LongBreak else ShortBreak, c))
    else Ok((Work, count))
  }

  lemma MultipleIffModZero(c: int, d: int)
    requires d != 0
    ensures c % d == 0 <==> exists k :: c == k * d
  {
    if c % d == 0 {
      assert c == (c / d) * d;
    } else {
      if exists k :: c == k * d {
        var k :| c == k * d;
        ModOfMultiple(k, d);
      }
    }
  }

  lemma ModOfMultiple(k: int, d: int)
    requires d != 0
    ensures (k * d) % d == 0
  {
    var q, m := (k * d) / d, (k * d) % d;
    assert k * d == q * d + m;
    assert (k - q) * d == m;
    if d > 0 {
      MulBounds(k - q, d);
    } else {
      assert (q - k) * -d == m;
      MulBounds(q - k, -d);
    }
  }

  /** A multiple of `d > 0` is either at most 0 or at least `d`. */
  lemma MulBounds(a: int, d: int)
    requires d > 0
    ensures a <= 0 ==> a * d <= 0
    ensures a >= 1 ==> a * d >= d
  {
  }

  /**
   * `_advance_pomodoro_cycle`: moves to the next phase (resetting the timer
   * in auto mode) and starts it. `Err` is the ZeroDivisionError raised when
   * `long_every` is 0, with the count already raised.
   */
  function AdvancePomodoro(tab: Tab, now: int, date: string): (r: Result<Outcome, Tab>)
    ensures r.Err? <==> tab.phase == Work && tab.config.longEvery.GetOr(4) == 0
    ensures r.Err? ==> r.error == tab.(cycles := tab.cycles + 1)
    ensures r.Ok? ==> NextPhase(tab.phase, tab.cycles, tab.config.longEvery.GetOr(4)).Ok?
    ensures r.Ok? ==> var next := NextPhase(tab.phase, tab.cycles, tab.config.longEvery.GetOr(4)).value;
      && r.value.tab.phase == next.0 && r.value.tab.cycles == next.1
      && r.value == OnStart(SetPhase(tab.(cycles := next.1), next.0, now), now, date)
  {
    match NextPhase(tab.phase, tab.cycles, tab.config.longEvery.GetOr(4))
    case Err(c) => Err(tab.(cycles := c))
    case Ok((phase, c)) =>
      var t := SetPhase(tab.(cycles := c), phase, now);
      Ok(OnStart(t, now, date))
  }

  /**
   * From work, an advance (with `long_every` not 0) lands in a break and
   * counts one more work phase, the break being long exactly on multiples
   * of `long_every`; from a break it lands in work with the count unchanged.
   */
  lemma AdvanceAlternates(tab: Tab, now: int, date: string)
    requires tab.phase != Work || tab.config.longEvery.GetOr(4) != 0
    ensures var r := AdvancePomodoro(tab, now, date);
      && r.Ok?
      && (tab.phase == Work ==>
            && r.value.tab.phase != Work && r.value.tab.cycles == tab.cycles + 1
            && (r.value.tab.phase == LongBreak <==> exists k :: tab.cycles + 1 == k * tab.config.longEvery.GetOr(4)))
      && (tab.phase != Work ==> r.value.tab.phase == Work && r.value.tab.cycles == tab.cycles)
  {
  }

  /**
   * `_on_auto_mode_toggled`, after the check box flipped the mode. Switching
   * on writes the work length and 0 into the minute and second boxes (each
   * write fires the preset trace); either way `_set_phase("work")` follows,
   * which in auto mode resets the timer to the work length. That reset stops
   * a running timer without closing the open run segment.
   */
  function OnAutoToggled(tab: Tab, now: int): (r: Tab)
    ensures r.autoMode == !tab.autoMode && r.phase == Work
    ensures r.cap == tab.cap && r.cycles == tab.cycles && r.config == tab.config
    ensures !tab.autoMode ==>
      && r.form == tab.form.(minutes := Some(PhaseMinutes(tab.config, Work)), seconds := Some(0))
      && !r.timer.running && Remaining(r.timer) == Max(0, PhaseMinutes(tab.config, Work) * 60)
      && r.shown == Remaining(r.timer)
    ensures tab.autoMode ==> r == tab.(autoMode := false, phase := Work)
    ensures Valid(tab.timer) ==> Valid(r.timer)
  {
    var on := !tab.autoMode;
    var t := tab.(autoMode := on);
    var edited :=
      if on then
        var m := OnPresetChanged(t.(form := t.form.(minutes := Some(PhaseMinutes(t.config, Work)))));
        OnPresetChanged(m.(form := m.form.(seconds := Some(0))))
      else t;
    SetPhase(edited, Work, now)
  }

  /**
   * Switching auto mode on while a session runs stops the timer but keeps
   * the run segment open, so the stopped time until the next pause or finish
   * counts as active: started at 100, switched at 110, started again at 200
   * and finished at 205, the record holds 105 seconds although the timer ran
   * for 15.
   */
  lemma AutoToggleCountsStoppedTime(tab: Tab)
    requires Inv(tab) && tab.cap == Idle && !tab.autoMode
    requires !tab.timer.running && tab.timer.remaining >= 300
    requires PhaseMinutes(tab.config, Work) >= 5
    ensures var o1 := Step(tab, StartPressed, 100, "d");
      var o2 := Step(o1.tab, AutoToggled, 110, "d");
      var o3 := Step(o2.tab, StartPressed, 200, "d");
      var o4 := Step(o3.tab, FinishPressed, 205, "d");
      && o1.records == [] && o2.records == [] && o3.records == []
      && !o2.tab.timer.running
      && |o4.records| == 1 && o4.records[0].durationS == 105
      && o4.records[0].startTs == 100 && o4.records[0].endTs == 205
  {
    StartThenAutoToggle(tab);
    var o2 := Step(Step(tab, StartPressed, 100, "d").tab, AutoToggled, 110, "d");
    RestartAndFinish(o2.tab);
  }

  /** Starting a session and then switching auto mode on: the timer stops, the segment stays open. */
  lemma StartThenAutoToggle(tab: Tab)
    requires Inv(tab) && tab.cap == Idle && !tab.autoMode
    requires !tab.timer.running && tab.timer.remaining >= 300
    requires PhaseMinutes(tab.config, Work) >= 5
    ensures var o1 := Step(tab, StartPressed, 100, "d");
      var o2 := Step(o1.tab, AutoToggled, 110, "d");
      && o1.records == [] && o2.records == []
      && o2.tab.cap == Capture(true, Some(NormalizeTag(tab.form.tagText)), Strip(tab.form.noteText), Some(100), Some(100), 0)
      && !o2.tab.timer.running && o2.tab.timer.remaining >= 300
  {
    var o1 := OnStart(tab, 100, "d");
    StartRuns(tab, 100, "d");
    assert o1.tab.cap == Capture(true, Some(NormalizeTag(tab.form.tagText)), Strip(tab.form.noteText), Some(100), Some(100), 0);
    assert !o1.tab.autoMode;
    StepStart(tab, 100, "d");
    StepAutoToggled(o1.tab, 110, "d");
    var t2 := OnAutoToggled(o1.tab, 110);
    assert t2.cap == o1.tab.cap && !t2.timer.running;
    assert t2.timer.remaining == PhaseMinutes(tab.config, Work) * 60;
  }

  /**
   * Starting again and finishing a session whose run segment opened at 100
   * and never closed: the record counts all of 100 to 205 as active.
   */
  lemma RestartAndFinish(tab: Tab)
    requires tab.cap.active && tab.cap.startTs == Some(100) && tab.cap.lastRunStart == Some(100) && tab.cap.accum == 0
    requires !tab.timer.running && tab.timer.remaining >= 300
    ensures var o3 := Step(tab, StartPressed, 200, "d");
      var o4 := Step(o3.tab, FinishPressed, 205, "d");
      && o3.records == []
      && |o4.records| == 1 && o4.records[0].durationS == 105
      && o4.records[0].startTs == 100 && o4.records[0].endTs == 205
  {
    var o3 := OnStart(tab, 200, "d");
    StartRuns(tab, 200, "d");
    assert OpenSession(tab, 200).cap == tab.cap;
    assert o3.tab.cap == tab.cap && o3.tab.timer.running;
    StepStart(tab, 200, "d");
    StepFinish(o3.tab, 205, "d");
    var o4 := OnFinish(o3.tab, 205, "d");
    assert CloseSegment(o3.tab.cap, 205).accum == 105;
    assert RecordOf(o4.records[0], CloseSegment(o3.tab.cap, 205), false, 205, "d");
  }

  // ---------------------------------------------------------------------------
  // The page as an event-driven machine
  // ---------------------------------------------------------------------------

  /** The initial tag list: the configured tags, `["Reading", "Other"]` when absent, `["Other"]` when empty. */
  function InitialTags(config: Config): (r: seq<string>)
    ensures |r| >= 1
    ensures config.tags.Some? && |config.tags.value| > 0 ==> r == config.tags.value
    ensures config.tags.None? ==> r == ["Reading", OtherTag]
    ensures config.tags == Some([]) ==> r == [OtherTag]
  {
    var tags := config.tags.GetOr(["Reading", "Other"]);
    if |tags| == 0 then [OtherTag] else tags
  }

  /** The page as `__init__` leaves it: default preset 25:00 on a stopped timer, no session, work phase. */
  function InitTab(config: Config): (r: Tab)
    ensures Inv(r) && r.cap == Idle && !r.timer.running
    ensures Remaining(r.timer) == DefaultSeconds && r.shown == DefaultSeconds
    ensures |r.form.tags| >= 1 && r.form.tagText == r.form.tags[0]
  {
    var tags := InitialTags(config);
    var form := Form(Some(DefaultMinutes), Some(DefaultSecondsField), tags[0], tags, "");
    var t := SetSeconds(Countdown.Init(), PresetSeconds(form.minutes, form.seconds));
    Tab(config, form, t, Remaining(t), Idle, false, Work, 0)
  }

  datatype Event =
    | StartPressed
    | PausePressed
    | FinishPressed
    | ResetPressed
    | TimerTicked
    | PresetEdited(minutes: Option<int>, seconds: Option<int>)
    | TagAdded
    | TagDeleted
    | TagTyped(text: string)
    | NoteTyped(text: string)
    | TogglePressed
    | AutoToggled

  /**
   * One event at instant `now`, local date `date`. Only a start, a finish,
   * a timer step or the start/pause key can hand a record to `add_session`.
   */
  function Step(tab: Tab, ev: Event, now: int, date: string): (r: Outcome)
    ensures !(ev.StartPressed? || ev.FinishPressed? || ev.TimerTicked? || ev.TogglePressed?) ==> r.records == []
  {
    match ev
    case StartPressed => OnStart(tab, now, date)
    case PausePressed => Outcome(OnPause(tab, now), [])
    case FinishPressed => OnFinish(tab, now, date)
    case ResetPressed => Outcome(OnReset(tab, now), [])
    case TimerTicked => RunTimer(tab, Tick(tab.timer, now), now, date)
    case PresetEdited(m, s) => Outcome(OnPresetChanged(tab.(form := tab.form.(minutes := m, seconds := s))), [])
    case TagAdded => Outcome(AddTagOnPage(tab), [])
    case TagDeleted => Outcome(DeleteTag(tab), [])
    case TagTyped(t) => Outcome(tab.(form := tab.form.(tagText := t)), [])
    case NoteTyped(t) => Outcome(tab.(form := tab.form.(noteText := t)), [])
    case TogglePressed => OnToggle(tab, now, date)
    case AutoToggled => Outcome(OnAutoToggled(tab, now), [])
  }

  /** `_toggle_start_pause` (the space key). */
  function OnToggle(tab: Tab, now: int, date: string): Outcome {
    if tab.timer.running then Outcome(OnPause(tab, now), []) else OnStart(tab, now, date)
  }

  // The button events, each as its handler (one lemma each keeps the proofs small).

  lemma StepStart(tab: Tab, now: int, date: string)
    ensures Step(tab, StartPressed, now, date) == OnStart(tab, now, date)
  {
  }

  lemma StepFinish(tab: Tab, now: int, date: string)
    ensures Step(tab, FinishPressed, now, date) == OnFinish(tab, now, date)
  {
  }

  lemma StepPause(tab: Tab, now: int, date: string)
    ensures Step(tab, PausePressed, now, date) == Outcome(OnPause(tab, now), [])
  {
  }

  lemma StepAutoToggled(tab: Tab, now: int, date: string)
    ensures Step(tab, AutoToggled, now, date) == Outcome(OnAutoToggled(tab, now), [])
  {
  }

  /** `_toggle_start_pause` (the space key): a pause while the timer runs, a start otherwise. */
  lemma ToggleIsStartOrPause(tab: Tab, now: int, date: string)
    ensures tab.timer.running ==> Step(tab, TogglePressed, now, date) == Outcome(OnPause(tab, now), [])
    ensures !tab.timer.running ==> Step(tab, TogglePressed, now, date) == OnStart(tab, now, date)
  {
    StepToggled(tab, now, date);
    if tab.timer.running {
      assert OnToggle(tab, now, date) == Outcome(OnPause(tab, now), []);
    }
  }

  lemma StepToggled(tab: Tab, now: int, date: string)
    ensures Step(tab, TogglePressed, now, date) == OnToggle(tab, now, date)
  {
  }

  /**
   * The page invariant: the timer is valid; a running timer belongs to an
   * active session with an open run segment; an active session has its tag
   * and start instant; an inactive one holds nothing.
   */
  predicate Inv(tab: Tab) {
    && Valid(tab.timer)
    && (tab.timer.running ==> tab.cap.active && tab.cap.lastRunStart.Some?)
    && (tab.cap.active ==> tab.cap.startTs.Some? && tab.cap.tag.Some? && tab.cap.tag.value != "")
    && (!tab.cap.active ==> tab.cap == Idle)
  }

  /**
   * The capture's clock facts at instant `now`: the session started at a
   * positive instant no later than `now`, active time is not negative, and
   * the start plus the active time so far does not pass the open segment's
   * start (or `now`, with no open segment).
   */
  predicate Timely(cap: Capture, now: int) {
    cap.active ==>
      && cap.startTs.Some? && 1 <= cap.startTs.value <= now
      && cap.accum >= 0
      && (match cap.lastRunStart
          case Some(l) => cap.startTs.value + cap.accum <= l <= now
          case None => cap.startTs.value + cap.accum <= now)
  }

  lemma TimelyLater(cap: Capture, now: int, later: int)
    requires Timely(cap, now) && now <= later
    ensures Timely(cap, later)
  {
  }

  /** A record whose active time fits in its wall-clock span: paused time is never counted. */
  predicate Sound(rec: SessionRecord) {
    0 <= rec.durationS <= rec.endTs - rec.startTs
  }

  /** Closing the open segment keeps the clock facts and never lowers the active time. */
  lemma CloseSegmentTimely(cap: Capture, now: int)
    requires Timely(cap, now) && (cap.lastRunStart.Some? ==> cap.active)
    ensures Timely(CloseSegment(cap, now), now)
    ensures CloseSegment(cap, now).accum >= cap.accum
  {
  }

  lemma FinalizeSound(cap: Capture, auto: bool, now: int, date: string)
    requires Timely(cap, now)
    ensures forall rec | rec in Finalize(cap, auto, now, date).1 :: Sound(rec)
  {
  }

  lemma TimerFinishedKeeps(tab: Tab, now: int, date: string)
    requires Inv(tab) && !tab.timer.running && Timely(tab.cap, now)
    ensures Inv(TimerFinished(tab, now, date).tab) && Timely(TimerFinished(tab, now, date).tab.cap, now)
    ensures forall rec | rec in TimerFinished(tab, now, date).records :: Sound(rec)
  {
    var cap := if tab.cap.active then CloseSegment(tab.cap, now) else tab.cap;
    CloseSegmentTimely(tab.cap, now);
    FinalizeSound(cap, true, now, date);
  }

  /** The notices of one timer step, delivered to a page whose timer is the stepped one. */
  lemma {:induction false} DeliverKeeps(tab: Tab, notices: seq<Notice>, now: int, date: string)
    requires Inv(tab) && Timely(tab.cap, now)
    requires FinishNotice in notices ==> !tab.timer.running
    requires forall k | 0 <= k < |notices| :: notices[k] == FinishNotice ==> k == |notices| - 1
    ensures var r := Deliver(tab, notices, now, date);
      && Inv(r.tab) && Timely(r.tab.cap, now)
      && (forall rec | rec in r.records :: Sound(rec))
      && |r.records| <= 1
    decreases |notices|
  {
    if |notices| > 0 {
      var first := match notices[0]
        case TickNotice(s) => Outcome(Show(tab, s), [])
        case FinishNotice => TimerFinished(tab, now, date);
      if notices[0] == FinishNotice {
        TimerFinishedKeeps(tab, now, date);
        assert |notices| == 1;
        assert notices[1..] == [];
      } else {
        assert first.tab == Show(tab, notices[0].seconds);
        if FinishNotice in notices[1..] {
          var k :| 0 <= k < |notices[1..]| && notices[1..][k] == FinishNotice;
          assert notices[k + 1] == FinishNotice;
        }
        forall k | 0 <= k < |notices[1..]| && notices[1..][k] == FinishNotice
          ensures k == |notices[1..]| - 1
        {
          assert notices[k + 1] == FinishNotice;
        }
      }
      DeliverKeeps(first.tab, notices[1..], now, date);
    }
  }

  /** A timer step's notices end in at most one finish, and a finish comes only from a stopped timer. */
  lemma TimerStepShape(t: Timer, now: int)
    ensures var (t1, ns) := Tick(t, now);
      && (FinishNotice in ns ==> !t1.running)
      && (forall k | 0 <= k < |ns| :: ns[k] == FinishNotice ==> k == |ns| - 1)
  {
  }

  lemma RunTimerKeeps(tab: Tab, t: Timer, now: int, date: string)
    requires Inv(tab) && Timely(tab.cap, now) && Valid(t)
    requires t.running ==> tab.cap.active && tab.cap.lastRunStart.Some?
    ensures var r := RunTimer(tab, Tick(t, now), now, date);
      && Inv(r.tab) && Timely(r.tab.cap, now)
      && (forall rec | rec in r.records :: Sound(rec))
      && |r.records| <= 1
  {
    TimerStepShape(t, now);
    var (t1, ns) := Tick(t, now);
    assert t1.running ==> t.running;
    DeliverKeeps(tab.(timer := t1), ns, now, date);
  }

  /**
   * Every event, at an instant no earlier than the capture's clock facts,
   * keeps the page invariant and the clock facts, emits at most one record,
   * and every record it emits has a duration between 0 and its end minus
   * its start.
   */
  lemma StepKeeps(tab: Tab, ev: Event, now: int, date: string)
    requires Inv(tab) && Timely(tab.cap, now) && now >= 1
    ensures var r := Step(tab, ev, now, date);
      && Inv(r.tab) && Timely(r.tab.cap, now)
      && (forall rec | rec in r.records :: Sound(rec))
      && |r.records| <= 1
  {
    match ev
    case StartPressed =>
      StepStart(tab, now, date);
      OnStartKeeps(tab, now, date);
    case TogglePressed =>
      ToggleIsStartOrPause(tab, now, date);
      if !tab.timer.running {
        StepStart(tab, now, date);
        OnStartKeeps(tab, now, date);
      } else {
        StepPause(tab, now, date);
        CloseSegmentTimely(tab.cap, now);
      }
    case PausePressed =>
      StepPause(tab, now, date);
      CloseSegmentTimely(tab.cap, now);
    case FinishPressed =>
      StepFinish(tab, now, date);
      if tab.cap.active {
        CloseSegmentTimely(tab.cap, now);
        var paused := OnPause(tab, now);
        FinalizeSound(paused.cap, false, now, date);
      }
    case TimerTicked =>
      RunTimerKeeps(tab, tab.timer, now, date);
    case AutoToggled =>
      StepAutoToggled(tab, now, date);
    case _ =>
  }

  lemma OnStartKeeps(tab: Tab, now: int, date: string)
    requires Inv(tab) && Timely(tab.cap, now) && now >= 1
    ensures var r := OnStart(tab, now, date);
      && Inv(r.tab) && Timely(r.tab.cap, now)
      && (forall rec | rec in r.records :: Sound(rec))
      && |r.records| <= 1
  {
    if !tab.timer.running {
      var ready := OpenSession(tab, now);
      OpenSessionKeeps(tab, now);
      var t := Timer(true, ready.timer.remaining, Some(now + ready.timer.remaining));
      assert Start(ready.timer, now) == Tick(t, now);
      assert OnStart(tab, now, date) == RunTimer(ready, Tick(t, now), now, date);
      RunTimerKeeps(ready, t, now, date);
    }
  }

  /** Opening or resuming a session on a stopped page leaves an active session with an open run segment. */
  lemma OpenSessionKeeps(tab: Tab, now: int)
    requires Inv(tab) && Timely(tab.cap, now) && now >= 1 && !tab.timer.running
    ensures var ready := OpenSession(tab, now);
      && Inv(ready) && Timely(ready.cap, now)
      && ready.cap.active && ready.cap.lastRunStart.Some?
      && ready.timer == tab.timer
  {
    var ready := OpenSession(tab, now);
    if !tab.cap.active {
      assert |NormalizeTag(tab.form.tagText)| >= 1;
      assert ready.cap.tag.value != "";
    }
  }

  /** Events at non-decreasing instants, each with its local date. */
  function Run(tab: Tab, evs: seq<(Event, int, string)>): (r: Outcome)
    decreases |evs|
  {
    if |evs| == 0 then Outcome(tab, [])
    else
      var (ev, now, date) := evs[0];
      var first := Step(tab, ev, now, date);
      var rest := Run(first.tab, evs[1..]);
      Outcome(rest.tab, first.records + rest.records)
  }

  predicate Chronological(tab: Tab, evs: seq<(Event, int, string)>) {
    && (forall i | 0 <= i < |evs| :: evs[i].1 >= 1)
    && (forall i, j | 0 <= i < j < |evs| :: evs[i].1 <= evs[j].1)
    && (|evs| > 0 ==> Timely(tab.cap, evs[0].1))
  }

  /**
   * From any page satisfying the invariant, a run of events in time order
   * emits only records whose duration lies between 0 and their end minus
   * their start, and at most one record per event.
   */
  lemma {:induction false} RunRecordsSound(tab: Tab, evs: seq<(Event, int, string)>)
    requires Inv(tab) && Chronological(tab, evs)
    ensures var r := Run(tab, evs);
      Inv(r.tab) && |r.records| <= |evs| && forall rec | rec in r.records :: Sound(rec)
    decreases |evs|
  {
    if |evs| > 0 {
      var (ev, now, date) := evs[0];
      StepKeeps(tab, ev, now, date);
      var first := Step(tab, ev, now, date);
      if |evs| > 1 {
        TimelyLater(first.tab.cap, now, evs[1].1);
      }
      RunRecordsSound(first.tab, evs[1..]);
    }
  }

  /** Resetting never emits a record, whatever the state. */
  lemma ResetEmitsNothing(tab: Tab, now: int, date: string)
    ensures Step(tab, ResetPressed, now, date).records == []
    ensures Step(tab, ResetPressed, now, date).tab.cap == Idle
  {
  }

  /**
   * The example of a session: started at 100, paused at 110, resumed at 210,
   * finished by hand at 215 records 15 seconds of active time.
   */
  lemma PausedTimeNotCounted(tab: Tab)
    requires Inv(tab) && tab.cap == Idle && !tab.timer.running && tab.timer.remaining >= 300
    ensures var o1 := Step(tab, StartPressed, 100, "d");
      var o2 := Step(o1.tab, PausePressed, 110, "d");
      var o3 := Step(o2.tab, StartPressed, 210, "d");
      var o4 := Step(o3.tab, FinishPressed, 215, "d");
      && o1.records == [] && o2.records == [] && o3.records == []
      && |o4.records| == 1
      && o4.records[0].durationS == 15
      && o4.records[0].startTs == 100 && o4.records[0].endTs == 215
  {
    var rem := tab.timer.remaining;
    var o1 := OnStart(tab, 100, "d");
    StartRuns(tab, 100, "d");
    assert o1.tab.timer == Timer(true, rem, Some(100 + rem));
    assert o1.tab.cap == Capture(true, Some(NormalizeTag(tab.form.tagText)), Strip(tab.form.noteText), Some(100), Some(100), 0);
    StepStart(tab, 100, "d");
    StepPause(o1.tab, 110, "d");
    var t2 := OnPause(o1.tab, 110);
    assert t2.cap.accum == 10 && t2.cap.lastRunStart.None?;
    assert t2.timer == Timer(false, rem - 10, None);
    var o3 := OnStart(t2, 210, "d");
    StartRuns(t2, 210, "d");
    assert o3.tab.cap == t2.cap.(lastRunStart := Some(210));
    assert o3.tab.timer.running;
    StepStart(t2, 210, "d");
    StepFinish(o3.tab, 215, "d");
    var o4 := OnFinish(o3.tab, 215, "d");
    assert CloseSegment(o3.tab.cap, 215).accum == 15;
    assert RecordOf(o4.records[0], CloseSegment(o3.tab.cap, 215), false, 215, "d");
  }

  /**
   * Python's `or` treats a session start at instant 0 as missing: the record
   * then starts at its end, and its active time exceeds its span.
   */
  lemma EpochStartQuirk()
    ensures var cap := Capture(true, Some("Work"), "", Some(0), None, 10);
      var rec := Finalize(cap, false, 10, "1970-01-01").1[0];
      rec.startTs == 10 && rec.durationS == 10 && !Sound(rec)
  {
  }
}
